=== FILE: README.md ===
# Farm management: gatekeeping, validation and page helpers

A Dafny model of the decision and aggregation logic of a farm-management web application. The application has two parts: a Spark (Java) backend and a React frontend. The model covers three parts of it.

- **The global request filters of the backend** (`App`, `AuthMiddleware`, `RateLimiterMiddleware`). These run in order: CORS answers pre-flights itself, the login rate limiter counts attempts per IP in fixed one-minute windows, and the JWT gate checks the bearer token and three path-prefix role rules. Each filter is a pure function returning `Allow` or `Halt(status, message)`. The rate limiter is a step function over a map from IP to `(count, startTime)`.
- **The route handlers of the controllers.** Each handler is modelled as a function from the parsed body to a reply (status and reason) plus the record handed to the store. Validation checks are ordered lists of `Guard`s, and the first failing check names the 400. The shared idioms live in module `Http`: GET/DELETE by id, listing, PUT by id, and the two POST styles. Every controller's handlers are stated in those terms, together with their own checks, status defaults and status codes.
- **The pure helpers of the React pages.** These are the search filters, the chart histograms and per-supervisor sums, the monthly sales buckets, the date-sorted chart series, the role-label formatter, the dashboard statistics, and the payloads the forms send.

Everything the code receives from outside is a parameter of the model:
- the JWT verifier and role claim (`verify`, `roleOf`);
- BCrypt hashing;
- the SQL stores (`add`/`update`/`delete` as `bool`, lookups as `Option`);
- the outcome of Gson parsing (`Json<T>`: `Parsed`, `Malformed` or `Null`);
- JavaScript's `parseFloat`, the month a date string falls in, the date formatter;
- the clock `now` of the rate limiter.

Strings are `seq<char>` with ASCII-only case mapping. Java `Integer.parseInt` is modelled with its 32-bit range (`Text.ParseJavaInt`). JavaScript `parseInt` is modelled with its lenient reading of leading digits (`Ui.JsParseInt`). Floating-point quantities are `real`.

## Model

| member | source | states |
|---|---|---|
| AppPipeline.Cors | backend/src/main/java/com/farmmanagement/App.java:65-76 | the CORS filter halts with 200 "OK" exactly when the method is OPTIONS in any letter case, and lets everything else through |
| AppPipeline.Before | backend/src/main/java/com/farmmanagement/App.java:29-42 | every response carries the same four CORS headers (origin http://localhost:5173); a pre-flight halts before the limiter and leaves its table untouched; off the login path the auth gate decides alone; on the login path the limiter's table advances, and the decision is the limiter's 429 when it refuses and the gate's otherwise |
| AppPipeline.Deployed | backend/src/main/java/com/farmmanagement/middleware/AuthMiddleware.java:10-51 | with the role filter as written plugged in, every non-pre-flight request off the login path is decided by that filter |
| AppPipeline.LoginReachesRouteUnlessThrottled | backend/src/main/java/com/farmmanagement/App.java:41-42 | a login request is decided by the rate limiter alone: the auth gate never blocks the public login path, so a throttled login gets 429 and an admitted one reaches the route |
| AppPipeline.PreflightBypassesAuthAndLimiter | backend/src/main/java/com/farmmanagement/App.java:72-74 | a pre-flight of any letter case gets 200 with the CORS headers, needs no token and uses up no login attempt |
| AppPipeline.Intended | backend/src/main/java/com/farmmanagement/middleware/AuthMiddleware.java:47-50 | the filter chain with the role filter its closing comment describes plugged in |
| AppPipeline.AdminEverywhereOnlyWhenIntended | backend/src/main/java/com/farmmanagement/middleware/AuthMiddleware.java:39-50 | a verified admin token reaches every route under the intended chain, while the deployed chain halts it on the manager area |
| Auth.Token | backend/src/main/java/com/farmmanagement/middleware/AuthMiddleware.java:26 | the token is exactly what follows "Bearer " in the header |
| Auth.Decide | backend/src/main/java/com/farmmanagement/middleware/AuthMiddleware.java:13-51 | paths outside /api/ and the two exact public paths pass; otherwise a missing or non-Bearer header is 401 "Missing or invalid Authorization header", an unverified token is 401 "Invalid or expired token", and a verified token passes iff no prefix rule blocks its role; a 403 carries the message of the first blocking rule |
| Auth.RoleOnlyFromToken | backend/src/main/java/com/farmmanagement/middleware/AuthMiddleware.java:31-32 | the decision depends on the role claim of the presented token only: role oracles that agree on it give the same decision |
| Auth.RoleNamesDistinct | backend/src/main/java/com/farmmanagement/middleware/AuthMiddleware.java:34-45 | no role string equals two of "admin", "manajer", "pembeli" ignoring case |
| Auth.GatedPathFacts | backend/src/main/java/com/farmmanagement/middleware/AuthMiddleware.java:34-45 | a manager or buyer path is inspected, not public, and not under the admin or the other prefix |
| Auth.ManagerAdmittedOnManagerPaths | backend/src/main/java/com/farmmanagement/middleware/AuthMiddleware.java:38-40 | the role "manajer" passes every rule on a path under /api/manager |
| Auth.AdminBlockedOutsideAdminPrefix | backend/src/main/java/com/farmmanagement/middleware/AuthMiddleware.java:38-50 | a verified admin token, in any letter case, is refused with 403 on /api/manager and /api/pembeli paths: the bypass after the rules never rescues it |
| Auth.RawPrefixGates | backend/src/main/java/com/farmmanagement/middleware/AuthMiddleware.java:38-40 | prefix matching is raw: "/api/managerial" is gated like the manager area and refuses a buyer with "Access denied: Manager only" |
| Auth.UnprefixedPathAdmitsAnyRole | backend/src/main/java/com/farmmanagement/middleware/AuthMiddleware.java:34-51 | a verified token on a path under none of the three prefixes passes whatever its role claim, including none |
| Auth.PublicPathsAreExact | backend/src/main/java/com/farmmanagement/middleware/AuthMiddleware.java:17-24 | login and register pass without a header, but a path that merely extends the login path gets the 401 for a missing header |
| Auth.DecideAdminFirst | backend/src/main/java/com/farmmanagement/middleware/AuthMiddleware.java:47-50 | corrected filter: a verified admin token on any inspected path passes; every other request (out of scope, no Bearer header, unverified token or non-admin role) is decided as the written filter decides it |
| Auth.AdminBypassCounterexample | backend/src/main/java/com/farmmanagement/middleware/AuthMiddleware.java:38-50 | on "/api/manager/summary" with a verified admin token the written filter answers 403 "Access denied: Manager only" where the corrected one allows |
| RateLimiter.Current | backend/src/main/java/com/farmmanagement/middleware/RateLimiterMiddleware.java:19-25 | an unseen IP starts a window (0, now); a window is reset to (0, now) only when strictly more than 60000 ms old, so one exactly 60000 ms old is kept |
| RateLimiter.Admit | backend/src/main/java/com/farmmanagement/middleware/RateLimiterMiddleware.java:14-32 | an attempt is refused with 429 iff the current window already counts five; a refusal leaves the table unchanged; an admission stores the current window with its count plus one; only the requesting IP's entry changes |
| RateLimiter.Filter | backend/src/main/java/com/farmmanagement/middleware/RateLimiterMiddleware.java:15 | only the login path is rate limited; every other request passes with the table unchanged |
| RateLimiter.AdmitKeepsBounded | backend/src/main/java/com/farmmanagement/middleware/RateLimiterMiddleware.java:27-31 | if every stored count lies in [0, 5] before an attempt, it does after |
| RateLimiter.StaleWindowResets | backend/src/main/java/com/farmmanagement/middleware/RateLimiterMiddleware.java:22-25 | an attempt after an expired window is admitted and opens a new window counting one |
| RateLimiter.Run | backend/src/main/java/com/farmmanagement/middleware/RateLimiterMiddleware.java:14-32 | a series of login attempts from one IP gets one decision per attempt, and an IP already in the table stays in it |
| RateLimiter.RunWithinWindow | backend/src/main/java/com/farmmanagement/middleware/RateLimiterMiddleware.java:9-31 | within one window, an IP that has used `used` attempts gets exactly the next 5 - used admitted and the rest refused with 429, and its count ends at min(5, used + attempts) |
| RateLimiter.FivePerMinute | backend/src/main/java/com/farmmanagement/middleware/RateLimiterMiddleware.java:9-31 | a new IP's attempts within one minute of its first are admitted exactly for the first five |
| Http.FirstFailing | backend/src/main/java/com/farmmanagement/controller/BuyerController.java:41-64 | an ordered chain of checks reports nothing exactly when every check passes |
| Http.FirstFailingIsFirst | backend/src/main/java/com/farmmanagement/controller/BuyerController.java:41-64 | the reported check fails and every check before it passes |
| Http.FirstFailingAt | backend/src/main/java/com/farmmanagement/controller/BuyerController.java:41-64 | a failing check preceded only by passing ones is the one reported |
| Http.FirstFailingEach | backend/src/main/java/com/farmmanagement/controller/BuyerController.java:41-64 | the same, for every position of the chain at once |
| Http.GetById | backend/src/main/java/com/farmmanagement/controller/BuyerController.java:110-129 | a non-numeric id is 400, an absent row 404, a present row 200 with the row; only a 200 carries a record |
| Http.DeleteById | backend/src/main/java/com/farmmanagement/controller/TanamanController.java:146-166 | a numeric id answers 200 iff the store deleted a row and 404 otherwise; a non-numeric id gets the controller's own reply |
| Http.Listing | backend/src/main/java/com/farmmanagement/controller/TanamanController.java:31-41 | a listing is 200 with the store's rows, or 500 when the store fails |
| Http.UpdateById | backend/src/main/java/com/farmmanagement/controller/TanamanController.java:107-143 | a non-numeric id is 400, a syntax error 400, a null body 500; a record is stored iff it parses and, with the path id written over its own, passes every check; a failing check gives 400 naming the first failure; the store's answer picks 200 or 404 |
| Http.CreateChecked | backend/src/main/java/com/farmmanagement/controller/ManagerController.java:46-122 | a syntax error and a null body get their fixed replies; the record, completed by the handler's defaults, is stored iff it passes every check; the first failing check names the 400; the store's answer picks the success or failure reply |
| Http.CreateNonBlank | backend/src/main/java/com/farmmanagement/controller/TanamanController.java:63-104 | a missing or blank raw body is 400 before parsing; otherwise the handler behaves as the checked POST, so nothing is stored from a blank body |
| TanamanRoutes.CropGuards | backend/src/main/java/com/farmmanagement/controller/TanamanController.java:76-79 | a crop passes iff its name is present and non-empty |
| TanamanRoutes.CreateCrop | backend/src/main/java/com/farmmanagement/controller/TanamanController.java:63-104 | blank body 400, bad JSON 400, null record 500; a crop is stored iff its name is non-empty, else 400 naming the name; a stored crop is 201, a refused insert 400 |
| TanamanRoutes.UpdateCrop | backend/src/main/java/com/farmmanagement/controller/TanamanController.java:107-143 | non-numeric id or bad JSON 400, null record 500; the crop is stored under the path id iff its name is non-empty, else 400 naming the name; 200 when a row was updated, else 404 |
| TanamanRoutes.BlankBodyVersusBlankName | backend/src/main/java/com/farmmanagement/controller/TanamanController.java:68-79 | a whitespace-only raw body is refused before parsing, but a well-formed body whose name is only spaces is stored, because the name check does not trim |
| LahanRoutes.PlotGuards | backend/src/main/java/com/farmmanagement/controller/LahanController.java:73-87 | a plot passes iff it has a non-empty name, positive area and positive supervisor id, and that supervisor exists with role "manajer" ignoring case; the first failure is named in that order |
| LahanRoutes.CreatePlot | backend/src/main/java/com/farmmanagement/controller/LahanController.java:62-109 | blank body 400, bad JSON 400, null record 500; a plot is stored iff it passes the checks, else 400 naming the first failing check; 201 on insert, 400 when refused; no other status occurs |
| LahanRoutes.UpdatePlot | backend/src/main/java/com/farmmanagement/controller/LahanController.java:112-158 | non-numeric id or bad JSON 400, null record 500; the plot is stored under the path id iff it passes the same checks, else 400 naming the first failing check; 200 or 404 by the store's answer |
| LahanRoutes.BuyerCannotSupervise | backend/src/main/java/com/farmmanagement/controller/LahanController.java:84-87 | a well-formed plot whose supervisor is a buyer is refused with 400 naming the supervisor role |
| HasilPanenRoutes.HarvestUpdateGuards | backend/src/main/java/com/farmmanagement/controller/HasilPanenController.java:65-68 | a harvest update passes iff quantity and unit price are positive |
| HasilPanenRoutes.UpdateHarvest | backend/src/main/java/com/farmmanagement/controller/HasilPanenController.java:58-92 | non-numeric id or bad JSON 400, null record 500; the harvest is stored under the path id iff quantity and unit price are positive, else 400; 200 or 404 by the store's answer |
| HasilPanenRoutes.PathIdWins | backend/src/main/java/com/farmmanagement/controller/HasilPanenController.java:61-63 | for every numeric path id, an accepted update carries the path id and, apart from the id, exactly the body's fields |
| PembelianRoutes.PurchaseUpdateGuards | backend/src/main/java/com/farmmanagement/controller/PembelianController.java:80-83 | a purchase update passes iff amount and total price are positive |
| PembelianRoutes.UpdatePurchase | backend/src/main/java/com/farmmanagement/controller/PembelianController.java:73-107 | non-numeric id or bad JSON 400, null record 500; the purchase is stored under the path id iff amount and total are positive, else 400; 200 or 404 by the store's answer |
| TanamanLahanRoutes.PlantingUpdateGuards | backend/src/main/java/com/farmmanagement/controller/TanamanLahanController.java:63-71 | a planting update passes iff its status is non-empty and its supervisor id positive, the status checked first |
| TanamanLahanRoutes.UpdatePlanting | backend/src/main/java/com/farmmanagement/controller/TanamanLahanController.java:56-92 | non-numeric id or bad JSON 400, null record 500; the planting is stored under the path id iff the status is non-empty and the supervisor id positive; each failure has its own 400; 200 or 404 by the store's answer |
| TanamanLahanRoutes.BlankStatusPassesUpdate | backend/src/main/java/com/farmmanagement/controller/TanamanLahanController.java:63-66 | a whitespace-only status, which the create route would replace by the default, is stored as is by the update route |
| BuyerRoutes.PurchaseGuards | backend/src/main/java/com/farmmanagement/controller/BuyerController.java:41-64 | a new purchase passes iff buyer id, harvest id, amount and total are positive and the date is present; the first failure is named in the order buyer id, harvest id, amount, total, date |
| BuyerRoutes.CreatePurchase | backend/src/main/java/com/farmmanagement/controller/BuyerController.java:34-89 | bad JSON 400 before any check, null record 500; a purchase is stored iff it passes every check, else 400 naming the first failing check; 200 on insert, 500 when refused |
| BuyerRoutes.AmountReportedBeforeTotal | backend/src/main/java/com/farmmanagement/controller/BuyerController.java:51-59 | with both amount and total zero the 400 names the amount, the earlier check |
| ManagerRoutes.WithDefaultStatus | backend/src/main/java/com/farmmanagement/controller/ManagerController.java:88-91 | a missing or blank harvest status becomes "Menunggu Validasi"; any other harvest is unchanged, and no other field ever changes |
| ManagerRoutes.HarvestGuards | backend/src/main/java/com/farmmanagement/controller/ManagerController.java:53-98 | a new harvest passes iff its ids, quantity and unit price are positive, its date is present, its quality is non-blank and its status is exactly one of the three states; the first failure is named in the order crop id, plot id, supervisor id, quantity, unit price, date, quality, status |
| ManagerRoutes.CreateHarvest | backend/src/main/java/com/farmmanagement/controller/ManagerController.java:46-122 | bad JSON 400, null record 500; the harvest with its defaulted status is stored iff it passes the checks, else 400 naming the first failing check; 200 on insert, 500 when refused |
| ManagerRoutes.ReadingGuards | backend/src/main/java/com/farmmanagement/controller/ManagerController.java:247-265 | a new reading passes iff it has a positive plot id, -50 <= temperature <= 60, 0 <= humidity <= 100 and a date; the first failure is named in the order plot id, temperature, humidity, date |
| ManagerRoutes.CreateReading | backend/src/main/java/com/farmmanagement/controller/ManagerController.java:240-289 | bad JSON 400, null record 500; a reading is stored as sent iff it passes the checks, else 400 naming the first failing check; 200 on insert, 500 when refused |
| ManagerRoutes.ReadingUpdateGuards | backend/src/main/java/com/farmmanagement/controller/ManagerController.java:344-353 | an updated reading passes iff temperature and humidity lie in the same inclusive ranges, temperature reported first; the plot id is not checked |
| ManagerRoutes.UpdateReading | backend/src/main/java/com/farmmanagement/controller/ManagerController.java:337-380 | non-numeric id or bad JSON 400, null record 500; the reading is stored under the path id iff temperature and humidity are in range, else 400 naming the first failing check; 200 or 404 by the store's answer |
| ManagerRoutes.WithDefaultPlantingStatus | backend/src/main/java/com/farmmanagement/controller/ManagerController.java:528-531 | a missing or blank planting status becomes "tumbuh"; any other planting is unchanged, and no other field ever changes |
| ManagerRoutes.PlantingGuards | backend/src/main/java/com/farmmanagement/controller/ManagerController.java:513-538 | a new planting passes iff its plot and crop ids are positive, it has a date and its status lower-cased is tumbuh, panen or selesai; the first failure is named in the order plot id, crop id, date, status |
| ManagerRoutes.CreatePlanting | backend/src/main/java/com/farmmanagement/controller/ManagerController.java:506-562 | bad JSON 400, null record 500; the planting with its defaulted status is stored iff it passes the checks, with the status in the casing it was sent, else 400 naming the first failing check; 200 or 500 by the store's answer |
| ManagerRoutes.StatusCaseSensitivity | backend/src/main/java/com/farmmanagement/controller/ManagerController.java:533-538 | a harvest status in the wrong case ("siap dijual") is refused, while a planting status in capitals ("TUMBUH") is accepted and stored as sent |
| ManagerRoutes.Recent | backend/src/main/java/com/farmmanagement/controller/ManagerController.java:608-611 | the recent list is the first min(3, n) rows in their original order |
| ManagerRoutes.ManagerSummary | backend/src/main/java/com/farmmanagement/controller/ManagerController.java:592-619 | the summary is 200 iff all four lists load, else 500; its totals are the four list sizes and its recent lists the first three rows of each |
| MonitoringRoutes.Create | backend/src/main/java/com/farmmanagement/controller/MonitoringController.java:32-67 | a non-manager gets 403 whatever the body; an unreadable body is 500; a reading is stored iff plot id, temperature and humidity are strictly positive and a date is present, else 400; 201 on insert, 500 when refused |
| MonitoringRoutes.ListAll | backend/src/main/java/com/farmmanagement/controller/MonitoringController.java:73-89 | admin or manager only, else 403; 200 with the store's rows, 500 when the store fails |
| MonitoringRoutes.Get | backend/src/main/java/com/farmmanagement/controller/MonitoringController.java:95-117 | admin or manager only, else 403; then the usual lookup by id |
| MonitoringRoutes.Update | backend/src/main/java/com/farmmanagement/controller/MonitoringController.java:123-153 | admin or manager only, else 403; a non-numeric id or unreadable body is 500; the reading is stored under the path id iff temperature and humidity are not negative, else 400; 200 or 404 by the store's answer |
| MonitoringRoutes.Delete | backend/src/main/java/com/farmmanagement/controller/MonitoringController.java:159-181 | manager only, else 403; then the usual delete by id, with a non-numeric id a 500 |
| MonitoringRoutes.ManajerSpellingRefused | backend/src/main/java/com/farmmanagement/controller/MonitoringController.java:22-24 | the role "manajer" that the rest of the system uses is refused by the manager-only routes |
| MonitoringRoutes.ManagerIgnoresCase | backend/src/main/java/com/farmmanagement/controller/MonitoringController.java:22-24 | any letter case of "manager" is accepted |
| MonitoringRoutes.ZeroReadingOnlyByUpdate | backend/src/main/java/com/farmmanagement/controller/MonitoringController.java:137-140 | a reading with temperature exactly zero is refused by create but stored by update |
| UserRoutes.Register | backend/src/main/java/com/farmmanagement/controller/UserController.java:20-26 | the account saved carries the username, role and name as sent and the hash of the password; the reply is 200 whether or not the save succeeds |
| UserRoutes.Login | backend/src/main/java/com/farmmanagement/controller/UserController.java:29-47 | 200 iff the credentials match an account, with a token issued from that account's username and role; otherwise 401 "Invalid credentials"; a returned account never carries a password |
| UserRoutes.ManagerLoginOpensManagerArea | backend/src/main/java/com/farmmanagement/controller/UserController.java:34-42 | a manager account that logs in and presents its token as a bearer token passes the auth gate on every manager path |
| Text.ParseJavaInt | backend/src/main/java/com/farmmanagement/controller/TanamanController.java:47-54 | a parsed id is a 32-bit integer and the text contained a digit |
| Text.IntToStringRoundTrip | backend/src/main/java/com/farmmanagement/controller/TanamanController.java:47-54 | every 32-bit integer written in decimal parses back to itself |
| Text.ToLower | frontend/src/pages/DaftarTanamanPage.jsx:37 | lower-casing keeps the length and maps each character on its own |
| Text.BeforeFirst | frontend/src/pages/HasilPanenPage.jsx:125 | the text before the first separator is a prefix without the separator, followed by the separator unless it is the whole text |
| Text.BeforeFirstOfJoin | frontend/src/pages/HasilPanenPage.jsx:125 | splitting a joined text at a separator the first part lacks gives that first part back |
| Common.Filter | frontend/src/pages/DashboardBuyer.jsx:238 | the filtered list holds only satisfying elements of the input and every satisfying element |
| Common.FilterIsOrderPreserving | frontend/src/pages/DashboardBuyer.jsx:238 | the filtered list is a subsequence of the input with as many elements as satisfy the predicate |
| Common.FilterNarrowing | frontend/src/pages/TanamanLahanPage.jsx:206-219 | filtering by the owner and then by a stronger condition equals filtering once by the stronger one |
| Common.SumOfFilter | frontend/src/pages/DashboardManager.jsx:303-308 | summing over the kept elements equals summing over all with the others counted as zero |
| Ui.NameOf | frontend/src/pages/HasilPanenPage.jsx:182-185 | the name of the first entry with the id, or the fallback when no entry has it |
| Ui.NameOrId | frontend/src/pages/TanamanLahanPage.jsx:196-204 | the first matching entry's name, one of the listed names, or "ID " followed by the id when nothing matches |
| Ui.AddTo | frontend/src/pages/LahanPage.jsx:122 | adding to a bucket keeps the labels distinct and in order, opens a new last bucket for an unseen key, and changes only the key's total |
| Ui.GroupBy | frontend/src/pages/LahanPage.jsx:118-124 | the buckets have distinct labels, every row's key is a label and every label is some row's key, and each bucket holds the total weight of its rows |
| Ui.GroupByTotal | frontend/src/pages/LahanPage.jsx:118-127 | the bucket totals add up to the total weight of all rows |
| Ui.Histogram | frontend/src/pages/TanamanPage.jsx:98-105 | a histogram's labels are distinct, cover every row and come only from rows, count the rows with each key and add up to the number of rows |
| Ui.Colors | frontend/src/pages/TanamanPage.jsx:125-126 | the colour list is the palette's prefix of length min(labels, palette) |
| Ui.JsParseIntOrZero | frontend/src/pages/TanamanLahanPage.jsx:112 | a rendered integer reads back as itself, a run of digits as its decimal value, and text opening with anything but whitespace, a sign or a digit as 0 |
| Ui.JsParseIntRoundTrip | frontend/src/pages/TanamanLahanPage.jsx:109-111 | every integer written in decimal is read back by parseInt as itself |
| Ui.ParseIntIsLenient | frontend/src/pages/TanamanLahanPage.jsx:109-112 | "12kg" is 12 for the page's parseInt, while the backend's Integer.parseInt refuses it |
| Ui.EditOrCreate | frontend/src/pages/LahanPage.jsx:67-73 | editing PUTs to the base path plus the id with every form field but the id; creating POSTs the whole form to the base path |
| DaftarTanamanPage.Search | frontend/src/pages/DaftarTanamanPage.jsx:35-43 | an empty query keeps every crop; otherwise exactly the matching crops, in their original order |
| DaftarTanamanPage.LongerQueryMatchesLess | frontend/src/pages/DaftarTanamanPage.jsx:37-42 | a crop matching a longer query matches every prefix of it |
| DaftarTanamanPage.RefiningTheQuery | frontend/src/pages/DaftarTanamanPage.jsx:35-43 | searching the results of a query again with an extended query equals searching everything with the extended query |
| DaftarTanamanPage.MissingFieldsNeverMatch | frontend/src/pages/DaftarTanamanPage.jsx:39-41 | a crop without name or kind matches iff the query is empty or its id contains the lower-cased query |
| DashboardBuyer.Available | frontend/src/pages/DashboardBuyer.jsx:235-239 | a harvest is offered iff it is in the list with status exactly "Siap Dijual" |
| DashboardBuyer.AvailableKeepsOrder | frontend/src/pages/DashboardBuyer.jsx:238 | the offered harvests keep their original order |
| DashboardBuyer.ComputeStats | frontend/src/pages/DashboardBuyer.jsx:306-309 | the purchase count and available count are the list lengths; with no purchases both sums are zero |
| DashboardBuyer.UnparsedFiguresAddNothing | frontend/src/pages/DashboardBuyer.jsx:307-308 | a purchase whose figures do not parse adds one to the count and nothing to either sum |
| DashboardBuyer.Average | frontend/src/pages/DashboardBuyer.jsx:534 | the average is 0 with no purchases and otherwise multiplies back to the total |
| DashboardBuyer.AverageOfUniformSpend | frontend/src/pages/DashboardBuyer.jsx:534 | when every purchase spends the same amount the average spend is that amount |
| DashboardBuyer.Payload | frontend/src/pages/DashboardBuyer.jsx:270-276 | the payload holds the ids read with parseInt, the amounts read with parseFloat and the date unchanged |
| DashboardBuyer.AsRecord | backend/src/main/java/com/farmmanagement/controller/BuyerController.java:38 | an id outside Java's `int` range makes the body malformed, and only that does; otherwise a JSON null or missing number arrives in the backend record as zero, each present id and figure is kept, the date is kept and the purchase id is 0 |
| DashboardBuyer.OversizedIdRefused | backend/src/main/java/com/farmmanagement/controller/BuyerController.java:78-82 | a buyer id typed beyond Java's `int` range is refused with 400 for malformed JSON and nothing is stored |
| DashboardBuyer.UnreadableBuyerIdRefused | backend/src/main/java/com/farmmanagement/controller/BuyerController.java:41-44 | a purchase form whose buyer id does not parse is refused with 400 naming the buyer id, or with 400 for malformed JSON when the harvest id lies outside Java's `int` range |
| DashboardBuyer.WellFormedFormIsStored | frontend/src/pages/DashboardBuyer.jsx:268-279 | a form with positive ids within Java's `int` range and positive amounts is stored by the backend with exactly those values and its date |
| DashboardManager.ComputeStats | frontend/src/pages/DashboardManager.jsx:301-308 | the plot count counts the user's plots, the crop count is the number of crops, the weight and revenue totals sum over the user's harvests and sales |
| DashboardManager.NoUserOwnsNothing | frontend/src/pages/DashboardManager.jsx:301 | without a signed-in user no plot is counted |
| DashboardManager.FirstFive | frontend/src/pages/DashboardManager.jsx:604 | a table shows the first min(5, n) rows in order |
| DashboardManager.HarvestTable | frontend/src/pages/DashboardManager.jsx:417-419 | the harvest table shows at most five of the user's harvests, the first ones in order, and five whenever the user has that many |
| DashboardManager.DeleteEndpoint | frontend/src/pages/DashboardManager.jsx:186-196 | a known row type deletes at /manager/<segment>/<id>; an unknown type gives the empty endpoint, to which the page still sends its DELETE |
| DashboardManager.SegmentsDistinct | frontend/src/pages/DashboardManager.jsx:191-194 | different row types use different path segments |
| DashboardManager.SaveCall | frontend/src/pages/DashboardManager.jsx:216-281 | harvest and plot saves without a known supervisor call nothing; rows with an id are PUT unless they are plots; rows without one are POSTed unless they are purchases |
| DashboardManager.SaveUpdatesWhereDeleteDeletes | frontend/src/pages/DashboardManager.jsx:186-281 | a save that updates a row uses the same path a delete of that row would |
| HasilPanenPage.StatusChart | frontend/src/pages/HasilPanenPage.jsx:147-180 | statuses are counted per distinct label with a missing status counted as "unknown", and every label is some harvest's status; the counts add up to the number of harvests; there are min(labels, 8) colours |
| HasilPanenPage.EditDate | frontend/src/pages/HasilPanenPage.jsx:125 | the edit form shows the stored date up to its first "T", or nothing when there is no date |
| HasilPanenPage.EditDateOfTimestamp | frontend/src/pages/HasilPanenPage.jsx:125 | a timestamp "date T time" is shown as its date |
| HasilPanenPage.ResetFormDefaultsAccepted | frontend/src/pages/HasilPanenPage.jsx:102-112 | the reset form's status is the backend's default and one of its states, and its quality is not blank |
| HasilPanenPage.Names | frontend/src/pages/HasilPanenPage.jsx:182-195 | each of the crop, plot and supervisor names is the name of the first listed entry with that id, as `find` returns it, and "ID " followed by the id when none has it |
| LahanPage.Luas | frontend/src/pages/LahanPage.jsx:121 | a missing area counts as zero |
| LahanPage.LuasByPengawas | frontend/src/pages/LahanPage.jsx:116-153 | areas are summed per supervisor label, each plot's label present and every label some plot's; the bucket totals add up to the total area; there are min(labels, 8) colours |
| LahanPage.UnknownSupervisorNames | frontend/src/pages/LahanPage.jsx:119-120 | a plot with an unknown supervisor is charted under "Pengawas ID " followed by the id and tabled as "Tidak Diketahui" |
| LahanPage.MissingAreaAddsNothing | frontend/src/pages/LahanPage.jsx:121-122 | a plot without an area adds nothing to the chart total |
| LahanPage.NamesakesShareABar | frontend/src/pages/LahanPage.jsx:119-123 | two different supervisors with the same name share one bar holding both areas |
| LahanPage.TwoPlotsOneBar | frontend/src/pages/LahanPage.jsx:122 | two plots with one label make one bucket holding their summed area |
| LahanPage.TableName | frontend/src/pages/LahanPage.jsx:300-306 | the table shows the first matching supervisor's name, or "Tidak Diketahui" |
| LahanPage.Submit | frontend/src/pages/LahanPage.jsx:62-73 | editing PUTs to /lahan/<id> without the id field; creating POSTs the whole form to /lahan |
| ManagerPage.FormatRole | frontend/src/pages/ManagerPage.jsx:21-30 | no role or an empty role shows "-"; the three known roles in any case show their label; any other role shows its first character in upper case and the rest unchanged; the label always equals the role ignoring case |
| ManagerPage.KnownLabelsMatchKeys | frontend/src/pages/ManagerPage.jsx:23-28 | each label lower-cased is its key |
| ManagerPage.CapitaliseKeepsLower | frontend/src/pages/ManagerPage.jsx:29 | capitalising the first letter does not change the lower-cased role |
| ManagerPage.FormatRoleIdempotent | frontend/src/pages/ManagerPage.jsx:21-30 | formatting a formatted role changes nothing |
| ManagerPage.EditPayload | frontend/src/pages/ManagerPage.jsx:53-59 | the edit body holds username and name, and the password exactly when one was typed |
| ManagerPage.RegisterPayload | frontend/src/pages/ManagerPage.jsx:60-67 | the create body holds exactly username, password, role and name as typed |
| ManagerPage.RegisteredAsTyped | frontend/src/pages/ManagerPage.jsx:61-67 | the account the backend registers from the create body has the typed username, role and name and the hash of the typed password |
| ManagerPage.ResetFormRegistersManager | frontend/src/pages/ManagerPage.jsx:70-76 | after a reset the form registers the role shown as "Manajer" |
| MonitoringPage.Insert | frontend/src/pages/MonitoringPage.jsx:130-132 | inserting into a date-sorted list keeps it sorted and adds exactly the new reading |
| MonitoringPage.SortByDate | frontend/src/pages/MonitoringPage.jsx:130-132 | the sorted copy is ordered by date and a permutation of the readings |
| MonitoringPage.ChartData | frontend/src/pages/MonitoringPage.jsx:128-162 | the three series have one entry per reading, and entry i of each comes from the i-th reading of the date-sorted permutation |
| MonitoringPage.ChartKeepsEveryReading | frontend/src/pages/MonitoringPage.jsx:140 | the temperature series holds the readings' temperatures, each as often as it occurs |
| MonitoringPage.Temperatures | frontend/src/pages/MonitoringPage.jsx:140 | the temperature series has one entry per reading, in order |
| MonitoringPage.InsertKeepsTemperatures | frontend/src/pages/MonitoringPage.jsx:130-140 | inserting a reading adds exactly its temperature to the multiset of temperatures |
| MonitoringPage.SortKeepsTemperatures | frontend/src/pages/MonitoringPage.jsx:130-140 | sorting keeps the multiset of temperatures |
| MonitoringPage.PlotName | frontend/src/pages/MonitoringPage.jsx:164-167 | the first matching plot's name, or "ID " followed by the id |
| MonthlySales.MonthlyFromPurchases | frontend/src/components/MonthlySalesChart.jsx:46-56 | twelve buckets, each the total of the dated purchases in that month, adding up to the year's total |
| MonthlySales.MonthlyFromAggregates | frontend/src/components/MonthlySalesChart.jsx:63-68 | twelve buckets, each the total of the last row naming that month, or zero |
| MonthlySales.Sales | frontend/src/components/MonthlySalesChart.jsx:70-71 | each row read as a purchase, in order |
| MonthlySales.MonthlyFromSource | frontend/src/components/MonthlySalesChart.jsx:59-74 | a non-array gives twelve zeros; rows whose first has a month that is not `undefined` (a `null` one included) use the aggregated form; other rows are bucketed as purchases, and their buckets add up to the year's total |
| MonthlySales.ZeroTotalIsKept | frontend/src/components/MonthlySalesChart.jsx:51 | a total price of zero counts as zero and is not replaced by the amount; a missing one is |
| MonthlySales.LaterRowWins | frontend/src/components/MonthlySalesChart.jsx:65-67 | a later row for a month overwrites the earlier ones |
| MonthlySales.NullMonthChartsNothing | frontend/src/components/MonthlySalesChart.jsx:63-67 | a lone row with `month: null` takes the aggregated path and fills no bucket, whatever purchase it carries |
| MonthlySales.OutOfRangeMonthIgnored | frontend/src/components/MonthlySalesChart.jsx:66-67 | a row whose month is outside 1..12, `null` or missing changes no bucket |
| MonthlySales.UndatedPurchaseIgnored | frontend/src/components/MonthlySalesChart.jsx:49-53 | a purchase without a date changes no bucket and not the year's total |
| TanamanLahanPage.Match | frontend/src/pages/TanamanLahanPage.jsx:208-218 | the match throws exactly when the status is missing and no earlier field (id, plot name, crop name, count, which reads "undefined" when the record carries none) contains the query |
| TanamanLahanPage.SearchRows | frontend/src/pages/TanamanLahanPage.jsx:208-219 | the search throws iff some row's match throws; otherwise it keeps exactly the matching rows, in order |
| TanamanLahanPage.Visible | frontend/src/pages/TanamanLahanPage.jsx:206-219 | nothing is shown without a user; an empty query shows all the user's plantings; what is shown is an ordered subsequence of the user's plantings matching the lower-cased query, and every owned planting that matches is shown; the search throws exactly when some owned planting reaches the status test without one |
| TanamanLahanPage.NoneOwned | frontend/src/pages/TanamanLahanPage.jsx:207 | without a user the owner filter keeps nothing |
| TanamanLahanPage.StatusesPresentNeverThrow | frontend/src/pages/TanamanLahanPage.jsx:216 | when every row has a status the search never throws |
| TanamanLahanPage.StatusChart | frontend/src/pages/TanamanLahanPage.jsx:161-194 | statuses are counted per distinct label with a missing status counted as "unknown", and every label is some planting's status; the counts add up to the number of plantings; there are min(labels, 8) colours |
| TanamanLahanPage.SubmitPayload | frontend/src/pages/TanamanLahanPage.jsx:108-115 | the ids are read with parseInt, an unreadable plant count becomes 0, date and status are sent as typed |
| TanamanLahanPage.CountText | frontend/src/pages/TanamanLahanPage.jsx:215 | a planting with no count is searched as the text "undefined"; a present count is searched as text that reads back as that count |
| TanamanLahanPage.MissingCountMatchesUndefined | frontend/src/pages/TanamanLahanPage.jsx:215 | in the manager's listing, whose records carry no count, every query contained in "undefined" matches the planting |
| TanamanLahanPage.ResetForm | frontend/src/pages/TanamanLahanPage.jsx:120-128 | the reset form has status "tumbuh", the signed-in user's id as supervisor (empty without a user or for id 0, as `|| ""` does), and empty plot, crop, count and date |
| TanamanLahanPage.ResetStatusAccepted | frontend/src/pages/TanamanLahanPage.jsx:24 | the reset status is one the backend accepts |
| TanamanPage.JenisChart | frontend/src/pages/TanamanPage.jsx:97-128 | crops are counted per kind with a missing kind counted as "Tidak Diketahui", and every label is some crop's kind; the counts add up to the number of crops; there are min(labels, 8) colours |
| TanamanPage.Submit | frontend/src/pages/TanamanPage.jsx:49-56 | editing PUTs to /tanaman/<id> without the id field; creating POSTs the whole form to /tanaman |
| TanamanPage.EditSendsCreateBodyWithoutId | frontend/src/pages/TanamanPage.jsx:49-56 | the edit body is the create body minus the id, and adding the id back gives the form |

## Left out

- JWT signing, expiry (the 3600000 ms lifetime) and the secret are not modelled. Verification and the role claim are the parameters `verify` and `roleOf`.
- BCrypt, the SQL repositories, the services and the database configuration are not modelled. Each store call is a parameter that reports success or returns the row, because these layers are I/O and pass-throughs.
- Gson is not modelled. A body is a parameter that is already parsed, a syntax error, or null. JSON field names, date formats and Java `Timestamp` parsing are not modelled.
- Spark's routing, `halt` mechanics and response bodies are not modelled. Only the status and the reason behind it are kept. The JSON envelope the frontend unwraps is not modelled.
- AppPipeline.Before: Spark's `before("/api/*", …)` pattern is approximated as the prefix "/api/".
- The planting record's supervisor id (`idPengawas`) is assumed to exist: the planting controller reads `getId_pengawas`, which the `TanamanLahan` model class does not declare, so the source as shown would not compile there.
- The rate limiter's read-modify-write on a concurrent map is modelled sequentially, so interleavings of simultaneous logins are not covered.
- RateLimiter.Run: its own contract states only lengths and key retention. What it computes is stated by RunWithinWindow and FivePerMinute.
- DashboardBuyer.ComputeStats: its contract states the counts and the empty case. How the sums relate to the purchases is stated by UnparsedFiguresAddNothing and AverageOfUniformSpend.
- MonthlySales.MonthlyFromAggregates: the yearly total shown under the chart (`totalTahunIni`) is the sum of the twelve buckets. It is stated as an ensures only for the purchase form.
- Floating point is modelled as `real`: NaN, rounding, `toFixed` and `toLocaleString` are not modelled. Gson refuses an `int` field outside Java's 32-bit range with a syntax error, which the controllers answer with 400 for malformed JSON; the buyer's purchase form models this in DashboardBuyer.AsRecord, and elsewhere the request body arrives already parsed, so the refusal is part of the given `Malformed` outcome.
- JavaScript `Date` and locale formatting are not modelled. The month of a purchase and the chart's date formatter are parameters. The formatted date that the planting search also matches against is a parameter of each planting (`tanggalText`), because it depends on the browser locale.
- JavaScript `parseInt` in other bases, `0x` prefixes and the Unicode whitespace it skips are not modelled. Case mapping covers ASCII letters only.
- The order of keys in a JavaScript object is not modelled: the chart buckets are kept in first-appearance order. The engine puts integer-like keys first, which the model does not do.
- Prototype keys such as "constructor" in the role-label lookup of the manager page are not modelled.
- Sort stability of the monitoring chart is not modelled. Its order among readings with equal dates is left unspecified.
- The numeric conversion of the plot page's inputs is not modelled. The form is taken as the map of fields it sends.
- The harvest page's create/update payload and its request are not modelled. Its reset form's id is not modelled.
- PembelianPage and its locale-month revenue chart are not modelled, nor is the manager dashboard's GET `/dashboard` route. Also left out are the sidebars, top bars, cards, maps, modals, toolbars, login/register/reset pages and `api.js`. These are presentation and I/O.

## Findings

| source | as written | input that shows it | evidently intended | confidence | as-written member | corrected member |
|---|---|---|---|---|---|---|
| backend/src/main/java/com/farmmanagement/middleware/AuthMiddleware.java:38-50 | the admin bypass runs after the three prefix rules have already halted, so it never changes a decision | a verified token with role "admin" on `/api/manager/summary` is answered 403 "Access denied: Manager only" | the comment before the bypass says an admin may reach every endpoint, so the admin check belongs before the prefix rules | not executed | Auth.AdminBypassCounterexample | Auth.DecideAdminFirst |

=== FILE: app_pipeline.dfy ===
/** The order of the global filters: CORS (which answers preflights itself), then the
    login rate limiter, then the auth gate, then the route. The auth gate is a parameter
    so that both the written and the intended role filter can be plugged in. */
module AppPipeline {
  import opened Common
  import opened Text
  import opened Http
  import Auth
  import RateLimiter

  const ORIGIN: string := "http://localhost:5173"

  /** The headers the CORS filter sets on every response, preflight or not. */
  const CORS_HEADERS: seq<(string, string)> := [
    ("Access-Control-Allow-Origin", ORIGIN),
    ("Access-Control-Allow-Methods", "GET,POST,PUT,DELETE,OPTIONS"),
    ("Access-Control-Allow-Headers", "Content-Type,Authorization"),
    ("Access-Control-Allow-Credentials", "true")
  ]

  datatype Request = Request(verb: string, path: string, ip: string, authorization: Option<string>)

  /** What the filters did with a request: the headers set, the combined decision
      (`Allow` means the route runs) and the rate-limiter table afterwards. */
  datatype Outcome = Outcome(headers: seq<(string, string)>, decision: Decision, limiter: RateLimiter.Table)

  /** The CORS filter's own decision: a preflight is answered "OK" at once. */
  function Cors(verb: string): (d: Decision)
    ensures d == Allow || d == Halt(200, "OK")
    ensures d.Halt? <==> EqualsIgnoreCase("OPTIONS", verb)
  {
    if EqualsIgnoreCase("OPTIONS", verb) then Halt(200, "OK") else Allow
  }

  /** Runs the three filters in registration order; the first halt ends the chain. */
  function Before(req: Request, limiter: RateLimiter.Table, now: int,
                  gate: (string, Option<string>) -> Decision): (o: Outcome)
    ensures o.headers == CORS_HEADERS
    ensures EqualsIgnoreCase("OPTIONS", req.verb) ==> o.decision == Halt(200, "OK") && o.limiter == limiter
    ensures !EqualsIgnoreCase("OPTIONS", req.verb) && req.path != RateLimiter.LOGIN_PATH ==>
              o.decision == gate(req.path, req.authorization) && o.limiter == limiter
    ensures !EqualsIgnoreCase("OPTIONS", req.verb) && req.path == RateLimiter.LOGIN_PATH ==>
              o.limiter == RateLimiter.Admit(limiter, req.ip, now).table &&
              o.decision == (if RateLimiter.Admit(limiter, req.ip, now).decision.Halt?
                             then Halt(429, RateLimiter.TOO_MANY) else gate(req.path, req.authorization))
  {
    var cors := Cors(req.verb);
    if cors.Halt? then Outcome(CORS_HEADERS, cors, limiter)
    else
      var limited := RateLimiter.Filter(limiter, req.path, req.ip, now);
      if limited.decision.Halt? then Outcome(CORS_HEADERS, limited.decision, limited.table)
      else Outcome(CORS_HEADERS, gate(req.path, req.authorization), limited.table)
  }

  /** The filters as the application registers them, with the role filter as written. */
  function Deployed(req: Request, limiter: RateLimiter.Table, now: int,
                    verify: string -> bool, roleOf: string -> Option<string>): (o: Outcome)
    ensures o.headers == CORS_HEADERS
    ensures !EqualsIgnoreCase("OPTIONS", req.verb) && req.path != RateLimiter.LOGIN_PATH ==>
              o.decision == Auth.Decide(req.path, req.authorization, verify, roleOf)
  {
    Before(req, limiter, now, (p, h) => Auth.Decide(p, h, verify, roleOf))
  }

  /** A login that the limiter lets through always reaches the route: the auth gate
      never blocks the public login path. */
  lemma LoginReachesRouteUnlessThrottled(req: Request, limiter: RateLimiter.Table, now: int,
                                         verify: string -> bool, roleOf: string -> Option<string>)
    requires !EqualsIgnoreCase("OPTIONS", req.verb) && req.path == RateLimiter.LOGIN_PATH
    ensures Deployed(req, limiter, now, verify, roleOf).decision ==
              RateLimiter.Admit(limiter, req.ip, now).decision
  {
  }

  /** A preflight, whatever the letter case of its verb, never reaches the limiter or
      the auth gate, so it needs no token and uses up no login attempt. */
  lemma PreflightBypassesAuthAndLimiter(req: Request, limiter: RateLimiter.Table, now: int,
                                        verify: string -> bool, roleOf: string -> Option<string>)
    requires ToLower(req.verb) == "options"
    ensures Deployed(req, limiter, now, verify, roleOf) == Outcome(CORS_HEADERS, Halt(200, "OK"), limiter)
  {
    OptionsInCapitals();
  }

  lemma OptionsInCapitals() ensures ToLower("OPTIONS") == "options" {}

  /** The filters with the role filter its closing comment describes: an admin passes
      every prefix. */
  function Intended(req: Request, limiter: RateLimiter.Table, now: int,
                    verify: string -> bool, roleOf: string -> Option<string>): (o: Outcome)
    ensures o.headers == CORS_HEADERS
    ensures !EqualsIgnoreCase("OPTIONS", req.verb) && req.path != RateLimiter.LOGIN_PATH ==>
              o.decision == Auth.DecideAdminFirst(req.path, req.authorization, verify, roleOf)
  {
    Before(req, limiter, now, (p, h) => Auth.DecideAdminFirst(p, h, verify, roleOf))
  }

  /** A verified admin token reaches every route under the intended filters, while the
      deployed ones refuse it on the manager area. */
  lemma AdminEverywhereOnlyWhenIntended(req: Request, limiter: RateLimiter.Table, now: int,
                                        verify: string -> bool, roleOf: string -> Option<string>)
    requires !EqualsIgnoreCase("OPTIONS", req.verb) && req.path != RateLimiter.LOGIN_PATH
    requires Auth.HasBearer(req.authorization) && verify(Auth.Token(req.authorization.value))
    requires roleOf(Auth.Token(req.authorization.value)) == Some("admin")
    ensures Intended(req, limiter, now, verify, roleOf).decision == Allow
    ensures StartsWith(req.path, "/api/manager") ==> Deployed(req, limiter, now, verify, roleOf).decision.Halt?
  {
    assert EqualsIgnoreCaseOpt("admin", Some("admin"));
    if StartsWith(req.path, "/api/manager") {
      Auth.AdminBlockedOutsideAdminPrefix(req.path, req.authorization, verify, roleOf, "/api/manager");
    }
  }
}

=== FILE: auth.dfy ===
/** The JWT and role gate Spark runs before every route under `/api/`.
    Token verification and the role claim are oracles: `verify` stands for a valid,
    unexpired signature and `roleOf` for the token's `role` claim (`None` when absent). */
module Auth {
  import opened Common
  import opened Text
  import opened Http

  const LOGIN_PATH: string := "/api/user/login"
  const REGISTER_PATH: string := "/api/user/register"
  const BEARER: string := "Bearer "

  const MISSING_HEADER: string := "Missing or invalid Authorization header"
  const BAD_TOKEN: string := "Invalid or expired token"

  /** A role rule: every path starting with `prefix` needs `role` (ignoring case). */
  datatype Rule = Rule(prefix: string, role: string, message: string)

  /** The three role rules, in the order the filter applies them. */
  const RULES: seq<Rule> := [
    Rule("/api/admin", "admin", "Access denied: Admin only"),
    Rule("/api/manager", "manajer", "Access denied: Manager only"),
    Rule("/api/pembeli", "pembeli", "Access denied: Buyer only")
  ]

  /** Paths the filter registered for the `/api/` wildcard applies to. */
  predicate InScope(path: string)
  {
    StartsWith(path, "/api/")
  }

  /** The two exact paths that need no token. */
  predicate IsPublic(path: string)
  {
    path == LOGIN_PATH || path == REGISTER_PATH
  }

  /** A present header that starts with "Bearer ". */
  predicate HasBearer(header: Option<string>)
  {
    header.Some? && StartsWith(header.value, BEARER)
  }

  /** `authHeader.substring(7)`: what follows "Bearer ". */
  function Token(header: string): (t: string)
    requires StartsWith(header, BEARER)
    ensures header == BEARER + t
  {
    header[|BEARER|..]
  }

  /** A rule blocks a request when the path carries its prefix and the role is not its role. */
  predicate Blocks(rule: Rule, path: string, role: Option<string>)
  {
    StartsWith(path, rule.prefix) && !EqualsIgnoreCaseOpt(rule.role, role)
  }

  /** The role may use the path: no rule of the table blocks it. */
  predicate RoleAdmits(path: string, role: Option<string>)
  {
    forall i :: 0 <= i < |RULES| ==> !Blocks(RULES[i], path, role)
  }

  /** The filter as written: public paths, then the header, then the signature,
      then the three prefix rules, and last the admin bypass, which every request
      reaching it passes anyway. */
  function Decide(path: string, header: Option<string>, verify: string -> bool,
                  roleOf: string -> Option<string>): (r: Decision)
    ensures !InScope(path) || IsPublic(path) ==> r == Allow
    ensures InScope(path) && !IsPublic(path) && !HasBearer(header) ==> r == Halt(401, MISSING_HEADER)
    ensures InScope(path) && !IsPublic(path) && HasBearer(header) && !verify(Token(header.value)) ==>
              r == Halt(401, BAD_TOKEN)
    ensures InScope(path) && !IsPublic(path) && HasBearer(header) && verify(Token(header.value)) ==>
              (r == Allow <==> RoleAdmits(path, roleOf(Token(header.value))))
    ensures (InScope(path) && !IsPublic(path) && HasBearer(header) && verify(Token(header.value)) &&
             !RoleAdmits(path, roleOf(Token(header.value)))) ==> r.Halt? && r.status == 403
    ensures r.Halt? && r.status == 403 ==>
              exists i :: 0 <= i < |RULES| && Blocks(RULES[i], path, roleOf(Token(header.value)))
                          && r.message == RULES[i].message
                          && forall j :: 0 <= j < i ==> !Blocks(RULES[j], path, roleOf(Token(header.value)))
    ensures r.Halt? ==> r.status in {401, 403}
  {
    if !InScope(path) || IsPublic(path) then Allow
    else if !HasBearer(header) then Halt(401, MISSING_HEADER)
    else
      var token := Token(header.value);
      if !verify(token) then Halt(401, BAD_TOKEN)
      else
        var role := roleOf(token);
        if Blocks(RULES[0], path, role) then Halt(403, RULES[0].message)
        else if Blocks(RULES[1], path, role) then Halt(403, RULES[1].message)
        else if Blocks(RULES[2], path, role) then Halt(403, RULES[2].message)
        else if EqualsIgnoreCaseOpt("admin", role) then Allow
        else Allow
  }

  /** The decision reads the role only from the presented token: two role oracles that
      agree on that token give the same decision, whatever they say about other tokens. */
  lemma RoleOnlyFromToken(path: string, header: Option<string>, verify: string -> bool,
                          roleOf1: string -> Option<string>, roleOf2: string -> Option<string>)
    requires HasBearer(header) ==> roleOf1(Token(header.value)) == roleOf2(Token(header.value))
    ensures Decide(path, header, verify, roleOf1) == Decide(path, header, verify, roleOf2)
  {
  }

  /** The three role names are told apart by `equalsIgnoreCase`. */
  lemma RoleNamesDistinct(role: string)
    ensures EqualsIgnoreCase("admin", role) ==> !EqualsIgnoreCase("manajer", role) && !EqualsIgnoreCase("pembeli", role)
    ensures EqualsIgnoreCase("pembeli", role) ==> !EqualsIgnoreCase("manajer", role)
  {
    var a, m, p := ToLower("admin"), ToLower("manajer"), ToLower("pembeli");
    assert |a| == 5 && |m| == 7 && |p| == 7;
    assert m[0] == LowerChar('m') == 'm';
    assert p[0] == LowerChar('p') == 'p';
  }

  /** A path under "/api/manager" or "/api/pembeli" is in scope, not public and not under "/api/admin". */
  lemma GatedPathFacts(path: string, prefix: string)
    requires prefix == "/api/manager" || prefix == "/api/pembeli"
    requires StartsWith(path, prefix)
    ensures InScope(path) && !IsPublic(path) && !StartsWith(path, "/api/admin")
    ensures prefix == "/api/manager" ==> !StartsWith(path, "/api/pembeli")
    ensures prefix == "/api/pembeli" ==> !StartsWith(path, "/api/manager")
  {
    assert path[..5] == prefix[..5] == "/api/";
    assert path[5] == prefix[5] != 'a';
    assert path[5] != 'u' && LOGIN_PATH[5] == 'u' && REGISTER_PATH[5] == 'u';
    assert "/api/pembeli"[5] == 'p' && "/api/manager"[5] == 'm';
  }

  /** The manager role passes every rule on a manager path. */
  lemma ManagerAdmittedOnManagerPaths(path: string)
    requires StartsWith(path, "/api/manager")
    ensures InScope(path) && !IsPublic(path) && RoleAdmits(path, Some("manajer"))
  {
    GatedPathFacts(path, "/api/manager");
    forall i | 0 <= i < |RULES| ensures !Blocks(RULES[i], path, Some("manajer")) {
      if i == 0 {
        assert RULES[0].prefix == "/api/admin";
      } else if i == 1 {
        assert RULES[1].role == "manajer";
      } else {
        assert RULES[2].prefix == "/api/pembeli";
      }
    }
  }

  /** An admin token is refused on the manager and buyer prefixes: the bypass
      after the three rules never lets an admin past one of them. */
  lemma AdminBlockedOutsideAdminPrefix(path: string, header: Option<string>, verify: string -> bool,
                                       roleOf: string -> Option<string>, prefix: string)
    requires HasBearer(header) && verify(Token(header.value))
    requires EqualsIgnoreCaseOpt("admin", roleOf(Token(header.value)))
    requires prefix == "/api/manager" || prefix == "/api/pembeli"
    requires StartsWith(path, prefix)
    ensures Decide(path, header, verify, roleOf).Halt?
    ensures Decide(path, header, verify, roleOf).status == 403
  {
    GatedPathFacts(path, prefix);
    var role := roleOf(Token(header.value));
    RoleNamesDistinct(role.value);
    if prefix == "/api/manager" {
      assert Blocks(RULES[1], path, role);
    } else {
      assert Blocks(RULES[2], path, role);
    }
  }

  /** Prefix matching is raw: a path that merely begins with "/api/manager", such as
      "/api/managerial", is gated like the manager area. */
  lemma RawPrefixGates(header: Option<string>, verify: string -> bool, roleOf: string -> Option<string>)
    requires HasBearer(header) && verify(Token(header.value))
    requires roleOf(Token(header.value)) == Some("pembeli")
    ensures Decide("/api/managerial", header, verify, roleOf) == Halt(403, "Access denied: Manager only")
  {
    var path := "/api/managerial";
    assert StartsWith(path, "/api/manager");
    GatedPathFacts(path, "/api/manager");
    assert EqualsIgnoreCase("pembeli", "pembeli");
    RoleNamesDistinct("pembeli");
    assert !Blocks(RULES[0], path, Some("pembeli"));
    assert Blocks(RULES[1], path, Some("pembeli"));
  }

  /** A verified token on a path under none of the three prefixes passes whatever its
      role claim says, including no role at all. */
  lemma UnprefixedPathAdmitsAnyRole(path: string, header: Option<string>, verify: string -> bool,
                                    roleOf: string -> Option<string>)
    requires forall i :: 0 <= i < |RULES| ==> !StartsWith(path, RULES[i].prefix)
    requires HasBearer(header) && verify(Token(header.value))
    ensures Decide(path, header, verify, roleOf) == Allow
  {
    assert RULES[0].prefix == "/api/admin" && RULES[1].prefix == "/api/manager" && RULES[2].prefix == "/api/pembeli";
  }

  /** The public paths are matched exactly: a path that merely extends the login path
      needs a token like any other. */
  lemma PublicPathsAreExact(header: Option<string>, verify: string -> bool, roleOf: string -> Option<string>)
    requires !HasBearer(header)
    ensures Decide(LOGIN_PATH, header, verify, roleOf) == Allow
    ensures Decide(REGISTER_PATH, header, verify, roleOf) == Allow
    ensures Decide(LOGIN_PATH + "/x", header, verify, roleOf) == Halt(401, MISSING_HEADER)
  {
    var p := LOGIN_PATH + "/x";
    assert p[..5] == "/api/";
    assert |p| != |LOGIN_PATH| && |p| != |REGISTER_PATH|;
  }

  // ---------------------------------------------------------------- the intended bypass

  /** The filter as its closing comment intends it: an admin passes every prefix.
      The admin check comes before the three rules. */
  function DecideAdminFirst(path: string, header: Option<string>, verify: string -> bool,
                            roleOf: string -> Option<string>): (r: Decision)
    ensures (InScope(path) && HasBearer(header) && verify(Token(header.value)) &&
             EqualsIgnoreCaseOpt("admin", roleOf(Token(header.value)))) ==> r == Allow
    ensures !(InScope(path) && HasBearer(header) && verify(Token(header.value)) &&
              EqualsIgnoreCaseOpt("admin", roleOf(Token(header.value)))) ==>
              r == Decide(path, header, verify, roleOf)
  {
    if !InScope(path) || IsPublic(path) then Allow
    else if !HasBearer(header) then Halt(401, MISSING_HEADER)
    else
      var token := Token(header.value);
      if !verify(token) then Halt(401, BAD_TOKEN)
      else if EqualsIgnoreCaseOpt("admin", roleOf(token)) then Allow
      else Decide(path, header, verify, roleOf)
  }

  /** The written filter and the intended one part ways exactly on admin tokens
      at manager or buyer paths. */
  lemma AdminBypassCounterexample(verify: string -> bool, roleOf: string -> Option<string>)
    requires verify("t")
    requires roleOf("t") == Some("admin")
    ensures Decide("/api/manager/summary", Some("Bearer t"), verify, roleOf) == Halt(403, "Access denied: Manager only")
    ensures DecideAdminFirst("/api/manager/summary", Some("Bearer t"), verify, roleOf) == Allow
  {
    var header, path := Some("Bearer t"), "/api/manager/summary";
    assert StartsWith(header.value, BEARER);
    assert Token(header.value) == "t";
    assert StartsWith(path, "/api/manager");
    GatedPathFacts(path, "/api/manager");
    assert EqualsIgnoreCase("admin", "admin");
    RoleNamesDistinct("admin");
    assert !Blocks(RULES[0], path, Some("admin"));
    assert Blocks(RULES[1], path, Some("admin"));
  }
}

=== FILE: buyer_routes.dfy ===
/** The buyer's routes under `/api/pembeli`: placing a purchase, and reading purchases
    and harvests (the by-id and listing idioms of `Http`). */
module BuyerRoutes {
  import opened Common
  import opened Text
  import opened Http
  import opened Records

  /** A purchase the handler accepts. */
  predicate OrderableBy(p: Pembelian)
  {
    p.idPembeli > 0 && p.idHasil > 0 && p.jumlah > 0.0 && p.totalHarga > 0.0 && p.tanggal.Some?
  }

  /** The checks of a new purchase, in the order the handler runs them. */
  function PurchaseGuards(p: Pembelian): (gs: seq<Guard>)
    ensures Passes(gs) <==> OrderableBy(p)
    ensures FirstFailing(gs) == Some(IdPembeli) <==> p.idPembeli <= 0
    ensures FirstFailing(gs) == Some(IdHasil) <==> p.idPembeli > 0 && p.idHasil <= 0
    ensures FirstFailing(gs) == Some(Jumlah) <==> p.idPembeli > 0 && p.idHasil > 0 && p.jumlah <= 0.0
    ensures FirstFailing(gs) == Some(TotalHarga) <==>
              p.idPembeli > 0 && p.idHasil > 0 && p.jumlah > 0.0 && p.totalHarga <= 0.0
    ensures FirstFailing(gs) == Some(Tanggal) <==>
              p.idPembeli > 0 && p.idHasil > 0 && p.jumlah > 0.0 && p.totalHarga > 0.0 && p.tanggal.None?
  {
    var gs := [Guard(IdPembeli, p.idPembeli > 0), Guard(IdHasil, p.idHasil > 0),
               Guard(Jumlah, p.jumlah > 0.0), Guard(TotalHarga, p.totalHarga > 0.0),
               Guard(Tanggal, p.tanggal.Some?)];
    assert gs[0].ok && gs[1].ok && gs[2].ok && gs[3].ok && gs[4].ok <==> OrderableBy(p);
    FirstFailingEach(gs);
    gs
  }

  /** POST: the purchase is stored unchanged once every check passes. */
  function CreatePurchase(body: Json<Pembelian>, add: Pembelian -> bool): (r: Handled<Pembelian>)
    ensures body.Malformed? ==> r == Handled(Reply(400, MalformedJson), None)
    ensures body.Null? ==> r == Handled(Reply(500, InternalError), None)
    ensures r.record.Some? <==> body.Parsed? && OrderableBy(body.value)
    ensures body.Parsed? && !OrderableBy(body.value) ==>
              r == Handled(Reply(400, Invalid(FirstFailing(PurchaseGuards(body.value)).value)), None)
    ensures r.record.Some? ==>
              r.record == Some(body.value) &&
              r.reply == (if add(body.value) then Reply(200, Done) else Reply(500, StoreFailed))
  {
    CreateChecked(body, (p: Pembelian) => p, PurchaseGuards, add, JSON_POST)
  }

  /** The amount is checked before the total, so a purchase wrong in both is
      reported for its amount. */
  lemma AmountReportedBeforeTotal(p: Pembelian, add: Pembelian -> bool)
    requires p.idPembeli > 0 && p.idHasil > 0 && p.jumlah == 0.0 && p.totalHarga == 0.0
    ensures CreatePurchase(Parsed(p), add).reply == Reply(400, Invalid(Jumlah))
  {
    assert FirstFailing(PurchaseGuards(p)) == Some(Jumlah);
  }
}

=== FILE: common.dfy ===
/** Sequence helpers shared by the backend controllers and the frontend pages:
    an optional value, order-preserving filtering, prefix slicing and sums. */
module Common {

  /** A possibly absent value: a Java `null`, a JavaScript `undefined`, a failed lookup. */
  datatype Option<+T> = None | Some(value: T) {
    function GetOr(default: T): T {
      match this
      case Some(v) => v
      case None => default
    }
  }

  /** `xs.filter(p)`: the elements of `xs` satisfying `p`, in their original order. */
  function Filter<T>(xs: seq<T>, p: T -> bool): (r: seq<T>)
    ensures |r| <= |xs|
    ensures forall i :: 0 <= i < |r| ==> p(r[i]) && r[i] in xs
    ensures forall x :: x in xs && p(x) ==> x in r
  {
    if |xs| == 0 then []
    else if p(xs[0]) then [xs[0]] + Filter(xs[1..], p)
    else Filter(xs[1..], p)
  }

  /** `a` can be obtained from `b` by deleting elements, keeping the order of the rest. */
  ghost predicate IsSubsequence<T>(a: seq<T>, b: seq<T>)
    decreases |b|
  {
    if |a| == 0 then true
    else if |b| == 0 then false
    else if a[0] == b[0] then IsSubsequence(a[1..], b[1..])
    else IsSubsequence(a, b[1..])
  }

  /** The number of elements of `xs` satisfying `p`. */
  function CountWhere<T>(xs: seq<T>, p: T -> bool): nat
  {
    if |xs| == 0 then 0 else (if p(xs[0]) then 1 else 0) + CountWhere(xs[1..], p)
  }

  /** Filtering keeps exactly the satisfying elements, each as often as it occurs,
      in the order of the input. */
  lemma {:induction false} FilterIsOrderPreserving<T>(xs: seq<T>, p: T -> bool)
    ensures IsSubsequence(Filter(xs, p), xs)
    ensures |Filter(xs, p)| == CountWhere(xs, p)
  {
    if |xs| > 0 {
      FilterIsOrderPreserving(xs[1..], p);
      if !p(xs[0]) {
        SubsequenceOfTail(Filter(xs[1..], p), xs);
      }
    }
  }

  /** A subsequence of the tail is a subsequence of the whole. */
  lemma {:induction false} SubsequenceOfTail<T>(a: seq<T>, b: seq<T>)
    requires |b| > 0
    requires IsSubsequence(a, b[1..])
    ensures IsSubsequence(a, b)
    decreases |b|, 0
  {
    if |a| > 0 && a[0] == b[0] {
      SubsequenceDropHead(a, b[1..]);
    }
  }

  /** Dropping the first element of a non-empty subsequence keeps it a subsequence. */
  lemma {:induction false} SubsequenceDropHead<T>(a: seq<T>, b: seq<T>)
    requires |a| > 0
    requires IsSubsequence(a, b)
    ensures IsSubsequence(a[1..], b)
    decreases |b|, 1
  {
    if a[0] == b[0] {
      SubsequenceOfTail(a[1..], b);
    } else {
      SubsequenceDropHead(a, b[1..]);
      SubsequenceOfTail(a[1..], b);
    }
  }

  /** Filtering by a stronger predicate after a weaker one is the same as filtering once:
      the weaker filter loses nothing the stronger one would keep. */
  lemma {:induction false} FilterNarrowing<T>(xs: seq<T>, strong: T -> bool, weak: T -> bool)
    requires forall x :: x in xs && strong(x) ==> weak(x)
    ensures Filter(Filter(xs, weak), strong) == Filter(xs, strong)
  {
    if |xs| > 0 {
      FilterNarrowing(xs[1..], strong, weak);
      if weak(xs[0]) {
        assert Filter(xs, weak) == [xs[0]] + Filter(xs[1..], weak);
        assert Filter(xs, weak)[1..] == Filter(xs[1..], weak);
      }
    }
  }

  /** `xs.slice(0, n)`: the first min(n, |xs|) elements. */
  function Take<T>(xs: seq<T>, n: nat): (r: seq<T>)
    ensures |r| == if |xs| < n then |xs| else n
    ensures forall i :: 0 <= i < |r| ==> r[i] == xs[i]
  {
    if |xs| <= n then xs else xs[..n]
  }

  /** Sum of a sequence of numbers (`reduce((s, v) => s + v, 0)`). */
  function Sum(xs: seq<real>): real
  {
    if |xs| == 0 then 0.0 else xs[0] + Sum(xs[1..])
  }

  /** Sum of `f` over the elements of `xs`. */
  function SumOf<T>(xs: seq<T>, f: T -> real): real
  {
    if |xs| == 0 then 0.0 else f(xs[0]) + SumOf(xs[1..], f)
  }

  /** Sum distributes over concatenation. */
  lemma {:induction false} SumAppend(a: seq<real>, b: seq<real>)
    ensures Sum(a + b) == Sum(a) + Sum(b)
  {
    if |a| == 0 {
      assert a + b == b;
    } else {
      assert (a + b)[1..] == a[1..] + b;
      SumAppend(a[1..], b);
    }
  }

  /** SumOf distributes over concatenation. */
  lemma {:induction false} SumOfAppend<T>(a: seq<T>, b: seq<T>, f: T -> real)
    ensures SumOf(a + b, f) == SumOf(a, f) + SumOf(b, f)
  {
    if |a| == 0 {
      assert a + b == b;
    } else {
      assert (a + b)[1..] == a[1..] + b;
      SumOfAppend(a[1..], b, f);
    }
  }

  /** Summing `f` over the kept elements equals summing, over all elements, `f` masked
      to zero where `p` fails. */
  lemma {:induction false} SumOfFilter<T>(xs: seq<T>, p: T -> bool, f: T -> real, masked: T -> real)
    requires forall x :: masked(x) == if p(x) then f(x) else 0.0
    ensures SumOf(Filter(xs, p), f) == SumOf(xs, masked)
  {
    if |xs| > 0 {
      SumOfFilter(xs[1..], p, f, masked);
      if p(xs[0]) {
        assert Filter(xs, p) == [xs[0]] + Filter(xs[1..], p);
        assert Filter(xs, p)[1..] == Filter(xs[1..], p);
      }
    }
  }

  /** Replacing one element changes the sum by the difference. */
  lemma {:induction false} SumUpdate(xs: seq<real>, i: nat, v: real)
    requires i < |xs|
    ensures Sum(xs[i := v]) == Sum(xs) - xs[i] + v
  {
    if i > 0 {
      assert xs[i := v][1..] == xs[1..][i - 1 := v];
      SumUpdate(xs[1..], i - 1, v);
    }
  }
}

=== FILE: daftar_tanaman_page.dfy ===
/** The crop catalogue's search box: a crop is listed when the lower-cased query occurs
    in its id, its name or its kind; an empty query lists everything. */
module DaftarTanamanPage {
  import opened Common
  import opened Text

  datatype Crop = Crop(idTanaman: int, namaTanaman: Option<string>, jenis: Option<string>)

  /** A field that is present and contains the (already lower-cased) query. */
  predicate FieldMatches(field: Option<string>, q: string)
  {
    field.Some? && Contains(ToLower(field.value), q)
  }

  /** The search predicate of one row. */
  predicate Matches(t: Crop, query: string)
  {
    query == "" ||
    var q := ToLower(query);
    Contains(IntToString(t.idTanaman), q) || FieldMatches(t.namaTanaman, q) || FieldMatches(t.jenis, q)
  }

  function MatcherFor(query: string): Crop -> bool
  {
    t => Matches(t, query)
  }

  /** `filteredTanamans`: the matching crops, in catalogue order. */
  function Search(tanamans: seq<Crop>, query: string): (r: seq<Crop>)
    ensures query == "" ==> r == tanamans
    ensures forall i :: 0 <= i < |r| ==> r[i] in tanamans && Matches(r[i], query)
    ensures forall t :: t in tanamans && Matches(t, query) ==> t in r
    ensures IsSubsequence(r, tanamans)
  {
    FilterIsOrderPreserving(tanamans, MatcherFor(query));
    if query == "" then AllMatch(tanamans, MatcherFor(query)); Filter(tanamans, MatcherFor(query))
    else Filter(tanamans, MatcherFor(query))
  }

  /** Filtering keeps everything when every element passes. */
  lemma {:induction false} AllMatch<T>(xs: seq<T>, p: T -> bool)
    requires forall x :: x in xs ==> p(x)
    ensures Filter(xs, p) == xs
  {
    if |xs| > 0 {
      forall x | x in xs[1..] ensures p(x) {
        assert x in xs;
      }
      AllMatch(xs[1..], p);
      assert xs == [xs[0]] + xs[1..];
    }
  }

  /** Typing more characters only narrows the result: a row that matches the longer
      query matches the shorter one. */
  lemma LongerQueryMatchesLess(t: Crop, query: string, more: string)
    requires Matches(t, query + more)
    ensures Matches(t, query)
  {
    if query != "" {
      var q := ToLower(query);
      ToLowerAppend(query, more);
      assert ToLower(query + more) == q + ToLower(more);
      if Contains(IntToString(t.idTanaman), q + ToLower(more)) {
        ContainsPrefixOfNeedle(IntToString(t.idTanaman), q, ToLower(more));
      } else if FieldMatches(t.namaTanaman, q + ToLower(more)) {
        ContainsPrefixOfNeedle(ToLower(t.namaTanaman.value), q, ToLower(more));
      } else {
        ContainsPrefixOfNeedle(ToLower(t.jenis.value), q, ToLower(more));
      }
    }
  }

  /** Searching within the current results for a longer query gives exactly what
      searching the whole catalogue for it gives. */
  lemma RefiningTheQuery(tanamans: seq<Crop>, query: string, more: string)
    ensures Search(Search(tanamans, query), query + more) == Search(tanamans, query + more)
  {
    forall t | t in tanamans && MatcherFor(query + more)(t) ensures MatcherFor(query)(t) {
      LongerQueryMatchesLess(t, query, more);
    }
    FilterNarrowing(tanamans, MatcherFor(query + more), MatcherFor(query));
  }

  /** A crop without a name or kind is found only through its id. */
  lemma MissingFieldsNeverMatch(t: Crop, query: string)
    requires t.namaTanaman.None? && t.jenis.None?
    ensures Matches(t, query) <==> query == "" || Contains(IntToString(t.idTanaman), ToLower(query))
  {
  }
}

=== FILE: dashboard_buyer.dfy ===
/** The buyer dashboard: which harvests are offered, the purchase statistics, and the
    body a new purchase is posted with. */
module DashboardBuyer {
  import opened Common
  import opened Text
  import opened Http
  import opened Records
  import opened Ui
  import BuyerRoutes

  /** The one harvest state a buyer is offered. */
  const FOR_SALE: string := "Siap Dijual"

  datatype Harvest = Harvest(idHasil: int, status: Option<string>)

  predicate ForSale(h: Harvest)
  {
    h.status == Some(FOR_SALE)
  }

  /** `harvests.filter(h => h.status === "Siap Dijual")`. */
  function Available(harvests: seq<Harvest>): (r: seq<Harvest>)
    ensures forall h :: h in r <==> h in harvests && ForSale(h)
    ensures |r| <= |harvests|
  {
    Filter(harvests, ForSale)
  }

  /** The offered harvests keep the order they were listed in. */
  lemma AvailableKeepsOrder(harvests: seq<Harvest>)
    ensures IsSubsequence(Available(harvests), harvests)
  {
    FilterIsOrderPreserving(harvests, ForSale);
  }

  /** A purchase as listed, with `parseFloat` already applied to its amount and total;
      `None` stands for `NaN`. */
  datatype Purchase = Purchase(jumlah: Option<real>, totalHarga: Option<real>)

  /** `parseFloat(p.total_harga) || 0`. */
  function Spent(p: Purchase): real
  {
    p.totalHarga.GetOr(0.0)
  }

  /** `parseFloat(p.jumlah) || 0`. */
  function Kg(p: Purchase): real
  {
    p.jumlah.GetOr(0.0)
  }

  datatype Stats = Stats(totalPurchases: nat, totalSpent: real, totalKgPurchased: real, availableProducts: nat)

  /** The four figures at the top of the page. */
  function ComputeStats(purchases: seq<Purchase>, available: seq<Harvest>): (s: Stats)
    ensures s.totalPurchases == |purchases| && s.availableProducts == |available|
    ensures |purchases| == 0 ==> s.totalSpent == 0.0 && s.totalKgPurchased == 0.0
  {
    Stats(|purchases|, SumOf(purchases, Spent), SumOf(purchases, Kg), |available|)
  }

  /** A purchase whose figures do not parse is counted but adds nothing to either sum. */
  lemma {:induction false} UnparsedFiguresAddNothing(purchases: seq<Purchase>, available: seq<Harvest>)
    ensures var s := ComputeStats(purchases + [Purchase(None, None)], available);
            var t := ComputeStats(purchases, available);
            s.totalPurchases == t.totalPurchases + 1 &&
            s.totalSpent == t.totalSpent && s.totalKgPurchased == t.totalKgPurchased
  {
    SumOfAppend(purchases, [Purchase(None, None)], Spent);
    SumOfAppend(purchases, [Purchase(None, None)], Kg);
  }

  /** `count > 0 ? total / count : 0`. */
  function Average(total: real, count: nat): (r: real)
    ensures count == 0 ==> r == 0.0
    ensures count > 0 ==> r * count as real == total
  {
    if count > 0 then total / count as real else 0.0
  }

  /** The sum of a figure every element shares. */
  lemma {:induction false} SumOfUniform(purchases: seq<Purchase>, f: Purchase -> real, v: real)
    requires forall p :: p in purchases ==> f(p) == v
    ensures SumOf(purchases, f) == |purchases| as real * v
  {
    if |purchases| > 0 {
      forall p | p in purchases[1..] ensures f(p) == v {
        assert p in purchases;
      }
      SumOfUniform(purchases[1..], f, v);
      var k := |purchases| as real;
      assert v + (k - 1.0) * v == k * v;
    }
  }

  /** When every purchase cost the same, the average spend per transaction is that cost. */
  lemma AverageOfUniformSpend(purchases: seq<Purchase>, available: seq<Harvest>, v: real)
    requires |purchases| > 0
    requires forall p :: p in purchases ==> Spent(p) == v
    ensures var s := ComputeStats(purchases, available); Average(s.totalSpent, s.totalPurchases) == v
  {
    SumOfUniform(purchases, Spent, v);
  }

  /** The purchase form's text fields. */
  datatype PurchaseForm = PurchaseForm(idPembeli: string, idHasil: string, jumlah: string,
                                       totalHarga: string, tanggal: string)

  /** The body posted to `/pembeli`: ids through `parseInt`, figures through `parseFloat`
      (given, since its decimal grammar is not modelled), and the date as typed.
      `None` is `NaN`, which the body carries as JSON `null`. */
  datatype PurchasePayload = PurchasePayload(idPembeli: Option<int>, idHasil: Option<int>,
                                             jumlah: Option<real>, totalHarga: Option<real>, tanggal: string)

  function Payload(form: PurchaseForm, parseFloat: string -> Option<real>): (p: PurchasePayload)
    ensures p.idPembeli == JsParseInt(form.idPembeli) && p.idHasil == JsParseInt(form.idHasil)
    ensures p.jumlah == parseFloat(form.jumlah) && p.totalHarga == parseFloat(form.totalHarga)
    ensures p.tanggal == form.tanggal
  {
    PurchasePayload(JsParseInt(form.idPembeli), JsParseInt(form.idHasil),
                    parseFloat(form.jumlah), parseFloat(form.totalHarga), form.tanggal)
  }

  /** An id the backend's `int` field can hold: Gson's integer reader refuses any other
      number with a syntax error. */
  predicate FitsJavaInt(id: Option<int>)
  {
    id.None? || INT_MIN <= id.value <= INT_MAX
  }

  /** What the backend's JSON reader makes of the payload: a syntax error when an id does
      not fit a Java `int`, otherwise the record, where a `null` leaves a primitive field
      at zero. */
  function AsRecord(p: PurchasePayload): (r: Json<Pembelian>)
    ensures r.Malformed? <==> !FitsJavaInt(p.idPembeli) || !FitsJavaInt(p.idHasil)
    ensures !r.Null?
    ensures r.Parsed? ==> p.idPembeli.None? ==> r.value.idPembeli == 0
    ensures r.Parsed? ==> p.idPembeli.Some? ==> r.value.idPembeli == p.idPembeli.value
    ensures r.Parsed? ==> p.idHasil.None? ==> r.value.idHasil == 0
    ensures r.Parsed? ==> p.idHasil.Some? ==> r.value.idHasil == p.idHasil.value
    ensures r.Parsed? ==> p.jumlah.None? ==> r.value.jumlah == 0.0
    ensures r.Parsed? ==> p.jumlah.Some? ==> r.value.jumlah == p.jumlah.value
    ensures r.Parsed? ==> p.totalHarga.None? ==> r.value.totalHarga == 0.0
    ensures r.Parsed? ==> p.totalHarga.Some? ==> r.value.totalHarga == p.totalHarga.value
    ensures r.Parsed? ==> r.value.tanggal == Some(p.tanggal) && r.value.idPembelian == 0
  {
    if !FitsJavaInt(p.idPembeli) || !FitsJavaInt(p.idHasil) then Malformed
    else Parsed(Pembelian(0, p.idPembeli.GetOr(0), p.idHasil.GetOr(0), Some(p.tanggal),
                          p.jumlah.GetOr(0.0), p.totalHarga.GetOr(0.0)))
  }

  /** A buyer id that does not parse reaches the backend as 0 and is refused by its
      first check, unless the harvest id is too large to read at all. */
  lemma UnreadableBuyerIdRefused(form: PurchaseForm, parseFloat: string -> Option<real>, add: Pembelian -> bool)
    requires JsParseInt(form.idPembeli).None?
    ensures BuyerRoutes.CreatePurchase(AsRecord(Payload(form, parseFloat)), add).reply ==
              if FitsJavaInt(JsParseInt(form.idHasil)) then Reply(400, Invalid(IdPembeli)) else Reply(400, MalformedJson)
  {
    var rec := AsRecord(Payload(form, parseFloat));
    if rec.Parsed? {
      assert rec.value.idPembeli == 0;
      assert FirstFailing(BuyerRoutes.PurchaseGuards(rec.value)) == Some(IdPembeli);
    }
  }

  /** A form with positive whole ids within the `int` range, positive figures and a date
      reaches the store. */
  lemma WellFormedFormIsStored(form: PurchaseForm, parseFloat: string -> Option<real>, add: Pembelian -> bool,
                               buyer: int, harvest: int)
    requires 0 < buyer <= INT_MAX && 0 < harvest <= INT_MAX
    requires form.idPembeli == IntToString(buyer) && form.idHasil == IntToString(harvest)
    requires parseFloat(form.jumlah).Some? && parseFloat(form.jumlah).value > 0.0
    requires parseFloat(form.totalHarga).Some? && parseFloat(form.totalHarga).value > 0.0
    ensures BuyerRoutes.CreatePurchase(AsRecord(Payload(form, parseFloat)), add).record ==
              Some(Pembelian(0, buyer, harvest, Some(form.tanggal),
                             parseFloat(form.jumlah).value, parseFloat(form.totalHarga).value))
  {
    JsParseIntRoundTrip(buyer);
    JsParseIntRoundTrip(harvest);
  }

  /** The page reads an id of any size, but the backend's `int` field does not: a buyer
      id past 2^31 - 1 is refused as malformed JSON, whatever else the form holds. */
  lemma OversizedIdRefused(form: PurchaseForm, parseFloat: string -> Option<real>, add: Pembelian -> bool,
                           buyer: int)
    requires buyer > INT_MAX
    requires form.idPembeli == IntToString(buyer)
    ensures BuyerRoutes.CreatePurchase(AsRecord(Payload(form, parseFloat)), add) == Handled(Reply(400, MalformedJson), None)
  {
    JsParseIntRoundTrip(buyer);
  }
}

=== FILE: dashboard_manager.dfy ===
/** The manager dashboard: the headline numbers, the five-row tables, and which request
    the delete and save buttons send. Rows belong to the signed-in manager through
    their supervisor (harvests, plots) or seller (purchases) id. */
module DashboardManager {
  import opened Common
  import opened Text
  import opened Ui

  datatype Plot = Plot(idLahan: int, idPengawas: int)
  datatype Harvest = Harvest(idHasil: int, idPengawas: int, kuantitas: Option<real>)
  datatype Sale = Sale(idPembelian: int, idPenjual: int, totalHarga: Option<real>)

  /** `x || 0` for a number: a missing value counts as zero. */
  function OrZero(x: Option<real>): real
  {
    x.GetOr(0.0)
  }

  function PlotOwner(user: Option<int>): Plot -> bool { (l: Plot) => OwnedBy(user, l.idPengawas) }
  function HarvestOwner(user: Option<int>): Harvest -> bool { (h: Harvest) => OwnedBy(user, h.idPengawas) }
  function SaleOwner(user: Option<int>): Sale -> bool { (p: Sale) => OwnedBy(user, p.idPenjual) }

  function Kg(h: Harvest): real { OrZero(h.kuantitas) }
  function Revenue(p: Sale): real { OrZero(p.totalHarga) }

  /** A harvest's weight if it is the user's, zero otherwise. */
  function OwnedKg(user: Option<int>): Harvest -> real
  {
    (h: Harvest) => if OwnedBy(user, h.idPengawas) then Kg(h) else 0.0
  }

  /** A purchase's total if the user sold it, zero otherwise. */
  function OwnedRevenue(user: Option<int>): Sale -> real
  {
    (p: Sale) => if OwnedBy(user, p.idPenjual) then Revenue(p) else 0.0
  }

  datatype Stats = Stats(totalLahan: nat, jenisTanaman: nat, totalPanenKg: real, totalRevenue: real)

  /** The headline numbers. Each total is the sum over all rows of the row's amount when
      the row is the user's and zero otherwise, so without a user everything owned is zero. */
  function ComputeStats(lahans: seq<Plot>, tanamanCount: nat, harvests: seq<Harvest>, purchases: seq<Sale>,
                        user: Option<int>): (s: Stats)
    ensures s.totalLahan == CountWhere(lahans, PlotOwner(user))
    ensures s.jenisTanaman == tanamanCount
    ensures s.totalPanenKg == SumOf(harvests, OwnedKg(user))
    ensures s.totalRevenue == SumOf(purchases, OwnedRevenue(user))
  {
    FilterIsOrderPreserving(lahans, PlotOwner(user));
    SumOfFilter(harvests, HarvestOwner(user), Kg, OwnedKg(user));
    SumOfFilter(purchases, SaleOwner(user), Revenue, OwnedRevenue(user));
    Stats(|Filter(lahans, PlotOwner(user))|, tanamanCount,
          SumOf(Filter(harvests, HarvestOwner(user)), Kg),
          SumOf(Filter(purchases, SaleOwner(user)), Revenue))
  }

  /** Without a signed-in user nothing is owned. */
  lemma {:induction false} NoUserOwnsNothing(lahans: seq<Plot>)
    ensures CountWhere(lahans, PlotOwner(None)) == 0
  {
    if |lahans| > 0 {
      NoUserOwnsNothing(lahans[1..]);
    }
  }

  /** A table shows the first five rows (of the user's rows, where the table is per user). */
  function FirstFive<T>(rows: seq<T>): (r: seq<T>)
    ensures |r| == (if |rows| < 5 then |rows| else 5)
    ensures r == rows[..|r|]
  {
    Take(rows, 5)
  }

  /** The harvest table: the user's first five harvests, in order. */
  function HarvestTable(harvests: seq<Harvest>, user: Option<int>): (r: seq<Harvest>)
    ensures |r| <= 5
    ensures forall i :: 0 <= i < |r| ==> OwnedBy(user, r[i].idPengawas) && r[i] in harvests
    ensures |r| <= |Filter(harvests, HarvestOwner(user))| && r == Filter(harvests, HarvestOwner(user))[..|r|]
    ensures CountWhere(harvests, HarvestOwner(user)) >= 5 ==> |r| == 5
  {
    FilterIsOrderPreserving(harvests, HarvestOwner(user));
    FirstFive(Filter(harvests, HarvestOwner(user)))
  }

  // ---------------------------------------------------------------- buttons

  /** The tables whose rows can be deleted or saved. "lahan" is the plantings table. */
  datatype Kind = HarvestKind | LahanKind | MonitorKind | PurchaseKind

  /** The type string the buttons pass. */
  function KindOf(t: string): Option<Kind>
  {
    if t == "harvest" then Some(HarvestKind)
    else if t == "lahan" then Some(LahanKind)
    else if t == "monitor" then Some(MonitorKind)
    else if t == "purchase" then Some(PurchaseKind)
    else None
  }

  /** The route segment under `/manager` each table's rows live at. */
  function Segment(k: Kind): string
  {
    match k
    case HarvestKind => "hasil-panen"
    case LahanKind => "tanaman-lahan"
    case MonitorKind => "monitoring"
    case PurchaseKind => "pembelian"
  }

  /** `handleDelete`'s endpoint: the row's route and id, or "" for an unknown type. */
  function DeleteEndpoint(t: string, id: int): (r: string)
    ensures KindOf(t).None? <==> r == ""
    ensures KindOf(t).Some? ==> r == RowPath(KindOf(t).value, id)
  {
    match KindOf(t)
    case Some(k) => RowPath(k, id)
    case None => ""
  }

  /** Different tables delete at different routes. */
  lemma SegmentsDistinct(a: Kind, b: Kind)
    requires a != b
    ensures Segment(a) != Segment(b)
  {
    assert "hasil-panen"[0] == 'h' && "tanaman-lahan"[0] == 't';
    assert "monitoring"[0] == 'm' && "pembelian"[0] == 'p';
  }

  /** The request a save sends. */
  datatype Call = Put(path: string) | Post(path: string) | NoCall

  /** JavaScript truthiness of an id: present and not zero. */
  predicate HasId(id: Option<int>)
  {
    id.Some? && id.value != 0
  }

  /** The route of one row: `/manager/<segment>/<id>`. */
  function RowPath(k: Kind, id: int): string
  {
    "/manager/" + Segment(k) + "/" + IntToString(id)
  }

  /** `handleSave`: harvests and readings are updated when they have an id and created
      otherwise; plantings are only ever created; purchases are only ever updated.
      `idPengawasKnown` is false when a harvest or planting has no supervisor id and the
      current-user lookup meant to fill it failed, which cancels the save. */
  function SaveCall(k: Kind, id: Option<int>, idPengawasKnown: bool): (c: Call)
    ensures (k == HarvestKind || k == LahanKind) && !idPengawasKnown ==> c == NoCall
    ensures c.Put? <==>
              HasId(id) && k != LahanKind && (idPengawasKnown || k == MonitorKind || k == PurchaseKind)
    ensures c.Post? <==>
              !HasId(id) && k != PurchaseKind && (idPengawasKnown || k == MonitorKind)
    ensures c.Put? ==> c.path == RowPath(k, id.value)
    ensures c.Post? ==> c.path == "/manager/" + Segment(k)
  {
    if (k == HarvestKind || k == LahanKind) && !idPengawasKnown then NoCall
    else if HasId(id) then
      (if k == LahanKind then NoCall else Put(RowPath(k, id.value)))
    else
      (if k == PurchaseKind then NoCall else Post("/manager/" + Segment(k)))
  }

  /** A save never sends an update to a route other than the one delete uses for the same row. */
  lemma SaveUpdatesWhereDeleteDeletes(t: string, id: int, known: bool)
    requires KindOf(t).Some?
    requires SaveCall(KindOf(t).value, Some(id), known).Put?
    ensures SaveCall(KindOf(t).value, Some(id), known).path == DeleteEndpoint(t, id)
  {
  }
}

=== FILE: hasil_panen_page.dfy ===
/** The harvest page: the status chart, the names shown for ids, the edit form's date,
    and the form a successful save leaves behind. */
module HasilPanenPage {
  import opened Common
  import opened Text
  import opened Ui
  import ManagerRoutes

  datatype Harvest = Harvest(idHasil: int, status: Option<string>, tanggalPanen: Option<string>)

  const PALETTE: seq<string> := ["#22c55e", "#f59e0b", "#0ea5e9", "#f43f5e", "#a855f7", "#06b6d4", "#eab308", "#64748b"]

  /** `hp.status || "unknown"`. */
  function StatusKey(h: Harvest): string
  {
    if h.status.None? || h.status.value == "" then "unknown" else h.status.value
  }

  /** `getChartData`: one bar per distinct status with its count, and a colour for each
      of the first eight bars. */
  function StatusChart(hasilPanen: seq<Harvest>): (r: (Groups, seq<string>))
    ensures |r.0.labels| == |r.0.totals| && Distinct(r.0.labels)
    ensures forall h :: h in hasilPanen ==> StatusKey(h) in r.0.labels
    ensures forall l :: l in r.0.labels ==> exists h :: h in hasilPanen && StatusKey(h) == l
    ensures forall h :: h in hasilPanen && h.status.None? ==> "unknown" in r.0.labels
    ensures forall i :: 0 <= i < |r.0.labels| ==> r.0.totals[i] == WeightOf(hasilPanen, StatusKey, One, r.0.labels[i])
    ensures Sum(r.0.totals) == |hasilPanen| as real
    ensures |r.1| == (if |r.0.labels| < 8 then |r.0.labels| else 8)
  {
    var g := Histogram(hasilPanen, StatusKey);
    (g, Colors(PALETTE, g.labels))
  }

  /** `handleEdit`'s date: the part of the stored date before "T", or "" without a date. */
  function EditDate(tanggal: Option<string>): (r: string)
    ensures tanggal.None? ==> r == ""
    ensures tanggal.Some? ==> StartsWith(tanggal.value, r) && 'T' !in r
    ensures tanggal.Some? && |r| < |tanggal.value| ==> tanggal.value[|r|] == 'T'
  {
    if tanggal.None? || tanggal.value == "" then "" else BeforeFirst(tanggal.value, 'T')
  }

  /** A timestamp "date T time" is cut back to its date. */
  lemma EditDateOfTimestamp(date: string, time: string)
    requires 'T' !in date
    ensures EditDate(Some(date + "T" + time)) == date
  {
    BeforeFirstOfJoin(date, 'T', time);
    assert date + "T" + time == date + ['T'] + time;
  }

  /** The harvest form's text fields. */
  datatype Form = Form(idTanaman: string, idLahan: string, idPengawas: string, tanggalPanen: string,
                       kuantitas: string, kualitas: string, hargaSatuan: string, status: string)

  /** The form after a save: empty, quality "A", state "Menunggu Validasi". */
  const RESET_FORM: Form := Form("", "", "", "", "", "A", "", "Menunggu Validasi")

  /** The fresh form's quality and state are ones the harvest route accepts. */
  lemma ResetFormDefaultsAccepted()
    ensures RESET_FORM.status == ManagerRoutes.DEFAULT_HARVEST_STATUS
    ensures RESET_FORM.status in ManagerRoutes.HARVEST_STATUSES
    ensures !IsNullOrBlank(Some(RESET_FORM.kualitas))
  {
    assert RESET_FORM.kualitas[0] > ' ';
  }

  /** The table's names: crops, plots and managers by id, each falling back to `"ID " + id`. */
  function Names(tanamans: seq<Named>, lahans: seq<Named>, managers: seq<Named>,
                 idTanaman: int, idLahan: int, idPengawas: int): (r: (string, string, string))
    ensures (forall i :: 0 <= i < |tanamans| ==> tanamans[i].id != idTanaman) ==> r.0 == IdLabel(idTanaman)
    ensures (forall i :: 0 <= i < |lahans| ==> lahans[i].id != idLahan) ==> r.1 == IdLabel(idLahan)
    ensures (forall i :: 0 <= i < |managers| ==> managers[i].id != idPengawas) ==> r.2 == IdLabel(idPengawas)
    ensures (exists i :: 0 <= i < |tanamans| && tanamans[i].id == idTanaman) ==> r.0 in NamesOf(tanamans)
    ensures (exists i :: 0 <= i < |lahans| && lahans[i].id == idLahan) ==> r.1 in NamesOf(lahans)
    ensures (exists i :: 0 <= i < |managers| && managers[i].id == idPengawas) ==> r.2 in NamesOf(managers)
    ensures forall i | 0 <= i < |tanamans| && tanamans[i].id == idTanaman &&
                       (forall j :: 0 <= j < i ==> tanamans[j].id != idTanaman) :: r.0 == tanamans[i].name
    ensures forall i | 0 <= i < |lahans| && lahans[i].id == idLahan &&
                       (forall j :: 0 <= j < i ==> lahans[j].id != idLahan) :: r.1 == lahans[i].name
    ensures forall i | 0 <= i < |managers| && managers[i].id == idPengawas &&
                       (forall j :: 0 <= j < i ==> managers[j].id != idPengawas) :: r.2 == managers[i].name
  {
    (NameOrId(tanamans, idTanaman), NameOrId(lahans, idLahan), NameOrId(managers, idPengawas))
  }
}

=== FILE: hasil_panen_routes.dfy ===
/** The harvest routes under `/api/hasil_panen`. The manager's own harvest update
    (PUT `/api/manager/hasil-panen/:id`) answers exactly as `UpdateHarvest` does. */
module HasilPanenRoutes {
  import opened Common
  import opened Text
  import opened Http
  import opened Records

  /** The one check of a harvest update: positive quantity and unit price. */
  function HarvestUpdateGuards(h: HasilPanen): (gs: seq<Guard>)
    ensures Passes(gs) <==> h.kuantitas > 0.0 && h.hargaSatuan > 0.0
    ensures !Passes(gs) ==> FirstFailing(gs) == Some(HasilPanenFields)
  {
    [Guard(HasilPanenFields, h.kuantitas > 0.0 && h.hargaSatuan > 0.0)]
  }

  /** PUT /:id. */
  function UpdateHarvest(idText: string, body: Json<HasilPanen>, update: HasilPanen -> bool): (r: Handled<HasilPanen>)
    ensures ParseJavaInt(idText).None? ==> r == Handled(Reply(400, NonNumericId), None)
    ensures ParseJavaInt(idText).Some? && body.Malformed? ==> r == Handled(Reply(400, MalformedJson), None)
    ensures ParseJavaInt(idText).Some? && body.Null? ==> r == Handled(Reply(500, InternalError), None)
    ensures r.record.Some? <==>
              ParseJavaInt(idText).Some? && body.Parsed? && body.value.kuantitas > 0.0 && body.value.hargaSatuan > 0.0
    ensures r.record.Some? ==>
              r.record.value == body.value.(idHasil := ParseJavaInt(idText).value) &&
              r.reply == (if update(r.record.value) then Reply(200, Done) else Reply(404, NotFound))
    ensures ParseJavaInt(idText).Some? && body.Parsed? && !(body.value.kuantitas > 0.0 && body.value.hargaSatuan > 0.0) ==>
              r == Handled(Reply(400, Invalid(HasilPanenFields)), None)
  {
    UpdateById(idText, body, (h: HasilPanen, id: int) => h.(idHasil := id), HarvestUpdateGuards, update)
  }

  /** Whatever id the body carries, the update is addressed to the id in the path. */
  lemma PathIdWins(idText: string, h: HasilPanen, update: HasilPanen -> bool)
    requires ParseJavaInt(idText).Some?
    requires h.kuantitas > 0.0 && h.hargaSatuan > 0.0
    ensures UpdateHarvest(idText, Parsed(h), update).record.value.idHasil == ParseJavaInt(idText).value
    ensures UpdateHarvest(idText, Parsed(h), update).record.value.(idHasil := h.idHasil) == h
  {
  }
}

=== FILE: http.dfy ===
/** The request/response vocabulary shared by the Spark filters and route handlers:
    filter decisions, handler replies with the reason behind their status code,
    the three ways Gson can turn a body into a record, ordered validation checks,
    and the GET/DELETE-by-id idioms every controller repeats. */
module Http {
  import opened Common
  import opened Text

  /** Outcome of a Spark `before` filter: continue, or `halt(status, message)`. */
  datatype Decision = Allow | Halt(status: int, message: string)

  /** The validation check a 400 reply names. */
  datatype Check =
    | IdTanaman | IdLahan | IdPengawas | IdPembeli | IdHasil
    | Kuantitas | HargaSatuan | Jumlah | TotalHarga
    | Tanggal | Kualitas | Status | Suhu | Kelembaban
    | NamaTanaman | LahanFields | MonitoringFields | PembelianFields | HasilPanenFields
    | PengawasExists | PengawasRole

  /** Why a handler answered as it did. */
  datatype Reason =
    | Done            // the store accepted the operation
    | Found           // a lookup succeeded; the record is the body
    | Forbidden       // the role check failed
    | NonNumericId    // `Integer.parseInt` threw on the path id
    | MalformedJson   // Gson threw `JsonSyntaxException`
    | EmptyBody       // the raw body was null or blank
    | Invalid(check: Check)
    | NotFound        // lookup, update or delete found no such id
    | StoreFailed     // an insert (or registration) returned false
    | BadCredentials  // login found no matching account
    | InternalError   // any other exception, e.g. a null record after parsing

  /** Status code and reason of a handler's reply. Spark's default status is 200. */
  datatype Reply = Reply(status: int, reason: Reason)

  /** A reply together with the record handed to the store or returned by a lookup, if any. */
  datatype Handled<T> = Handled(reply: Reply, record: Option<T>)

  /** What `gson.fromJson(req.body(), T.class)` produced: a record, a syntax error,
      or `null` (for the body "null" or an empty body). */
  datatype Json<T> = Parsed(value: T) | Malformed | Null

  // ---------------------------------------------------------------- ordered checks

  /** One validation step of a handler: the check it names and whether the record passes it. */
  datatype Guard = Guard(check: Check, ok: bool)

  /** The first failing check of an ordered chain, if any. */
  function FirstFailing(gs: seq<Guard>): (r: Option<Check>)
    ensures r.None? <==> forall i :: 0 <= i < |gs| ==> gs[i].ok
  {
    if |gs| == 0 then None
    else if !gs[0].ok then Some(gs[0].check)
    else FirstFailing(gs[1..])
  }

  /** Every check of the chain passes. */
  predicate Passes(gs: seq<Guard>)
  {
    FirstFailing(gs).None?
  }

  /** The check `FirstFailing` reports failed, and every check before it passed. */
  lemma {:induction false} FirstFailingIsFirst(gs: seq<Guard>)
    requires FirstFailing(gs).Some?
    ensures exists i :: 0 <= i < |gs| && gs[i].check == FirstFailing(gs).value && !gs[i].ok
                        && forall j :: 0 <= j < i ==> gs[j].ok
  {
    if gs[0].ok {
      FirstFailingIsFirst(gs[1..]);
      var i :| 0 <= i < |gs[1..]| && gs[1..][i].check == FirstFailing(gs[1..]).value && !gs[1..][i].ok
               && forall j :: 0 <= j < i ==> gs[1..][j].ok;
      assert gs[i + 1] == gs[1..][i];
      forall j | 0 <= j < i + 1 ensures gs[j].ok {
        if j > 0 { assert gs[j] == gs[1..][j - 1]; }
      }
    } else {
      assert gs[0].check == FirstFailing(gs).value;
    }
  }

  /** Conversely, a failing check preceded only by passing ones is the one reported. */
  lemma {:induction false} FirstFailingAt(gs: seq<Guard>, i: nat)
    requires i < |gs| && !gs[i].ok
    requires forall j :: 0 <= j < i ==> gs[j].ok
    ensures FirstFailing(gs) == Some(gs[i].check)
  {
    if i > 0 {
      assert gs[0].ok;
      assert gs[1..][i - 1] == gs[i];
      forall j | 0 <= j < i - 1 ensures gs[1..][j].ok {
        assert gs[1..][j] == gs[j + 1];
      }
      FirstFailingAt(gs[1..], i - 1);
    }
  }

  /** `FirstFailingAt` for every position of the chain at once. */
  lemma FirstFailingEach(gs: seq<Guard>)
    ensures forall i :: 0 <= i < |gs| && !gs[i].ok && (forall j :: 0 <= j < i ==> gs[j].ok) ==> FirstFailing(gs) == Some(gs[i].check)
  {
    forall i | 0 <= i < |gs| && !gs[i].ok && (forall j :: 0 <= j < i ==> gs[j].ok)
      ensures FirstFailing(gs) == Some(gs[i].check)
    {
      FirstFailingAt(gs, i);
    }
  }

  // ---------------------------------------------------------------- by-id routes

  /** GET `/:id`: the path id is parsed with `Integer.parseInt`, then looked up. */
  function GetById<T>(idText: string, lookup: int -> Option<T>): (r: Handled<T>)
    ensures r.reply.status == 400 <==> ParseJavaInt(idText).None?
    ensures r.reply.status == 404 <==> ParseJavaInt(idText).Some? && lookup(ParseJavaInt(idText).value).None?
    ensures r.reply.status == 200 <==> ParseJavaInt(idText).Some? && lookup(ParseJavaInt(idText).value).Some?
    ensures r.reply.status == 200 ==> r.record == lookup(ParseJavaInt(idText).value)
    ensures r.reply.status != 200 ==> r.record.None?
  {
    match ParseJavaInt(idText)
    case None => Handled(Reply(400, NonNumericId), None)
    case Some(id) =>
      match lookup(id)
      case Some(rec) => Handled(Reply(200, Found), Some(rec))
      case None => Handled(Reply(404, NotFound), None)
  }

  /** DELETE `/:id`: 200 when the store deletes the row, 404 when it reports nothing deleted;
      `nonNumeric` is the reply the controller's exception handler gives to a bad id. */
  function DeleteById(idText: string, delete: int -> bool, nonNumeric: Reply): (r: Reply)
    ensures ParseJavaInt(idText).None? ==> r == nonNumeric
    ensures ParseJavaInt(idText).Some? ==>
              (r.status == 200 <==> delete(ParseJavaInt(idText).value))
    ensures ParseJavaInt(idText).Some? && !delete(ParseJavaInt(idText).value) ==> r == Reply(404, NotFound)
  {
    match ParseJavaInt(idText)
    case None => nonNumeric
    case Some(id) => if delete(id) then Reply(200, Done) else Reply(404, NotFound)
  }

  /** GET of a whole table: the store's list, or a 500 when the store threw (`None`). */
  function Listing<T>(all: Option<seq<T>>): (r: Handled<seq<T>>)
    ensures r.record == all
    ensures r.reply.status == 200 <==> all.Some?
    ensures all.None? ==> r.reply == Reply(500, InternalError)
  {
    if all.Some? then Handled(Reply(200, Found), all) else Handled(Reply(500, InternalError), None)
  }

  /** PUT `/:id` as the controllers that catch both parse errors write it: the path id
      is parsed first (400), then the body (400 for a syntax error, 500 for a null record),
      the path id overwrites the record's own id, the checks run in order, and the store
      reports whether a row was updated (200) or none had that id (404). */
  function UpdateById<T>(idText: string, body: Json<T>, withId: (T, int) -> T,
                         guards: T -> seq<Guard>, update: T -> bool): (r: Handled<T>)
    ensures ParseJavaInt(idText).None? ==> r == Handled(Reply(400, NonNumericId), None)
    ensures ParseJavaInt(idText).Some? && body.Malformed? ==> r == Handled(Reply(400, MalformedJson), None)
    ensures ParseJavaInt(idText).Some? && body.Null? ==> r == Handled(Reply(500, InternalError), None)
    ensures r.record.Some? <==>
              ParseJavaInt(idText).Some? && body.Parsed? &&
              Passes(guards(withId(body.value, ParseJavaInt(idText).value)))
    ensures ParseJavaInt(idText).Some? && body.Parsed? &&
            !Passes(guards(withId(body.value, ParseJavaInt(idText).value))) ==>
              r == Handled(Reply(400, Invalid(FirstFailing(guards(withId(body.value, ParseJavaInt(idText).value))).value)), None)
    ensures r.record.Some? ==>
              r.record.value == withId(body.value, ParseJavaInt(idText).value) &&
              r.reply == (if update(r.record.value) then Reply(200, Done) else Reply(404, NotFound))
  {
    match ParseJavaInt(idText)
    case None => Handled(Reply(400, NonNumericId), None)
    case Some(id) =>
      match body
      case Malformed => Handled(Reply(400, MalformedJson), None)
      case Null => Handled(Reply(500, InternalError), None)
      case Parsed(v) =>
        var t := withId(v, id);
        match FirstFailing(guards(t))
        case Some(c) => Handled(Reply(400, Invalid(c)), None)
        case None => if update(t) then Handled(Reply(200, Done), Some(t)) else Handled(Reply(404, NotFound), Some(t))
  }

  /** How a POST handler answers a body with a syntax error, a stored record and a
      refused insert. */
  datatype CreateReplies = CreateReplies(malformed: Reply, created: Reply, failed: Reply)

  /** The replies of the POST handlers that catch syntax errors: 400 for bad JSON,
      200 once inserted, 500 when the store refuses. */
  const JSON_POST: CreateReplies := CreateReplies(Reply(400, MalformedJson), Reply(200, Done), Reply(500, StoreFailed))

  /** POST: parse the body (a null record is a 500), complete it with `prepare`
      (defaults the handler fills in), run the checks in order, then insert. */
  function CreateChecked<T>(body: Json<T>, prepare: T -> T, guards: T -> seq<Guard>,
                            add: T -> bool, replies: CreateReplies): (r: Handled<T>)
    ensures body.Malformed? ==> r == Handled(replies.malformed, None)
    ensures body.Null? ==> r == Handled(Reply(500, InternalError), None)
    ensures r.record.Some? <==> body.Parsed? && Passes(guards(prepare(body.value)))
    ensures body.Parsed? && !Passes(guards(prepare(body.value))) ==>
              r == Handled(Reply(400, Invalid(FirstFailing(guards(prepare(body.value))).value)), None)
    ensures r.record.Some? ==>
              r.record.value == prepare(body.value) &&
              r.reply == (if add(r.record.value) then replies.created else replies.failed)
  {
    match body
    case Malformed => Handled(replies.malformed, None)
    case Null => Handled(Reply(500, InternalError), None)
    case Parsed(v) =>
      var t := prepare(v);
      match FirstFailing(guards(t))
      case Some(c) => Handled(Reply(400, Invalid(c)), None)
      case None => if add(t) then Handled(replies.created, Some(t)) else Handled(replies.failed, Some(t))
  }

  /** The replies of the POST handlers that answer 201 on insert and blame the input
      (400) when the store refuses it. */
  const CREATED_POST: CreateReplies := CreateReplies(Reply(400, MalformedJson), Reply(201, Done), Reply(400, StoreFailed))

  /** POST preceded by the raw-body test `body == null || body.trim().isEmpty()`:
      a missing or blank body is refused before Gson sees it. */
  function CreateNonBlank<T>(raw: Option<string>, body: Json<T>, prepare: T -> T, guards: T -> seq<Guard>,
                             add: T -> bool, replies: CreateReplies): (r: Handled<T>)
    ensures IsNullOrBlank(raw) ==> r == Handled(Reply(400, EmptyBody), None)
    ensures !IsNullOrBlank(raw) ==> r == CreateChecked(body, prepare, guards, add, replies)
    ensures r.record.Some? ==> !IsNullOrBlank(raw) && body.Parsed? && Passes(guards(prepare(body.value)))
  {
    if IsNullOrBlank(raw) then Handled(Reply(400, EmptyBody), None)
    else CreateChecked(body, prepare, guards, add, replies)
  }
}

=== FILE: lahan_page.dfy ===
/** The plot page: area per supervisor, the supervisor shown in the table, and the
    request its form sends. */
module LahanPage {
  import opened Common
  import opened Text
  import opened Ui

  datatype Plot = Plot(idLahan: int, luas: Option<real>, idPengawas: int)

  const PALETTE: seq<string> := ["#3b82f6", "#10b981", "#f59e0b", "#ef4444", "#8b5cf6", "#06b6d4", "#f97316", "#64748b"]

  /** `l.luas || 0`: a missing area weighs nothing. */
  function Luas(l: Plot): (r: real)
    ensures l.luas.None? ==> r == 0.0
    ensures l.luas.Some? ==> r == l.luas.value
  {
    l.luas.GetOr(0.0)
  }

  /** The chart's name for a supervisor the manager list does not contain. */
  function ChartLabel(id: int): string
  {
    "Pengawas ID " + IntToString(id)
  }

  /** The table's name for such a supervisor. */
  const UNKNOWN_SUPERVISOR: string := "Tidak Diketahui"

  /** The chart's bucket of a plot: its supervisor's name. */
  function SupervisorOf(managers: seq<Named>): Plot -> string
  {
    (l: Plot) => NameOf(managers, l.idPengawas, ChartLabel(l.idPengawas))
  }

  /** `getChartData`: area summed per supervisor name, and a colour for each of the
      first eight bars. Grouping is by name, so two supervisors who share a name share a bar. */
  function LuasByPengawas(lahan: seq<Plot>, managers: seq<Named>): (r: (Groups, seq<string>))
    ensures |r.0.labels| == |r.0.totals| && Distinct(r.0.labels)
    ensures forall l :: l in lahan ==> SupervisorOf(managers)(l) in r.0.labels
    ensures forall k :: k in r.0.labels ==> exists l :: l in lahan && SupervisorOf(managers)(l) == k
    ensures forall i :: 0 <= i < |r.0.labels| ==>
              r.0.totals[i] == WeightOf(lahan, SupervisorOf(managers), Luas, r.0.labels[i])
    ensures Sum(r.0.totals) == TotalWeight(lahan, Luas)
    ensures |r.1| == (if |r.0.labels| < 8 then |r.0.labels| else 8)
  {
    var g := GroupBy(lahan, SupervisorOf(managers), Luas);
    GroupByTotal(lahan, SupervisorOf(managers), Luas);
    (g, Colors(PALETTE, g.labels))
  }

  /** A plot whose supervisor is unknown is charted under "Pengawas ID <id>" but listed
      in the table as "Tidak Diketahui". */
  lemma UnknownSupervisorNames(lahan: seq<Plot>, managers: seq<Named>, l: Plot)
    requires l in lahan
    requires forall i :: 0 <= i < |managers| ==> managers[i].id != l.idPengawas
    ensures ChartLabel(l.idPengawas) in LuasByPengawas(lahan, managers).0.labels
    ensures TableName(managers, l.idPengawas) == UNKNOWN_SUPERVISOR
  {
    assert SupervisorOf(managers)(l) == ChartLabel(l.idPengawas);
  }

  /** A plot without an area adds nothing to the chart's total. */
  lemma MissingAreaAddsNothing(lahan: seq<Plot>, managers: seq<Named>, l: Plot)
    requires l.luas.None?
    ensures Sum(LuasByPengawas(lahan + [l], managers).0.totals) == Sum(LuasByPengawas(lahan, managers).0.totals)
  {
    assert (lahan + [l])[..|lahan|] == lahan;
  }

  /** Two supervisors named alike are one bar holding both their areas. */
  lemma NamesakesShareABar(m1: Named, m2: Named, a: Plot, b: Plot)
    requires m1.id != m2.id && m1.name == m2.name
    requires a.idPengawas == m1.id && b.idPengawas == m2.id
    ensures LuasByPengawas([a, b], [m1, m2]).0 == Groups([m1.name], [Luas(a) + Luas(b)])
  {
    var key := SupervisorOf([m1, m2]);
    assert GroupBy([a, b], key, Luas) == Groups([m1.name], [Luas(a) + Luas(b)]) by {
      NameOfTwo(m1, m2, ChartLabel(a.idPengawas), ChartLabel(b.idPengawas));
      TwoPlotsOneBar(a, b, key);
    }
  }

  /** Two plots with the same bucket make a single bar. */
  lemma TwoPlotsOneBar(a: Plot, b: Plot, key: Plot -> string)
    requires key(a) == key(b)
    ensures GroupBy([a, b], key, Luas) == Groups([key(a)], [Luas(a) + Luas(b)])
  {
    GroupByOne(a, key, Luas);
    var xs := [a, b];
    assert xs[..1] == [a];
    AddToExisting(key(a), Luas(a), Luas(b));
  }

  /** The supervisor column of the table. */
  function TableName(managers: seq<Named>, idPengawas: int): (r: string)
    ensures (forall i :: 0 <= i < |managers| ==> managers[i].id != idPengawas) ==> r == UNKNOWN_SUPERVISOR
    ensures (exists i :: 0 <= i < |managers| && managers[i].id == idPengawas) ==> r in NamesOf(managers)
    ensures forall i :: 0 <= i < |managers| && managers[i].id == idPengawas && (forall j :: 0 <= j < i ==> managers[j].id != idPengawas) ==>
              r == managers[i].name
  {
    NameLookupFacts(managers, idPengawas, UNKNOWN_SUPERVISOR);
    NameOf(managers, idPengawas, UNKNOWN_SUPERVISOR)
  }

  const ID_FIELD: string := "id_lahan"

  /** `handleSubmit`: PUT `/lahan/<id>` without the id field when editing, POST `/lahan`
      with the whole form otherwise. */
  function Submit(form: map<string, string>, editing: bool): (r: Submission)
    requires editing ==> ID_FIELD in form
    ensures editing ==> r.verb == "PUT" && r.path == "/lahan/" + form[ID_FIELD]
    ensures editing ==> ID_FIELD !in r.body &&
                        forall k :: k in form && k != ID_FIELD ==> k in r.body && r.body[k] == form[k]
    ensures !editing ==> r.verb == "POST" && r.path == "/lahan" && r.body == form
  {
    EditOrCreate("/lahan", ID_FIELD, form, editing)
  }
}

=== FILE: lahan_routes.dfy ===
/** The plot routes under `/api/lahan`. A plot names its supervisor, who must be a
    registered account with the "manajer" role; `userById` is the account store. */
module LahanRoutes {
  import opened Common
  import opened Text
  import opened Http
  import opened Records

  /** The plot's own fields: a non-empty name, a positive area, a supervisor id. */
  predicate WellFormedPlot(l: Lahan)
  {
    !IsNullOrEmpty(l.namaLahan) && l.luas > 0.0 && l.idPengawas > 0
  }

  /** The supervisor named by the plot exists and has the manager role (ignoring case). */
  predicate SupervisedByManager(l: Lahan, userById: int -> Option<User>)
  {
    userById(l.idPengawas).Some? && EqualsIgnoreCaseOpt("manajer", userById(l.idPengawas).value.role)
  }

  /** The checks of a plot, in order: its fields, then the supervisor's existence, then
      the supervisor's role. */
  function PlotGuards(l: Lahan, userById: int -> Option<User>): (gs: seq<Guard>)
    ensures Passes(gs) <==> WellFormedPlot(l) && SupervisedByManager(l, userById)
    ensures !WellFormedPlot(l) ==> FirstFailing(gs) == Some(LahanFields)
    ensures WellFormedPlot(l) && userById(l.idPengawas).None? ==> FirstFailing(gs) == Some(PengawasExists)
    ensures WellFormedPlot(l) && userById(l.idPengawas).Some? && !SupervisedByManager(l, userById) ==>
              FirstFailing(gs) == Some(PengawasRole)
  {
    var supervisor := userById(l.idPengawas);
    var gs := [Guard(LahanFields, WellFormedPlot(l)),
               Guard(PengawasExists, supervisor.Some?),
               Guard(PengawasRole, supervisor.Some? && EqualsIgnoreCaseOpt("manajer", supervisor.value.role))];
    assert gs[0].ok && gs[1].ok && gs[2].ok <==> WellFormedPlot(l) && SupervisedByManager(l, userById);
    if WellFormedPlot(l) && supervisor.Some? && !gs[2].ok then FirstFailingAt(gs, 2); gs
    else gs
  }

  /** POST: a blank raw body is refused first; a stored plot answers 201 and a refused
      insert 400. */
  function CreatePlot(raw: Option<string>, body: Json<Lahan>, userById: int -> Option<User>,
                      add: Lahan -> bool): (r: Handled<Lahan>)
    ensures IsNullOrBlank(raw) ==> r == Handled(Reply(400, EmptyBody), None)
    ensures !IsNullOrBlank(raw) && body.Malformed? ==> r == Handled(Reply(400, MalformedJson), None)
    ensures !IsNullOrBlank(raw) && body.Null? ==> r == Handled(Reply(500, InternalError), None)
    ensures r.record.Some? <==>
              !IsNullOrBlank(raw) && body.Parsed? && WellFormedPlot(body.value) && SupervisedByManager(body.value, userById)
    ensures r.record.Some? ==>
              r.record == Some(body.value) &&
              r.reply == (if add(body.value) then Reply(201, Done) else Reply(400, StoreFailed))
    ensures !IsNullOrBlank(raw) && body.Parsed? && !Passes(PlotGuards(body.value, userById)) ==>
              r == Handled(Reply(400, Invalid(FirstFailing(PlotGuards(body.value, userById)).value)), None)
    ensures r.reply.status != 201 ==> r.reply.status in {400, 500}
  {
    CreateNonBlank(raw, body, (l: Lahan) => l, (l: Lahan) => PlotGuards(l, userById), add, CREATED_POST)
  }

  /** PUT /:id: the same checks as creation, on the record carrying the path id. */
  function UpdatePlot(idText: string, body: Json<Lahan>, userById: int -> Option<User>,
                      update: Lahan -> bool): (r: Handled<Lahan>)
    ensures ParseJavaInt(idText).None? ==> r == Handled(Reply(400, NonNumericId), None)
    ensures ParseJavaInt(idText).Some? && body.Malformed? ==> r == Handled(Reply(400, MalformedJson), None)
    ensures ParseJavaInt(idText).Some? && body.Null? ==> r == Handled(Reply(500, InternalError), None)
    ensures r.record.Some? <==>
              ParseJavaInt(idText).Some? && body.Parsed? &&
              WellFormedPlot(body.value) && SupervisedByManager(body.value, userById)
    ensures ParseJavaInt(idText).Some? && body.Parsed? &&
            !Passes(PlotGuards(body.value.(idLahan := ParseJavaInt(idText).value), userById)) ==>
              r == Handled(Reply(400, Invalid(FirstFailing(PlotGuards(body.value.(idLahan := ParseJavaInt(idText).value), userById)).value)), None)
    ensures r.record.Some? ==>
              r.record.value == body.value.(idLahan := ParseJavaInt(idText).value) &&
              r.reply == (if update(r.record.value) then Reply(200, Done) else Reply(404, NotFound))
  {
    UpdateById(idText, body, (l: Lahan, id: int) => l.(idLahan := id), (l: Lahan) => PlotGuards(l, userById), update)
  }

  /** A plot supervised by a buyer is refused for the supervisor's role, not as missing. */
  lemma BuyerCannotSupervise(l: Lahan, userById: int -> Option<User>, add: Lahan -> bool)
    requires WellFormedPlot(l)
    requires userById(l.idPengawas).Some? && userById(l.idPengawas).value.role == Some("pembeli")
    ensures CreatePlot(Some("{}"), Parsed(l), userById, add) == Handled(Reply(400, Invalid(PengawasRole)), None)
  {
    assert !IsBlank("{}") by { assert "{}"[0] > ' '; }
    LowerWithoutCapitals("manajer");
    LowerWithoutCapitals("pembeli");
  }
}

=== FILE: manager_page.dfy ===
/** The admin's manager-accounts page: how a role is displayed, and the bodies sent to
    edit an account or register a new one. */
module ManagerPage {
  import opened Common
  import opened Text
  import opened Records
  import Http
  import UserRoutes

  /** The display names of the three known roles, keyed by lower-cased role. */
  const ROLE_LABELS: map<string, string> := map["admin" := "Admin", "manajer" := "Manajer", "pembeli" := "Pembeli"]

  /** `formatRole`: "-" for no role, the display name of a known role in any letter case,
      otherwise the role with its first letter capitalised. */
  function FormatRole(role: Option<string>): (r: string)
    ensures role.None? || role.value == "" ==> r == "-"
    ensures role.Some? && ToLower(role.value) in ROLE_LABELS ==> r == ROLE_LABELS[ToLower(role.value)]
    ensures role.Some? && role.value != "" ==> EqualsIgnoreCase(r, role.value)
    ensures role.Some? && role.value != "" && ToLower(role.value) !in ROLE_LABELS ==>
              |r| == |role.value| && r[0] == UpperChar(role.value[0]) && r[1..] == role.value[1..]
    ensures |r| > 0
  {
    if role.None? || role.value == "" then "-"
    else
      var key := ToLower(role.value);
      if key in ROLE_LABELS then
        KnownLabelsMatchKeys(key);
        ROLE_LABELS[key]
      else
        CapitaliseKeepsLower(role.value);
        [UpperChar(role.value[0])] + role.value[1..]
  }

  /** Every display name lower-cases to its key. */
  lemma KnownLabelsMatchKeys(key: string)
    requires key in ROLE_LABELS
    ensures ToLower(ROLE_LABELS[key]) == key
  {
    AdminLabel();
    ManajerLabel();
    PembeliLabel();
  }

  lemma AdminLabel() ensures ToLower("Admin") == "admin" {}
  lemma ManajerLabel() ensures ToLower("Manajer") == "manajer" {}
  lemma PembeliLabel() ensures ToLower("Pembeli") == "pembeli" {}

  /** Capitalising the first letter does not change the lower-cased string. */
  lemma CapitaliseKeepsLower(s: string)
    requires s != ""
    ensures ToLower([UpperChar(s[0])] + s[1..]) == ToLower(s)
  {
    var t := [UpperChar(s[0])] + s[1..];
    assert forall i :: 1 <= i < |s| ==> t[i] == s[i];
  }

  /** Formatting a formatted role changes nothing. */
  lemma FormatRoleIdempotent(role: Option<string>)
    ensures FormatRole(Some(FormatRole(role))) == FormatRole(role)
  {
    var r := FormatRole(role);
    if role.None? || role.value == "" {
      assert ToLower("-") == "-";
    } else if ToLower(role.value) in ROLE_LABELS {
      KnownLabelsMatchKeys(ToLower(role.value));
    } else {
      CapitaliseKeepsLower(role.value);
      assert ToLower(r) == ToLower(role.value);
      assert r[0] == UpperChar(role.value[0]) && r[1..] == role.value[1..];
    }
  }

  // ---------------------------------------------------------------- payloads

  /** The account form. */
  datatype Form = Form(idUser: Option<int>, username: string, nama: string, password: string, role: string)

  /** The edit body: username and name, and the password only when one was typed. */
  function EditPayload(f: Form): (body: map<string, string>)
    ensures body.Keys == {"username", "nama"} + (if f.password != "" then {"password"} else {})
    ensures body["username"] == f.username && body["nama"] == f.nama
    ensures "password" in body ==> body["password"] == f.password
  {
    var base := map["username" := f.username, "nama" := f.nama];
    if f.password != "" then base["password" := f.password] else base
  }

  /** The registration body: exactly username, password, role and name. */
  function RegisterPayload(f: Form): (body: map<string, string>)
    ensures body.Keys == {"username", "password", "role", "nama"}
    ensures body["username"] == f.username && body["password"] == f.password
    ensures body["role"] == f.role && body["nama"] == f.nama
  {
    map["username" := f.username, "password" := f.password, "role" := f.role, "nama" := f.nama]
  }

  /** The form after a save: empty, with the manager role preselected. */
  const RESET_FORM: Form := Form(None, "", "", "", "manajer")

  /** The account the registration route builds from this page's body keeps the form's
      username, role and name, and stores only the hash of its password. */
  lemma RegisteredAsTyped(f: Form, hash: string -> string, save: User -> bool)
    ensures var body := RegisterPayload(f);
            var sent := User(0, Some(body["username"]), Some(body["password"]), Some(body["role"]), Some(body["nama"]));
            var u := UserRoutes.Register(Http.Parsed(sent), hash, save).record;
            u == Some(User(0, Some(f.username), Some(hash(f.password)), Some(f.role), Some(f.nama)))
  {
  }

  /** A fresh form registers a manager. */
  lemma ResetFormRegistersManager()
    ensures FormatRole(Some(RegisterPayload(RESET_FORM)["role"])) == "Manajer"
  {
    assert RegisterPayload(RESET_FORM)["role"] == "manajer";
    LowerWithoutCapitals("manajer");
    assert ROLE_LABELS["manajer"] == "Manajer";
  }
}

=== FILE: manager_routes.dfy ===
/** The farm manager's routes under `/api/manager`: harvests, sensor readings,
    plantings, crop lookups and the dashboard summary. Each POST validates in a fixed
    order and names the first failing check; each PUT takes the id from the path. */
module ManagerRoutes {
  import opened Common
  import opened Text
  import opened Http
  import opened Records

  // ---------------------------------------------------------------- harvests

  const DEFAULT_HARVEST_STATUS: string := "Menunggu Validasi"

  /** The harvest states the manager may record, compared case-sensitively. */
  const HARVEST_STATUSES: set<string> := {"Menunggu Validasi", "Siap Dijual", "Terjual"}

  /** A missing or blank status becomes "Menunggu Validasi"; anything else is kept. */
  function WithDefaultStatus(h: HasilPanen): (r: HasilPanen)
    ensures IsNullOrBlank(h.status) ==> r.status == Some(DEFAULT_HARVEST_STATUS)
    ensures !IsNullOrBlank(h.status) ==> r == h
    ensures r.(status := h.status) == h
  {
    if IsNullOrBlank(h.status) then h.(status := Some(DEFAULT_HARVEST_STATUS)) else h
  }

  /** The checks of a new harvest, in the order the handler runs them. */
  function HarvestGuards(h: HasilPanen): (gs: seq<Guard>)
    ensures Passes(gs) <==> StorableHarvest(h)
    ensures FirstFailing(gs) == Some(IdTanaman) <==> h.idTanaman <= 0
    ensures FirstFailing(gs) == Some(IdLahan) <==> h.idTanaman > 0 && h.idLahan <= 0
    ensures FirstFailing(gs) == Some(IdPengawas) <==> h.idTanaman > 0 && h.idLahan > 0 && h.idPengawas <= 0
    ensures FirstFailing(gs) == Some(Kuantitas) <==>
              h.idTanaman > 0 && h.idLahan > 0 && h.idPengawas > 0 && h.kuantitas <= 0.0
    ensures FirstFailing(gs) == Some(HargaSatuan) <==>
              h.idTanaman > 0 && h.idLahan > 0 && h.idPengawas > 0 && h.kuantitas > 0.0 && h.hargaSatuan <= 0.0
    ensures FirstFailing(gs) == Some(Tanggal) <==>
              h.idTanaman > 0 && h.idLahan > 0 && h.idPengawas > 0 && h.kuantitas > 0.0 && h.hargaSatuan > 0.0 &&
              h.tanggalPanen.None?
    ensures FirstFailing(gs) == Some(Kualitas) <==>
              h.idTanaman > 0 && h.idLahan > 0 && h.idPengawas > 0 && h.kuantitas > 0.0 && h.hargaSatuan > 0.0 &&
              h.tanggalPanen.Some? && IsNullOrBlank(h.kualitas)
    ensures FirstFailing(gs) == Some(Status) <==>
              h.idTanaman > 0 && h.idLahan > 0 && h.idPengawas > 0 && h.kuantitas > 0.0 && h.hargaSatuan > 0.0 &&
              h.tanggalPanen.Some? && !IsNullOrBlank(h.kualitas) && !(h.status.Some? && h.status.value in HARVEST_STATUSES)
  {
    var gs :=
      [ Guard(IdTanaman, h.idTanaman > 0),
        Guard(IdLahan, h.idLahan > 0),
        Guard(IdPengawas, h.idPengawas > 0),
        Guard(Kuantitas, h.kuantitas > 0.0),
        Guard(HargaSatuan, h.hargaSatuan > 0.0),
        Guard(Tanggal, h.tanggalPanen.Some?),
        Guard(Kualitas, !IsNullOrBlank(h.kualitas)),
        Guard(Status, h.status.Some? && h.status.value in HARVEST_STATUSES) ];
    assert gs[0].ok && gs[1].ok && gs[2].ok && gs[3].ok && gs[4].ok && gs[5].ok && gs[6].ok && gs[7].ok <==> StorableHarvest(h);
    FirstFailingEach(gs);
    gs
  }

  /** A harvest fit to store: positive ids, quantity and unit price, a date, a
      non-blank quality and one of the three states. */
  predicate StorableHarvest(h: HasilPanen)
  {
    && h.idTanaman > 0 && h.idLahan > 0 && h.idPengawas > 0
    && h.kuantitas > 0.0 && h.hargaSatuan > 0.0
    && h.tanggalPanen.Some?
    && h.kualitas.Some? && !IsBlank(h.kualitas.value)
    && h.status.Some? && h.status.value in HARVEST_STATUSES
  }

  /** POST /hasil-panen. */
  function CreateHarvest(body: Json<HasilPanen>, add: HasilPanen -> bool): (r: Handled<HasilPanen>)
    ensures body.Malformed? ==> r == Handled(Reply(400, MalformedJson), None)
    ensures body.Null? ==> r == Handled(Reply(500, InternalError), None)
    ensures r.record.Some? <==> body.Parsed? && StorableHarvest(WithDefaultStatus(body.value))
    ensures r.record.Some? ==> r.record.value == WithDefaultStatus(body.value) && StorableHarvest(r.record.value)
    ensures r.record.Some? ==> r.reply == (if add(r.record.value) then Reply(200, Done) else Reply(500, StoreFailed))
    ensures body.Parsed? && !StorableHarvest(WithDefaultStatus(body.value)) ==>
              r == Handled(Reply(400, Invalid(FirstFailing(HarvestGuards(WithDefaultStatus(body.value))).value)), None)
  {
    CreateChecked(body, WithDefaultStatus, HarvestGuards, add, JSON_POST)
  }

  // ---------------------------------------------------------------- sensor readings

  /** The checks of a reading, in order: plot id, temperature in [-50, 60] degrees,
      humidity in [0, 100] percent, date. */
  function ReadingGuards(m: Monitoring): (gs: seq<Guard>)
    ensures Passes(gs) <==> PlausibleReading(m)
    ensures FirstFailing(gs) == Some(IdLahan) <==> m.idLahan <= 0
    ensures FirstFailing(gs) == Some(Suhu) <==> m.idLahan > 0 && (m.suhu < -50.0 || m.suhu > 60.0)
    ensures FirstFailing(gs) == Some(Kelembaban) <==>
              m.idLahan > 0 && -50.0 <= m.suhu <= 60.0 && (m.kelembaban < 0.0 || m.kelembaban > 100.0)
    ensures FirstFailing(gs) == Some(Tanggal) <==>
              m.idLahan > 0 && -50.0 <= m.suhu <= 60.0 && 0.0 <= m.kelembaban <= 100.0 && m.tanggal.None?
  {
    var gs :=
      [ Guard(IdLahan, m.idLahan > 0),
        Guard(Suhu, !(m.suhu < -50.0 || m.suhu > 60.0)),
        Guard(Kelembaban, !(m.kelembaban < 0.0 || m.kelembaban > 100.0)),
        Guard(Tanggal, m.tanggal.Some?) ];
    assert gs[0].ok && gs[1].ok && gs[2].ok && gs[3].ok <==> PlausibleReading(m);
    FirstFailingEach(gs);
    gs
  }

  /** A physically plausible reading of an identified plot. */
  predicate PlausibleReading(m: Monitoring)
  {
    m.idLahan > 0 && -50.0 <= m.suhu <= 60.0 && 0.0 <= m.kelembaban <= 100.0 && m.tanggal.Some?
  }

  /** POST /monitoring. */
  function CreateReading(body: Json<Monitoring>, add: Monitoring -> bool): (r: Handled<Monitoring>)
    ensures body.Malformed? ==> r == Handled(Reply(400, MalformedJson), None)
    ensures body.Null? ==> r == Handled(Reply(500, InternalError), None)
    ensures r.record.Some? <==> body.Parsed? && PlausibleReading(body.value)
    ensures r.record.Some? ==>
              r.record.value == body.value &&
              r.reply == (if add(body.value) then Reply(200, Done) else Reply(500, StoreFailed))
    ensures body.Parsed? && !PlausibleReading(body.value) ==>
              r == Handled(Reply(400, Invalid(FirstFailing(ReadingGuards(body.value)).value)), None)
  {
    CreateChecked(body, (m: Monitoring) => m, ReadingGuards, add, JSON_POST)
  }

  /** The checks of a reading update: the ranges, but neither the plot id nor the date. */
  function ReadingUpdateGuards(m: Monitoring): (gs: seq<Guard>)
    ensures Passes(gs) <==> -50.0 <= m.suhu <= 60.0 && 0.0 <= m.kelembaban <= 100.0
    ensures FirstFailing(gs) == Some(Suhu) <==> m.suhu < -50.0 || m.suhu > 60.0
    ensures FirstFailing(gs) == Some(Kelembaban) <==>
              -50.0 <= m.suhu <= 60.0 && (m.kelembaban < 0.0 || m.kelembaban > 100.0)
  {
    var gs :=
      [ Guard(Suhu, !(m.suhu < -50.0 || m.suhu > 60.0)),
        Guard(Kelembaban, !(m.kelembaban < 0.0 || m.kelembaban > 100.0)) ];
    assert gs[0].ok && gs[1].ok <==> -50.0 <= m.suhu <= 60.0 && 0.0 <= m.kelembaban <= 100.0;
    FirstFailingEach(gs);
    gs
  }

  /** PUT /monitoring/:id. */
  function UpdateReading(idText: string, body: Json<Monitoring>, update: Monitoring -> bool): (r: Handled<Monitoring>)
    ensures ParseJavaInt(idText).None? ==> r == Handled(Reply(400, NonNumericId), None)
    ensures ParseJavaInt(idText).Some? && body.Malformed? ==> r == Handled(Reply(400, MalformedJson), None)
    ensures ParseJavaInt(idText).Some? && body.Null? ==> r == Handled(Reply(500, InternalError), None)
    ensures r.record.Some? <==>
              ParseJavaInt(idText).Some? && body.Parsed? &&
              -50.0 <= body.value.suhu <= 60.0 && 0.0 <= body.value.kelembaban <= 100.0
    ensures ParseJavaInt(idText).Some? && body.Parsed? &&
            !(-50.0 <= body.value.suhu <= 60.0 && 0.0 <= body.value.kelembaban <= 100.0) ==>
              r == Handled(Reply(400, Invalid(FirstFailing(ReadingUpdateGuards(body.value)).value)), None)
    ensures r.record.Some? ==>
              r.record.value == body.value.(idMonitor := ParseJavaInt(idText).value) &&
              r.reply == (if update(r.record.value) then Reply(200, Done) else Reply(404, NotFound))
  {
    UpdateById(idText, body, (m: Monitoring, id: int) => m.(idMonitor := id), ReadingUpdateGuards, update)
  }

  // ---------------------------------------------------------------- plantings

  const DEFAULT_PLANTING_STATUS: string := "tumbuh"

  /** The planting states, compared after lower-casing. */
  const PLANTING_STATUSES: set<string> := {"tumbuh", "panen", "selesai"}

  /** A missing or blank status becomes "tumbuh"; anything else is kept as sent. */
  function WithDefaultPlantingStatus(t: TanamanLahan): (r: TanamanLahan)
    ensures IsNullOrBlank(t.status) ==> r.status == Some(DEFAULT_PLANTING_STATUS)
    ensures !IsNullOrBlank(t.status) ==> r == t
    ensures r.(status := t.status) == t
  {
    if IsNullOrBlank(t.status) then t.(status := Some(DEFAULT_PLANTING_STATUS)) else t
  }

  /** The checks of a new planting, in order. */
  function PlantingGuards(t: TanamanLahan): (gs: seq<Guard>)
    ensures Passes(gs) <==> StorablePlanting(t)
    ensures FirstFailing(gs) == Some(IdLahan) <==> t.idLahan <= 0
    ensures FirstFailing(gs) == Some(IdTanaman) <==> t.idLahan > 0 && t.idTanaman <= 0
    ensures FirstFailing(gs) == Some(Tanggal) <==> t.idLahan > 0 && t.idTanaman > 0 && t.tanggalTanam.None?
    ensures FirstFailing(gs) == Some(Status) <==>
              t.idLahan > 0 && t.idTanaman > 0 && t.tanggalTanam.Some? &&
              !(t.status.Some? && ToLower(t.status.value) in PLANTING_STATUSES)
  {
    var gs :=
      [ Guard(IdLahan, t.idLahan > 0),
        Guard(IdTanaman, t.idTanaman > 0),
        Guard(Tanggal, t.tanggalTanam.Some?),
        Guard(Status, t.status.Some? && ToLower(t.status.value) in PLANTING_STATUSES) ];
    assert gs[0].ok && gs[1].ok && gs[2].ok && gs[3].ok <==> StorablePlanting(t);
    FirstFailingEach(gs);
    gs
  }

  /** A planting fit to store; the status may be in any letter case. */
  predicate StorablePlanting(t: TanamanLahan)
  {
    t.idLahan > 0 && t.idTanaman > 0 && t.tanggalTanam.Some? &&
    t.status.Some? && ToLower(t.status.value) in PLANTING_STATUSES
  }

  /** POST /tanaman-lahan: the status is validated lower-cased but stored as sent. */
  function CreatePlanting(body: Json<TanamanLahan>, add: TanamanLahan -> bool): (r: Handled<TanamanLahan>)
    ensures body.Malformed? ==> r == Handled(Reply(400, MalformedJson), None)
    ensures body.Null? ==> r == Handled(Reply(500, InternalError), None)
    ensures r.record.Some? <==> body.Parsed? && StorablePlanting(WithDefaultPlantingStatus(body.value))
    ensures r.record.Some? ==>
              r.record.value == WithDefaultPlantingStatus(body.value) &&
              r.reply == (if add(r.record.value) then Reply(200, Done) else Reply(500, StoreFailed))
    ensures body.Parsed? && !StorablePlanting(WithDefaultPlantingStatus(body.value)) ==>
              r == Handled(Reply(400, Invalid(FirstFailing(PlantingGuards(WithDefaultPlantingStatus(body.value))).value)), None)
  {
    CreateChecked(body, WithDefaultPlantingStatus, PlantingGuards, add, JSON_POST)
  }

  /** Harvest states are matched exactly, planting states ignoring case: a lower-case
      "siap dijual" is refused for a harvest while "TUMBUH" is stored, unchanged, for a planting. */
  lemma StatusCaseSensitivity(h: HasilPanen, t: TanamanLahan, add: HasilPanen -> bool, addT: TanamanLahan -> bool)
    requires h.status == Some("siap dijual")
    requires t.status == Some("TUMBUH")
    requires t.idLahan > 0 && t.idTanaman > 0 && t.tanggalTanam.Some?
    ensures CreateHarvest(Parsed(h), add).record.None?
    ensures CreatePlanting(Parsed(t), addT).record == Some(t)
  {
    assert "siap dijual"[0] == 's';
    assert "siap dijual" !in HARVEST_STATUSES;
    assert !IsBlank("TUMBUH") by { assert "TUMBUH"[0] > ' '; }
    assert !IsNullOrBlank(t.status);
    assert ToLower("TUMBUH") == "tumbuh";
  }

  // ---------------------------------------------------------------- summary

  /** The dashboard summary: the four table sizes and the first three rows of each. */
  datatype Summary = Summary(
    totalHasilPanen: nat, totalMonitoring: nat, totalTanaman: nat, totalTanamanLahan: nat,
    recentHasilPanen: seq<HasilPanen>, recentMonitoring: seq<Monitoring>,
    recentTanaman: seq<Tanaman>, recentTanamanLahan: seq<TanamanLahan>)

  /** `list.stream().limit(3)`. */
  function Recent<T>(xs: seq<T>): (r: seq<T>)
    ensures |r| <= 3 && |r| <= |xs|
    ensures |xs| >= 3 ==> |r| == 3
    ensures r == xs[..|r|]
  {
    Take(xs, 3)
  }

  /** GET /summary: each list is `None` when its store threw, which fails the whole call. */
  function ManagerSummary(harvests: Option<seq<HasilPanen>>, readings: Option<seq<Monitoring>>,
                          crops: Option<seq<Tanaman>>, plantings: Option<seq<TanamanLahan>>): (r: Handled<Summary>)
    ensures r.record.Some? <==> harvests.Some? && readings.Some? && crops.Some? && plantings.Some?
    ensures r.record.None? ==> r.reply == Reply(500, InternalError)
    ensures r.record.Some? ==>
              var s := r.record.value;
              r.reply.status == 200 &&
              s.totalHasilPanen == |harvests.value| && s.totalMonitoring == |readings.value| &&
              s.totalTanaman == |crops.value| && s.totalTanamanLahan == |plantings.value| &&
              s.recentHasilPanen == Recent(harvests.value) && s.recentMonitoring == Recent(readings.value) &&
              s.recentTanaman == Recent(crops.value) && s.recentTanamanLahan == Recent(plantings.value)
  {
    if harvests.None? || readings.None? || crops.None? || plantings.None? then
      Handled(Reply(500, InternalError), None)
    else
      Handled(Reply(200, Found), Some(Summary(
        |harvests.value|, |readings.value|, |crops.value|, |plantings.value|,
        Recent(harvests.value), Recent(readings.value), Recent(crops.value), Recent(plantings.value))))
  }
}

=== FILE: monitoring_page.dfy ===
/** The monitoring page's chart: the readings sorted by date into a copy, and the
    temperature and humidity series read off that copy. A date is given as its
    timestamp; its display label comes from a formatter passed in. */
module MonitoringPage {
  import opened Common
  import opened Ui

  datatype Reading = Reading(idMonitor: int, idLahan: int, tanggal: int, suhu: real, kelembaban: real)

  predicate SortedByDate(rs: seq<Reading>)
  {
    forall i, j :: 0 <= i < j < |rs| ==> rs[i].tanggal <= rs[j].tanggal
  }

  /** Inserts `r` after every reading dated no later than it. */
  function Insert(sorted: seq<Reading>, r: Reading): (out: seq<Reading>)
    requires SortedByDate(sorted)
    ensures SortedByDate(out)
    ensures multiset(out) == multiset(sorted) + multiset{r}
    ensures |out| == |sorted| + 1
    ensures out[0] == r || (|sorted| > 0 && out[0] == sorted[0])
  {
    if |sorted| == 0 then [r]
    else if r.tanggal < sorted[0].tanggal then [r] + sorted
    else
      var rest := Insert(sorted[1..], r);
      assert sorted == [sorted[0]] + sorted[1..];
      assert sorted[0].tanggal <= rest[0].tanggal;
      [sorted[0]] + rest
  }

  /** `[...monitoring].sort((a, b) => date(a) - date(b))`: the same readings, by date. */
  function SortByDate(rs: seq<Reading>): (out: seq<Reading>)
    ensures SortedByDate(out)
    ensures multiset(out) == multiset(rs)
    ensures |out| == |rs|
  {
    if |rs| == 0 then []
    else
      assert rs == rs[..|rs| - 1] + [rs[|rs| - 1]];
      Insert(SortByDate(rs[..|rs| - 1]), rs[|rs| - 1])
  }

  /** The chart's labels and its two aligned series. */
  datatype Chart = Chart(labels: seq<string>, suhu: seq<real>, kelembaban: seq<real>)

  /** `getChartData`: position `i` of every series describes the `i`-th reading by date. */
  function ChartData(monitoring: seq<Reading>, format: int -> string): (c: Chart)
    ensures |c.labels| == |monitoring| && |c.suhu| == |monitoring| && |c.kelembaban| == |monitoring|
    ensures forall i :: 0 <= i < |monitoring| ==>
              c.suhu[i] == SortByDate(monitoring)[i].suhu &&
              c.kelembaban[i] == SortByDate(monitoring)[i].kelembaban &&
              c.labels[i] == format(SortByDate(monitoring)[i].tanggal)
    ensures forall i, j :: 0 <= i < j < |monitoring| ==>
              SortByDate(monitoring)[i].tanggal <= SortByDate(monitoring)[j].tanggal
    ensures multiset(SortByDate(monitoring)) == multiset(monitoring)
  {
    var sorted := SortByDate(monitoring);
    Chart(seq(|sorted|, i requires 0 <= i < |sorted| => format(sorted[i].tanggal)),
          seq(|sorted|, i requires 0 <= i < |sorted| => sorted[i].suhu),
          seq(|sorted|, i requires 0 <= i < |sorted| => sorted[i].kelembaban))
  }

  /** Every temperature charted is one of the readings' temperatures, each as often as
      it was measured. */
  lemma ChartKeepsEveryReading(monitoring: seq<Reading>, format: int -> string)
    ensures multiset(ChartData(monitoring, format).suhu) == multiset(Temperatures(monitoring))
  {
    assert ChartData(monitoring, format).suhu == Temperatures(SortByDate(monitoring));
    SortKeepsTemperatures(monitoring);
  }

  function Temperatures(rs: seq<Reading>): (r: seq<real>)
    ensures |r| == |rs| && forall i :: 0 <= i < |rs| ==> r[i] == rs[i].suhu
  {
    seq(|rs|, i requires 0 <= i < |rs| => rs[i].suhu)
  }

  lemma TemperaturesAppend(a: seq<Reading>, b: seq<Reading>)
    ensures Temperatures(a + b) == Temperatures(a) + Temperatures(b)
  {
  }

  lemma ConsTemperatures(x: Reading, xs: seq<Reading>)
    ensures multiset(Temperatures([x] + xs)) == multiset{x.suhu} + multiset(Temperatures(xs))
  {
    TemperaturesAppend([x], xs);
    assert Temperatures([x]) == [x.suhu];
  }

  lemma UnconsTemperatures(xs: seq<Reading>)
    requires |xs| > 0
    ensures multiset(Temperatures(xs)) == multiset{xs[0].suhu} + multiset(Temperatures(xs[1..]))
  {
    assert xs == [xs[0]] + xs[1..];
    ConsTemperatures(xs[0], xs[1..]);
  }

  lemma {:induction false} InsertKeepsTemperatures(sorted: seq<Reading>, r: Reading)
    requires SortedByDate(sorted)
    ensures multiset(Temperatures(Insert(sorted, r))) == multiset(Temperatures(sorted)) + multiset{r.suhu}
  {
    if |sorted| == 0 {
      ConsTemperatures(r, []);
      assert [r] + [] == [r];
    } else if r.tanggal < sorted[0].tanggal {
      ConsTemperatures(r, sorted);
    } else {
      InsertKeepsTemperatures(sorted[1..], r);
      ConsTemperatures(sorted[0], Insert(sorted[1..], r));
      UnconsTemperatures(sorted);
    }
  }

  lemma {:induction false} SortKeepsTemperatures(rs: seq<Reading>)
    ensures multiset(Temperatures(SortByDate(rs))) == multiset(Temperatures(rs))
  {
    if |rs| > 0 {
      var init := rs[..|rs| - 1];
      SortKeepsTemperatures(init);
      InsertKeepsTemperatures(SortByDate(init), rs[|rs| - 1]);
      AppendOneTemperature(rs, SortByDate(init), SortByDate(rs));
    }
  }

  /** Closes the induction step of `SortKeepsTemperatures`. */
  lemma AppendOneTemperature(rs: seq<Reading>, sortedInit: seq<Reading>, sorted: seq<Reading>)
    requires |rs| > 0
    requires multiset(Temperatures(sortedInit)) == multiset(Temperatures(rs[..|rs| - 1]))
    requires multiset(Temperatures(sorted)) == multiset(Temperatures(sortedInit)) + multiset{rs[|rs| - 1].suhu}
    ensures multiset(Temperatures(sorted)) == multiset(Temperatures(rs))
  {
    var init, last := rs[..|rs| - 1], rs[|rs| - 1];
    assert rs == init + [last];
    TemperaturesAppend(init, [last]);
    assert Temperatures([last]) == [last.suhu];
  }

  /** `getLahanName`: the plot's name, or `"ID " + id` for an unknown plot. */
  function PlotName(lahans: seq<Named>, id: int): (r: string)
    ensures (forall i :: 0 <= i < |lahans| ==> lahans[i].id != id) ==> r == IdLabel(id)
    ensures (exists i :: 0 <= i < |lahans| && lahans[i].id == id) ==> r in NamesOf(lahans)
    ensures forall i :: 0 <= i < |lahans| && lahans[i].id == id && (forall j :: 0 <= j < i ==> lahans[j].id != id) ==>
              r == lahans[i].name
  {
    NameOrId(lahans, id)
  }
}

=== FILE: monitoring_routes.dfy ===
/** The sensor-reading routes under `/api/monitoring`. Their role check reads a
    client-supplied "Role" header and compares it, ignoring case, with "admin" and
    "manager", a spelling that differs from the "manajer" role the tokens carry. */
module MonitoringRoutes {
  import opened Common
  import opened Text
  import opened Http
  import opened Records

  predicate IsAdmin(role: Option<string>)
  {
    EqualsIgnoreCaseOpt("admin", role)
  }

  predicate IsManager(role: Option<string>)
  {
    EqualsIgnoreCaseOpt("manager", role)
  }

  /** A new reading the handler accepts: a plot id, a strictly positive temperature
      and humidity, and a date. */
  predicate AcceptableNew(m: Monitoring)
  {
    m.idLahan > 0 && m.suhu > 0.0 && m.kelembaban > 0.0 && m.tanggal.Some?
  }

  /** POST: manager only; any exception, including an unreadable body, is a 500. */
  function Create(role: Option<string>, body: Json<Monitoring>, add: Monitoring -> bool): (r: Handled<Monitoring>)
    ensures !IsManager(role) ==> r == Handled(Reply(403, Forbidden), None)
    ensures IsManager(role) && !body.Parsed? ==> r == Handled(Reply(500, InternalError), None)
    ensures r.record.Some? <==> IsManager(role) && body.Parsed? && AcceptableNew(body.value)
    ensures IsManager(role) && body.Parsed? && !AcceptableNew(body.value) ==>
              r.reply == Reply(400, Invalid(MonitoringFields))
    ensures r.record.Some? ==>
              r.record.value == body.value &&
              (if add(body.value) then r.reply == Reply(201, Done) else r.reply == Reply(500, StoreFailed))
  {
    if !IsManager(role) then Handled(Reply(403, Forbidden), None)
    else if !body.Parsed? then Handled(Reply(500, InternalError), None)
    else
      var m := body.value;
      if m.idLahan <= 0 || m.suhu <= 0.0 || m.kelembaban <= 0.0 || m.tanggal.None? then
        Handled(Reply(400, Invalid(MonitoringFields)), None)
      else if add(m) then Handled(Reply(201, Done), Some(m))
      else Handled(Reply(500, StoreFailed), Some(m))
  }

  /** GET all: admin or manager; `all` is the store's answer, `None` when it threw. */
  function ListAll(role: Option<string>, all: Option<seq<Monitoring>>): (r: Handled<seq<Monitoring>>)
    ensures !IsAdmin(role) && !IsManager(role) ==> r == Handled(Reply(403, Forbidden), None)
    ensures (IsAdmin(role) || IsManager(role)) ==>
              (r.reply.status == 200 <==> all.Some?) && r.record == all
    ensures (IsAdmin(role) || IsManager(role)) && all.None? ==> r.reply == Reply(500, InternalError)
  {
    if !IsAdmin(role) && !IsManager(role) then Handled(Reply(403, Forbidden), None)
    else if all.None? then Handled(Reply(500, InternalError), None)
    else Handled(Reply(200, Found), all)
  }

  /** GET by id: admin or manager, then the shared lookup (400 for a non-numeric id). */
  function Get(role: Option<string>, idText: string, lookup: int -> Option<Monitoring>): (r: Handled<Monitoring>)
    ensures !IsAdmin(role) && !IsManager(role) ==> r == Handled(Reply(403, Forbidden), None)
    ensures (IsAdmin(role) || IsManager(role)) ==> r == GetById(idText, lookup)
  {
    if !IsAdmin(role) && !IsManager(role) then Handled(Reply(403, Forbidden), None)
    else GetById(idText, lookup)
  }

  /** PUT: admin or manager. The path id replaces whatever id the body carried; only
      negative readings are refused (zero passes, unlike on creation). A non-numeric id
      falls into the catch-all handler and is a 500. */
  function Update(role: Option<string>, idText: string, body: Json<Monitoring>,
                  update: Monitoring -> bool): (r: Handled<Monitoring>)
    ensures !IsAdmin(role) && !IsManager(role) ==> r == Handled(Reply(403, Forbidden), None)
    ensures (IsAdmin(role) || IsManager(role)) && (ParseJavaInt(idText).None? || !body.Parsed?) ==>
              r == Handled(Reply(500, InternalError), None)
    ensures r.record.Some? <==>
              (IsAdmin(role) || IsManager(role)) && ParseJavaInt(idText).Some? && body.Parsed? &&
              body.value.suhu >= 0.0 && body.value.kelembaban >= 0.0
    ensures r.record.Some? ==>
              r.record.value == body.value.(idMonitor := ParseJavaInt(idText).value) &&
              (if update(r.record.value) then r.reply == Reply(200, Done) else r.reply == Reply(404, NotFound))
    ensures r.reply.status == 400 ==> r.reply == Reply(400, Invalid(MonitoringFields))
    ensures (IsAdmin(role) || IsManager(role)) && ParseJavaInt(idText).Some? && body.Parsed? &&
            (body.value.suhu < 0.0 || body.value.kelembaban < 0.0) ==>
              r == Handled(Reply(400, Invalid(MonitoringFields)), None)
  {
    if !IsAdmin(role) && !IsManager(role) then Handled(Reply(403, Forbidden), None)
    else match ParseJavaInt(idText)
      case None => Handled(Reply(500, InternalError), None)
      case Some(id) =>
        if !body.Parsed? then Handled(Reply(500, InternalError), None)
        else
          var m := body.value.(idMonitor := id);
          if m.suhu < 0.0 || m.kelembaban < 0.0 then Handled(Reply(400, Invalid(MonitoringFields)), None)
          else if update(m) then Handled(Reply(200, Done), Some(m))
          else Handled(Reply(404, NotFound), Some(m))
  }

  /** DELETE: manager only; a non-numeric id is a 500 here as well. */
  function Delete(role: Option<string>, idText: string, delete: int -> bool): (r: Reply)
    ensures !IsManager(role) ==> r == Reply(403, Forbidden)
    ensures IsManager(role) ==> r == DeleteById(idText, delete, Reply(500, InternalError))
  {
    if !IsManager(role) then Reply(403, Forbidden)
    else DeleteById(idText, delete, Reply(500, InternalError))
  }

  /** The "manajer" spelling used by every other part of the system is refused by the
      manager-only monitoring routes, whatever the request carries. */
  lemma ManajerSpellingRefused(body: Json<Monitoring>, add: Monitoring -> bool, idText: string, delete: int -> bool)
    ensures Create(Some("manajer"), body, add) == Handled(Reply(403, Forbidden), None)
    ensures Delete(Some("manajer"), idText, delete) == Reply(403, Forbidden)
  {
    assert ToLower("manager")[3] == 'a' && ToLower("manajer")[3] == 'a';
    assert ToLower("manager")[4] == LowerChar('g') == 'g';
    assert ToLower("manajer")[4] == LowerChar('j') == 'j';
  }

  /** Any casing of "manager" is accepted. */
  lemma ManagerIgnoresCase(role: string, body: Json<Monitoring>, add: Monitoring -> bool)
    requires ToLower(role) == "manager"
    requires body.Parsed? && AcceptableNew(body.value)
    ensures Create(Some(role), body, add).record == Some(body.value)
  {
    LowerWithoutCapitals("manager");
  }

  /** A reading refused on creation can still be written by an update when its
      temperature or humidity is exactly zero. */
  lemma ZeroReadingOnlyByUpdate(m: Monitoring, idText: string, add: Monitoring -> bool, update: Monitoring -> bool)
    requires m.suhu == 0.0 && m.kelembaban >= 0.0
    requires ParseJavaInt(idText).Some?
    ensures Create(Some("manager"), Parsed(m), add).reply == Reply(400, Invalid(MonitoringFields))
    ensures Update(Some("manager"), idText, Parsed(m), update).record.Some?
  {
    assert IsManager(Some("manager"));
  }
}

=== FILE: monthly_sales.dfy ===
/** The monthly sales chart: twelve month buckets filled either from raw purchases or
    from rows already aggregated per month, and the year's total. The month of a
    purchase date is an input (JavaScript's `getMonth()`, 0 for January). */
module MonthlySales {
  import opened Common

  /** A purchase as the chart reads it: the month of its date (`None` when it has no
      date or the date does not parse) and its two optional amounts. */
  datatype Purchase = Purchase(month: Option<int>, totalHarga: Option<real>, jumlah: Option<real>)

  /** The `month` key of a row as JavaScript sees it: missing (`undefined`), `null`,
      or a number. */
  datatype MonthField = Absent | Null | Month(number: int)

  /** An input row: either an aggregated `{month, total}` (month counted from 1) or a
      raw purchase, told apart by whether `month` is `undefined`. */
  datatype Row = Row(month: MonthField, total: Option<real>, sale: Purchase)

  /** The chart's data source: `computeFromProp` receives anything, not only an array. */
  datatype Source = NotAnArray | Rows(rows: seq<Row>)

  const MONTHS: nat := 12

  /** `p.total_harga ?? p.jumlah ?? 0`: a total of zero is kept, not skipped. */
  function Amount(p: Purchase): real
  {
    p.totalHarga.GetOr(p.jumlah.GetOr(0.0))
  }

  /** What a purchase adds to bucket `m`. */
  function AddsTo(p: Purchase, m: int): real
  {
    if p.month == Some(m) then Amount(p) else 0.0
  }

  /** The purchases' total for month `m`: the reference the chart must match. */
  function MonthTotal(ps: seq<Purchase>, m: int): real
  {
    if |ps| == 0 then 0.0 else MonthTotal(ps[..|ps| - 1], m) + AddsTo(ps[|ps| - 1], m)
  }

  /** What a purchase adds to the year: its amount when its month is a real month. */
  function YearShare(p: Purchase): real
  {
    if p.month.Some? && 0 <= p.month.value < 12 then Amount(p) else 0.0
  }

  function YearTotal(ps: seq<Purchase>): real
  {
    if |ps| == 0 then 0.0 else YearTotal(ps[..|ps| - 1]) + YearShare(ps[|ps| - 1])
  }

  /** `computeMonthlyFromPurchases`: twelve buckets, each the total of its month; the
      buckets together hold every dated purchase and nothing else. */
  method MonthlyFromPurchases(ps: seq<Purchase>) returns (totals: seq<real>)
    ensures |totals| == MONTHS
    ensures forall m :: 0 <= m < 12 ==> totals[m] == MonthTotal(ps, m)
    ensures Sum(totals) == YearTotal(ps)
  {
    totals := seq(12, _ => 0.0);
    ZerosSum(12);
    var i := 0;
    while i < |ps|
      invariant 0 <= i <= |ps| && |totals| == 12
      invariant forall m :: 0 <= m < 12 ==> totals[m] == MonthTotal(ps[..i], m)
      invariant Sum(totals) == YearTotal(ps[..i])
    {
      var p := ps[i];
      assert ps[..i + 1][..i] == ps[..i];
      if p.month.Some? && 0 <= p.month.value <= 11 {
        var k := p.month.value;
        SumUpdate(totals, k, totals[k] + Amount(p));
        totals := totals[k := totals[k] + Amount(p)];
      }
      i := i + 1;
    }
    assert ps[..|ps|] == ps;
  }

  /** Twelve (or any number of) zeros add up to zero. */
  lemma {:induction false} ZerosSum(n: nat)
    ensures Sum(seq(n, _ => 0.0)) == 0.0
  {
    if n > 0 {
      assert seq(n, _ => 0.0)[1..] == seq(n - 1, _ => 0.0);
      ZerosSum(n - 1);
    }
  }

  /** The last aggregated total given for month `month` (counted from 1), if any. */
  function LastTotal(rows: seq<Row>, month: int): Option<real>
  {
    if |rows| == 0 then None
    else if rows[|rows| - 1].month == Month(month) then Some(rows[|rows| - 1].total.GetOr(0.0))
    else LastTotal(rows[..|rows| - 1], month)
  }

  /** The aggregated form: bucket `m` takes `total ?? 0` of the last row whose month is
      `m + 1`; rows for other months (0, 13, ...) are ignored, and so are rows whose
      month is `null` or missing, which `Number` turns into 0 and `NaN`. */
  method MonthlyFromAggregates(rows: seq<Row>) returns (totals: seq<real>)
    ensures |totals| == MONTHS
    ensures forall m :: 0 <= m < 12 ==> totals[m] == LastTotal(rows, m + 1).GetOr(0.0)
  {
    totals := seq(12, _ => 0.0);
    var i := 0;
    while i < |rows|
      invariant 0 <= i <= |rows| && |totals| == 12
      invariant forall m :: 0 <= m < 12 ==> totals[m] == LastTotal(rows[..i], m + 1).GetOr(0.0)
    {
      var r := rows[i];
      assert rows[..i + 1][..i] == rows[..i];
      if r.month.Month? && 0 <= r.month.number - 1 < 12 {
        totals := totals[r.month.number - 1 := r.total.GetOr(0.0)];
      }
      i := i + 1;
    }
    assert rows[..|rows|] == rows;
  }

  /** The purchases carried by raw rows. */
  function Sales(rows: seq<Row>): (ps: seq<Purchase>)
    ensures |ps| == |rows| && forall i :: 0 <= i < |rows| ==> ps[i] == rows[i].sale
  {
    seq(|rows|, i requires 0 <= i < |rows| => rows[i].sale)
  }

  /** The rows are read as aggregates exactly when there is a first row and its month
      is not `undefined`: a `null` month counts as present. */
  predicate Aggregated(rows: seq<Row>)
  {
    |rows| > 0 && !rows[0].month.Absent?
  }

  /** `computeFromProp`: twelve zeros for a non-array, the aggregated reading when the
      first row's month is not `undefined`, the raw reading otherwise. */
  method MonthlyFromSource(src: Source) returns (totals: seq<real>)
    ensures |totals| == MONTHS
    ensures src.NotAnArray? ==> totals == seq(12, _ => 0.0)
    ensures src.Rows? && Aggregated(src.rows) ==>
              forall m :: 0 <= m < 12 ==> totals[m] == LastTotal(src.rows, m + 1).GetOr(0.0)
    ensures src.Rows? && !Aggregated(src.rows) ==>
              (forall m :: 0 <= m < 12 ==> totals[m] == MonthTotal(Sales(src.rows), m)) &&
              Sum(totals) == YearTotal(Sales(src.rows))
  {
    match src
    case NotAnArray =>
      totals := seq(12, _ => 0.0);
    case Rows(rows) =>
      if Aggregated(rows) {
        totals := MonthlyFromAggregates(rows);
      } else {
        totals := MonthlyFromPurchases(Sales(rows));
      }
  }

  /** The fallback is for a missing total only: a total of zero hides the quantity. */
  lemma ZeroTotalIsKept(month: Option<int>, jumlah: real)
    ensures Amount(Purchase(month, Some(0.0), Some(jumlah))) == 0.0
    ensures Amount(Purchase(month, None, Some(jumlah))) == jumlah
  {
  }

  /** A later aggregated row for the same month replaces the earlier one. */
  lemma LaterRowWins(rows: seq<Row>, r: Row)
    requires r.month.Month?
    ensures LastTotal(rows + [r], r.month.number) == Some(r.total.GetOr(0.0))
  {
    assert (rows + [r])[|rows + [r]| - 1] == r;
  }

  /** A row for a month outside 1..12, or with no number for its month, changes no bucket. */
  lemma OutOfRangeMonthIgnored(rows: seq<Row>, r: Row, m: int)
    requires !(r.month.Month? && 1 <= r.month.number <= 12)
    requires 0 <= m < 12
    ensures LastTotal(rows + [r], m + 1) == LastTotal(rows, m + 1)
  {
    assert (rows + [r])[..|rows|] == rows;
  }

  /** A first row whose month is `null` sends the rows down the aggregated path, where
      that row fills no bucket: a lone purchase carrying `month: null` charts nothing,
      whatever its date. */
  lemma NullMonthChartsNothing(r: Row, m: int)
    requires r.month.Null?
    requires 0 <= m < 12
    ensures Aggregated([r])
    ensures LastTotal([r], m + 1).None?
  {
  }

  /** A purchase with no usable date adds to no month and not to the year. */
  lemma UndatedPurchaseIgnored(ps: seq<Purchase>, p: Purchase, m: int)
    requires p.month.None?
    ensures MonthTotal(ps + [p], m) == MonthTotal(ps, m)
    ensures YearTotal(ps + [p]) == YearTotal(ps)
  {
    assert (ps + [p])[..|ps|] == ps;
  }
}

=== FILE: pembelian_routes.dfy ===
/** The manager's purchase routes under `/api/manager/pembelian`. */
module PembelianRoutes {
  import opened Common
  import opened Text
  import opened Http
  import opened Records

  /** The one check of a purchase update: positive amount and total. */
  function PurchaseUpdateGuards(p: Pembelian): (gs: seq<Guard>)
    ensures Passes(gs) <==> p.jumlah > 0.0 && p.totalHarga > 0.0
  {
    [Guard(PembelianFields, p.jumlah > 0.0 && p.totalHarga > 0.0)]
  }

  /** PUT /:id. */
  function UpdatePurchase(idText: string, body: Json<Pembelian>, update: Pembelian -> bool): (r: Handled<Pembelian>)
    ensures ParseJavaInt(idText).None? ==> r == Handled(Reply(400, NonNumericId), None)
    ensures ParseJavaInt(idText).Some? && body.Malformed? ==> r == Handled(Reply(400, MalformedJson), None)
    ensures ParseJavaInt(idText).Some? && body.Null? ==> r == Handled(Reply(500, InternalError), None)
    ensures r.record.Some? <==>
              ParseJavaInt(idText).Some? && body.Parsed? && body.value.jumlah > 0.0 && body.value.totalHarga > 0.0
    ensures r.record.Some? ==>
              r.record.value == body.value.(idPembelian := ParseJavaInt(idText).value) &&
              r.reply == (if update(r.record.value) then Reply(200, Done) else Reply(404, NotFound))
    ensures ParseJavaInt(idText).Some? && body.Parsed? && !(body.value.jumlah > 0.0 && body.value.totalHarga > 0.0) ==>
              r == Handled(Reply(400, Invalid(PembelianFields)), None)
  {
    UpdateById(idText, body, (p: Pembelian, id: int) => p.(idPembelian := id), PurchaseUpdateGuards, update)
  }
}

=== FILE: rate_limiter.dfy ===
/** The login rate limiter: a fixed one-minute window per client IP, at most five
    login attempts per window. The clock is a parameter (`now`, in milliseconds). */
module RateLimiter {
  import opened Common
  import opened Http

  const MAX_REQUESTS: int := 5
  const TIME_WINDOW_MS: int := 60000
  const LOGIN_PATH: string := "/api/user/login"
  const TOO_MANY: string := "Too many requests. Try again later."

  /** Attempts counted in the window that opened at `startTime`. */
  datatype Window = Window(count: int, startTime: int)

  /** The per-IP table. */
  type Table = map<string, Window>

  /** The filter's decision and the table after it. */
  datatype Step = Step(decision: Decision, table: Table)

  /** Every counter lies between 0 and the limit. */
  predicate Bounded(t: Table)
  {
    forall ip :: ip in t ==> 0 <= t[ip].count <= MAX_REQUESTS
  }

  /** The window an attempt at `now` is counted in: a fresh one for an unseen IP,
      a reset one when the stored window is more than a minute old, else the stored one. */
  function Current(t: Table, ip: string, now: int): (w: Window)
    ensures ip !in t ==> w == Window(0, now)
    ensures ip in t && now - t[ip].startTime > TIME_WINDOW_MS ==> w == Window(0, now)
    ensures ip in t && now - t[ip].startTime <= TIME_WINDOW_MS ==> w == t[ip]
  {
    var stored := if ip in t then t[ip] else Window(0, now);
    if now - stored.startTime > TIME_WINDOW_MS then Window(0, now) else stored
  }

  /** One login attempt from `ip` at `now`. */
  function Admit(t: Table, ip: string, now: int): (r: Step)
    ensures r.decision == Allow || r.decision == Halt(429, TOO_MANY)
    ensures r.decision.Halt? <==>
              ip in t && now - t[ip].startTime <= TIME_WINDOW_MS && t[ip].count >= MAX_REQUESTS
    ensures r.decision.Halt? ==> r.table == t
    ensures r.decision == Allow ==>
              r.table == t[ip := Window(Current(t, ip, now).count + 1, Current(t, ip, now).startTime)]
    ensures r.table.Keys == t.Keys + {ip}
    ensures forall other :: other in t && other != ip ==> r.table[other] == t[other]
  {
    var w := Current(t, ip, now);
    if w.count >= MAX_REQUESTS then Step(Halt(429, TOO_MANY), t[ip := w])
    else Step(Allow, t[ip := Window(w.count + 1, w.startTime)])
  }

  /** The filter is registered for the login path only; other requests pass untouched. */
  function Filter(t: Table, path: string, ip: string, now: int): (r: Step)
    ensures path != LOGIN_PATH ==> r == Step(Allow, t)
    ensures path == LOGIN_PATH ==> r == Admit(t, ip, now)
  {
    if path == LOGIN_PATH then Admit(t, ip, now) else Step(Allow, t)
  }

  /** Counters never leave [0, 5]. */
  lemma AdmitKeepsBounded(t: Table, ip: string, now: int)
    requires Bounded(t)
    ensures Bounded(Admit(t, ip, now).table)
  {
  }

  /** A window older than a minute is forgotten: the attempt is allowed and opens a new window. */
  lemma StaleWindowResets(t: Table, ip: string, now: int)
    requires ip in t && now - t[ip].startTime > TIME_WINDOW_MS
    ensures Admit(t, ip, now) == Step(Allow, t[ip := Window(1, now)])
  {
  }

  /** Attempts from one IP at the given times, in order: the decisions and the final table. */
  function Run(t: Table, ip: string, times: seq<int>): (r: (seq<Decision>, Table))
    ensures |r.0| == |times|
    ensures ip in t ==> ip in r.1
    decreases |times|
  {
    if |times| == 0 then ([], t)
    else
      var s := Admit(t, ip, times[0]);
      var rest := Run(s.table, ip, times[1..]);
      ([s.decision] + rest.0, rest.1)
  }

  /** Within one window, an IP that has used `used` attempts gets exactly
      `MAX_REQUESTS - used` more; the rest are refused with 429. */
  lemma {:induction false} RunWithinWindow(t: Table, ip: string, times: seq<int>, used: nat)
    requires ip in t && t[ip].count == used <= MAX_REQUESTS
    requires forall i :: 0 <= i < |times| ==> times[i] - t[ip].startTime <= TIME_WINDOW_MS
    ensures forall i :: 0 <= i < |times| ==>
              (Run(t, ip, times).0[i] == Allow <==> used + i < MAX_REQUESTS)
    ensures forall i :: 0 <= i < |times| ==>
              (Run(t, ip, times).0[i] != Allow ==> Run(t, ip, times).0[i] == Halt(429, TOO_MANY))
    ensures Run(t, ip, times).1[ip] ==
              Window(if used + |times| < MAX_REQUESTS then used + |times| else MAX_REQUESTS, t[ip].startTime)
    decreases |times|
  {
    if |times| > 0 {
      var s := Admit(t, ip, times[0]);
      var next: nat := if used < MAX_REQUESTS then used + 1 else used;
      assert s.table[ip] == Window(next, t[ip].startTime);
      RunWithinWindow(s.table, ip, times[1..], next);
      var d := Run(t, ip, times).0;
      assert d == [s.decision] + Run(s.table, ip, times[1..]).0;
      forall i | 0 <= i < |times|
        ensures d[i] == Allow <==> used + i < MAX_REQUESTS
        ensures d[i] != Allow ==> d[i] == Halt(429, TOO_MANY)
      {
        if i > 0 {
          assert d[i] == Run(s.table, ip, times[1..]).0[i - 1];
          assert times[1..][i - 1] == times[i];
        }
      }
    }
  }

  /** A new IP gets its first five login attempts within a minute, and every later one
      in that minute is refused. */
  lemma {:induction false} FivePerMinute(t: Table, ip: string, times: seq<int>)
    requires ip !in t && |times| > 0
    requires forall i :: 0 <= i < |times| ==> times[0] <= times[i] <= times[0] + TIME_WINDOW_MS
    ensures forall i :: 0 <= i < |times| ==> (Run(t, ip, times).0[i] == Allow <==> i < MAX_REQUESTS)
  {
    var s := Admit(t, ip, times[0]);
    assert s == Step(Allow, t[ip := Window(1, times[0])]);
    forall i | 0 <= i < |times[1..]| ensures times[1..][i] - s.table[ip].startTime <= TIME_WINDOW_MS {
      assert times[1..][i] == times[i + 1];
    }
    RunWithinWindow(s.table, ip, times[1..], 1);
    var d := Run(t, ip, times).0;
    assert d == [s.decision] + Run(s.table, ip, times[1..]).0;
    forall i | 0 <= i < |times| ensures d[i] == Allow <==> i < MAX_REQUESTS {
      if i > 0 {
        assert d[i] == Run(s.table, ip, times[1..]).0[i - 1];
      }
    }
  }
}

=== FILE: records.dfy ===
/** The backend's entity records as Gson fills them from a request body:
    a missing number reads as 0, a missing string or date as `None`.
    Dates are kept as their text; Java `double` fields are modelled as `real`. */
module Records {
  import opened Common

  datatype User = User(idUser: int, username: Option<string>, password: Option<string>,
                       role: Option<string>, nama: Option<string>)

  datatype Lahan = Lahan(idLahan: int, namaLahan: Option<string>, luas: real,
                         lokasi: Option<string>, idPengawas: int)

  datatype Tanaman = Tanaman(idTanaman: int, namaTanaman: Option<string>, jenis: Option<string>,
                             waktuTanam: Option<string>, jumlahTanaman: int)

  /** A planting of a crop on a plot. The controller reads `idPengawas` although the
      record class shown declares no such field. */
  datatype TanamanLahan = TanamanLahan(idTl: int, idLahan: int, idTanaman: int,
                                       tanggalTanam: Option<string>, status: Option<string>,
                                       idPengawas: int)

  datatype HasilPanen = HasilPanen(idHasil: int, idTanaman: int, idLahan: int, idPengawas: int,
                                   tanggalPanen: Option<string>, kuantitas: real,
                                   kualitas: Option<string>, hargaSatuan: real,
                                   status: Option<string>)

  datatype Monitoring = Monitoring(idMonitor: int, idLahan: int, suhu: real, kelembaban: real,
                                   tanggal: Option<string>)

  datatype Pembelian = Pembelian(idPembelian: int, idPembeli: int, idHasil: int,
                                 tanggal: Option<string>, jumlah: real, totalHarga: real)
}

=== FILE: tanaman_lahan_page.dfy ===
/** The plantings page: the signed-in manager's plantings filtered by a search box,
    the status chart, the plot and crop names shown in the table, and the payload a new
    planting is submitted with. */
module TanamanLahanPage {
  import opened Common
  import opened Text
  import opened Ui
  import ManagerRoutes

  /** A planting as the page holds it; `tanggalText` is the planting date as the browser
      displays it, absent when the planting has no date. `jumlahTanaman` is absent when
      the row has no such key, as in every row of the manager's planting listing, whose
      record carries no count. */
  datatype Planting = Planting(idTl: int, idLahan: int, idTanaman: int, idPengawas: int,
                               jumlahTanaman: Option<int>, status: Option<string>, tanggalText: Option<string>)

  /** `String(tl.jumlah_tanaman)`: the count's digits, or "undefined" for a missing key. */
  function CountText(count: Option<int>): (r: string)
    ensures count.None? ==> r == "undefined"
    ensures count.Some? ==> JsParseInt(r) == count
  {
    match count
    case None => "undefined"
    case Some(n) => JsParseIntRoundTrip(n); IntToString(n)
  }

  function OwnerFilter(user: Option<int>): Planting -> bool
  {
    (tl: Planting) => OwnedBy(user, tl.idPengawas)
  }

  /** The search predicate of one row for a non-empty lower-cased query `q`. Reading the
      status of a planting without one throws (`None`) unless an earlier field matched. */
  function Match(tl: Planting, q: string, lahans: seq<Named>, tanamans: seq<Named>): (r: Option<bool>)
    ensures r.None? <==>
              tl.status.None? &&
              !Contains(IntToString(tl.idTl), q) &&
              !Contains(ToLower(NameOrId(lahans, tl.idLahan)), q) &&
              !Contains(ToLower(NameOrId(tanamans, tl.idTanaman)), q) &&
              !Contains(CountText(tl.jumlahTanaman), q)
  {
    if Contains(IntToString(tl.idTl), q) || Contains(ToLower(NameOrId(lahans, tl.idLahan)), q) ||
       Contains(ToLower(NameOrId(tanamans, tl.idTanaman)), q) || Contains(CountText(tl.jumlahTanaman), q)
    then Some(true)
    else if tl.status.None? then None
    else Some(Contains(ToLower(tl.status.value), q) || (tl.tanggalText.Some? && Contains(tl.tanggalText.value, q)))
  }

  /** `rows.filter(match)` where `match` may throw: the kept rows, or `None` when some row throws. */
  function SearchRows(rows: seq<Planting>, q: string, lahans: seq<Named>, tanamans: seq<Named>): (r: Option<seq<Planting>>)
    ensures r.None? <==> exists i :: 0 <= i < |rows| && Match(rows[i], q, lahans, tanamans).None?
    ensures r.Some? ==> IsSubsequence(r.value, rows)
    ensures r.Some? ==> forall i :: 0 <= i < |r.value| ==> Match(r.value[i], q, lahans, tanamans) == Some(true)
    ensures r.Some? ==> forall i :: 0 <= i < |rows| && Match(rows[i], q, lahans, tanamans) == Some(true) ==> rows[i] in r.value
  {
    if |rows| == 0 then Some([])
    else
      var rest := SearchRows(rows[1..], q, lahans, tanamans);
      assert forall i :: 1 <= i < |rows| ==> rows[i] == rows[1..][i - 1];
      match Match(rows[0], q, lahans, tanamans)
      case None => None
      case Some(keep) =>
        if rest.None? then None
        else if keep then
          assert IsSubsequence(rest.value, rows[1..]);
          Some([rows[0]] + rest.value)
        else
          SubsequenceOfTail(rest.value, rows);
          Some(rest.value)
  }

  /** `filteredTanamanLahan`: the user's plantings, then the search; `None` when the
      search throws. */
  function Visible(tanamanLahan: seq<Planting>, user: Option<int>, query: string,
                   lahans: seq<Named>, tanamans: seq<Named>): (r: Option<seq<Planting>>)
    ensures user.None? ==> r == Some([])
    ensures query == "" ==> r == Some(Filter(tanamanLahan, OwnerFilter(user)))
    ensures r.Some? ==> IsSubsequence(r.value, tanamanLahan)
    ensures r.Some? ==> forall i :: 0 <= i < |r.value| ==> OwnedBy(user, r.value[i].idPengawas)
    ensures query != "" && r.Some? ==>
              forall i :: 0 <= i < |r.value| ==> Match(r.value[i], ToLower(query), lahans, tanamans) == Some(true)
    ensures query != "" && r.Some? ==>
              forall i | 0 <= i < |tanamanLahan| && OwnedBy(user, tanamanLahan[i].idPengawas) &&
                         Match(tanamanLahan[i], ToLower(query), lahans, tanamans) == Some(true) :: tanamanLahan[i] in r.value
    ensures r.None? <==>
              user.Some? && query != "" &&
              exists i :: 0 <= i < |tanamanLahan| && OwnedBy(user, tanamanLahan[i].idPengawas) &&
                          Match(tanamanLahan[i], ToLower(query), lahans, tanamans).None?
    ensures user.Some? && query != "" ==>
              r == SearchRows(Filter(tanamanLahan, OwnerFilter(user)), ToLower(query), lahans, tanamans)
  {
    var owned := Filter(tanamanLahan, OwnerFilter(user));
    FilterIsOrderPreserving(tanamanLahan, OwnerFilter(user));
    if user.None? then
      NoneOwned(tanamanLahan, user);
      Some(owned)
    else if query == "" then Some(owned)
    else
      var r := SearchRows(owned, ToLower(query), lahans, tanamans);
      assert forall i :: 0 <= i < |tanamanLahan| && OwnedBy(user, tanamanLahan[i].idPengawas) ==> tanamanLahan[i] in owned by {
        forall i | 0 <= i < |tanamanLahan| && OwnedBy(user, tanamanLahan[i].idPengawas) ensures tanamanLahan[i] in owned {
          assert OwnerFilter(user)(tanamanLahan[i]);
        }
      }
      if r.Some? then
        SubsequenceTransitive(r.value, owned, tanamanLahan);
        assert forall i :: 0 <= i < |r.value| ==> r.value[i] in owned by {
          SubsequenceMembers(r.value, owned);
        }
        r
      else r
  }

  lemma {:induction false} NoneOwned(rows: seq<Planting>, user: Option<int>)
    requires user.None?
    ensures Filter(rows, OwnerFilter(user)) == []
  {
    if |rows| > 0 {
      NoneOwned(rows[1..], user);
    }
  }

  lemma {:induction false} SubsequenceMembers<T>(a: seq<T>, b: seq<T>)
    requires IsSubsequence(a, b)
    ensures forall x :: x in a ==> x in b
    decreases |b|
  {
    if |a| > 0 && |b| > 0 {
      if a[0] == b[0] {
        SubsequenceMembers(a[1..], b[1..]);
        assert forall x :: x in a ==> x == a[0] || x in a[1..];
      } else {
        SubsequenceMembers(a, b[1..]);
      }
    }
  }

  lemma {:induction false} SubsequenceTransitive<T>(a: seq<T>, b: seq<T>, c: seq<T>)
    requires IsSubsequence(a, b) && IsSubsequence(b, c)
    ensures IsSubsequence(a, c)
    decreases |c|
  {
    if |a| > 0 && |c| > 0 {
      assert |b| > 0;
      if b[0] == c[0] {
        if a[0] == b[0] {
          SubsequenceTransitive(a[1..], b[1..], c[1..]);
        } else {
          SubsequenceTransitive(a, b[1..], c[1..]);
          SubsequenceOfTail(a, c);
        }
      } else {
        SubsequenceTransitive(a, b, c[1..]);
        SubsequenceOfTail(a, c);
      }
    }
  }

  /** Plantings that all carry a status can always be searched. */
  /** A row without a count renders it as "undefined", so a query found in that word
      matches the row before its status is read, and the row never throws. */
  lemma MissingCountMatchesUndefined(tl: Planting, q: string, lahans: seq<Named>, tanamans: seq<Named>)
    requires tl.jumlahTanaman.None? && Contains("undefined", q)
    ensures Match(tl, q, lahans, tanamans) == Some(true)
  {
  }

  lemma {:induction false} StatusesPresentNeverThrow(rows: seq<Planting>, q: string, lahans: seq<Named>, tanamans: seq<Named>)
    requires forall i :: 0 <= i < |rows| ==> rows[i].status.Some?
    ensures SearchRows(rows, q, lahans, tanamans).Some?
  {
  }

  // ---------------------------------------------------------------- chart

  const PALETTE: seq<string> := ["#22c55e", "#f97316", "#0ea5e9", "#f43f5e", "#a855f7", "#06b6d4", "#eab308", "#64748b"]

  /** `tl.status || "unknown"`: a missing or empty status is charted as "unknown". */
  function StatusKey(tl: Planting): string
  {
    if tl.status.None? || tl.status.value == "" then "unknown" else tl.status.value
  }

  /** `getChartData`: one bar per distinct status with its count, and a colour for
      each of the first eight bars. */
  function StatusChart(tanamanLahan: seq<Planting>): (r: (Groups, seq<string>))
    ensures |r.0.labels| == |r.0.totals| && Distinct(r.0.labels)
    ensures forall tl :: tl in tanamanLahan ==> StatusKey(tl) in r.0.labels
    ensures forall l :: l in r.0.labels ==> exists tl :: tl in tanamanLahan && StatusKey(tl) == l
    ensures forall tl :: tl in tanamanLahan && tl.status.None? ==> "unknown" in r.0.labels
    ensures forall i :: 0 <= i < |r.0.labels| ==> r.0.totals[i] == WeightOf(tanamanLahan, StatusKey, One, r.0.labels[i])
    ensures Sum(r.0.totals) == |tanamanLahan| as real
    ensures |r.1| == (if |r.0.labels| < 8 then |r.0.labels| else 8)
  {
    var g := Histogram(tanamanLahan, StatusKey);
    (g, Colors(PALETTE, g.labels))
  }

  // ---------------------------------------------------------------- submit

  /** The add form's fields, as typed. */
  datatype Form = Form(idLahan: string, idTanaman: string, idPengawas: string,
                       jumlahTanaman: string, tanggalTanam: string, status: string)

  /** The body posted for a new planting; `None` ids are `NaN`. */
  datatype Payload = Payload(idLahan: Option<int>, idTanaman: Option<int>, idPengawas: Option<int>,
                             jumlahTanaman: int, tanggalTanam: string, status: string)

  /** `handleSubmit`'s payload: ids through `parseInt`, a count that falls back to 0,
      date and status as typed. */
  function SubmitPayload(f: Form): (p: Payload)
    ensures p.idLahan == JsParseInt(f.idLahan) && p.idTanaman == JsParseInt(f.idTanaman)
    ensures p.idPengawas == JsParseInt(f.idPengawas)
    ensures JsParseInt(f.jumlahTanaman).None? ==> p.jumlahTanaman == 0
    ensures JsParseInt(f.jumlahTanaman).Some? ==> p.jumlahTanaman == JsParseInt(f.jumlahTanaman).value
    ensures p.tanggalTanam == f.tanggalTanam && p.status == f.status
  {
    Payload(JsParseInt(f.idLahan), JsParseInt(f.idTanaman), JsParseInt(f.idPengawas),
            JsParseIntOrZero(f.jumlahTanaman), f.tanggalTanam, f.status)
  }

  /** The form after a successful submit: empty, status "tumbuh", and the signed-in
      user's id as supervisor (empty without one). */
  function ResetForm(user: Option<int>): (f: Form)
    ensures f.status == ManagerRoutes.DEFAULT_PLANTING_STATUS
    ensures user.Some? && user.value != 0 ==> JsParseInt(f.idPengawas) == user
    ensures user.None? || user.value == 0 ==> f.idPengawas == ""
    ensures f.idLahan == "" && f.idTanaman == "" && f.jumlahTanaman == "" && f.tanggalTanam == ""
  {
    if user.Some? && user.value != 0 then
      JsParseIntRoundTrip(user.value);
      Form("", "", IntToString(user.value), "", "", "tumbuh")
    else Form("", "", "", "", "", "tumbuh")
  }

  /** The status the form starts from is one the planting route accepts. */
  lemma ResetStatusAccepted()
    ensures ToLower(ResetForm(None).status) in ManagerRoutes.PLANTING_STATUSES
  {
    assert ToLower("tumbuh") == "tumbuh";
  }
}

=== FILE: tanaman_lahan_routes.dfy ===
/** The planting routes under `/api/tanaman_lahan`. */
module TanamanLahanRoutes {
  import opened Common
  import opened Text
  import opened Http
  import opened Records

  /** The checks of a planting update, in order: a non-empty status (no trimming here),
      then a supervisor id. */
  function PlantingUpdateGuards(t: TanamanLahan): (gs: seq<Guard>)
    ensures Passes(gs) <==> !IsNullOrEmpty(t.status) && t.idPengawas > 0
    ensures IsNullOrEmpty(t.status) ==> FirstFailing(gs) == Some(Status)
    ensures !IsNullOrEmpty(t.status) && t.idPengawas <= 0 ==> FirstFailing(gs) == Some(IdPengawas)
  {
    var gs := [Guard(Status, !IsNullOrEmpty(t.status)), Guard(IdPengawas, t.idPengawas > 0)];
    assert gs[0].ok && gs[1].ok <==> !IsNullOrEmpty(t.status) && t.idPengawas > 0;
    gs
  }

  /** PUT /:id. */
  function UpdatePlanting(idText: string, body: Json<TanamanLahan>, update: TanamanLahan -> bool): (r: Handled<TanamanLahan>)
    ensures ParseJavaInt(idText).None? ==> r == Handled(Reply(400, NonNumericId), None)
    ensures ParseJavaInt(idText).Some? && body.Malformed? ==> r == Handled(Reply(400, MalformedJson), None)
    ensures ParseJavaInt(idText).Some? && body.Null? ==> r == Handled(Reply(500, InternalError), None)
    ensures r.record.Some? <==>
              ParseJavaInt(idText).Some? && body.Parsed? &&
              !IsNullOrEmpty(body.value.status) && body.value.idPengawas > 0
    ensures ParseJavaInt(idText).Some? && body.Parsed? && IsNullOrEmpty(body.value.status) ==>
              r == Handled(Reply(400, Invalid(Status)), None)
    ensures ParseJavaInt(idText).Some? && body.Parsed? && !IsNullOrEmpty(body.value.status) && body.value.idPengawas <= 0 ==>
              r == Handled(Reply(400, Invalid(IdPengawas)), None)
    ensures r.record.Some? ==>
              r.record.value == body.value.(idTl := ParseJavaInt(idText).value) &&
              r.reply == (if update(r.record.value) then Reply(200, Done) else Reply(404, NotFound))
  {
    UpdateById(idText, body, (t: TanamanLahan, id: int) => t.(idTl := id), PlantingUpdateGuards, update)
  }

  /** A status of blanks passes the update (only emptiness is checked), though
      creating a planting treats the same status as missing. */
  lemma BlankStatusPassesUpdate(idText: string, t: TanamanLahan, update: TanamanLahan -> bool)
    requires ParseJavaInt(idText).Some?
    requires t.status == Some(" ") && t.idPengawas > 0
    ensures UpdatePlanting(idText, Parsed(t), update).record.Some?
    ensures IsNullOrBlank(t.status)
  {
  }
}

=== FILE: tanaman_page.dfy ===
/** The crop page: the chart of crops per kind and the request its form sends. */
module TanamanPage {
  import opened Common
  import opened Ui

  datatype Crop = Crop(idTanaman: int, jenis: Option<string>)

  const PALETTE: seq<string> := ["#4CAF50", "#FF9800", "#2196F3", "#F44336", "#9C27B0", "#00BCD4", "#FFEB3B", "#795548"]

  const UNKNOWN_KIND: string := "Tidak Diketahui"

  /** `t.jenis || "Tidak Diketahui"`. */
  function JenisKey(t: Crop): string
  {
    if t.jenis.None? || t.jenis.value == "" then UNKNOWN_KIND else t.jenis.value
  }

  /** `getChartData`: one bar per distinct kind with the number of crops of that kind,
      and a colour for each of the first eight bars. */
  function JenisChart(tanaman: seq<Crop>): (r: (Groups, seq<string>))
    ensures |r.0.labels| == |r.0.totals| && Distinct(r.0.labels)
    ensures forall t :: t in tanaman ==> JenisKey(t) in r.0.labels
    ensures forall l :: l in r.0.labels ==> exists t :: t in tanaman && JenisKey(t) == l
    ensures forall t :: t in tanaman && t.jenis.None? ==> UNKNOWN_KIND in r.0.labels
    ensures forall i :: 0 <= i < |r.0.labels| ==> r.0.totals[i] == WeightOf(tanaman, JenisKey, One, r.0.labels[i])
    ensures Sum(r.0.totals) == |tanaman| as real
    ensures |r.1| == (if |r.0.labels| < 8 then |r.0.labels| else 8)
  {
    var g := Histogram(tanaman, JenisKey);
    (g, Colors(PALETTE, g.labels))
  }

  const ID_FIELD: string := "id_tanaman"

  /** `handleSubmit`: PUT `/tanaman/<id>` with every field but the id when editing,
      POST `/tanaman` with the whole form otherwise. */
  function Submit(form: map<string, string>, editing: bool): (r: Submission)
    requires editing ==> ID_FIELD in form
    ensures editing ==> r.verb == "PUT" && r.path == "/tanaman/" + form[ID_FIELD]
    ensures editing ==> ID_FIELD !in r.body &&
                        forall k :: k in form && k != ID_FIELD ==> k in r.body && r.body[k] == form[k]
    ensures !editing ==> r.verb == "POST" && r.path == "/tanaman" && r.body == form
  {
    EditOrCreate("/tanaman", ID_FIELD, form, editing)
  }

  /** The two requests carry the same fields apart from the id, which an edit sends
      only in the path. */
  lemma EditSendsCreateBodyWithoutId(form: map<string, string>)
    requires ID_FIELD in form
    ensures Submit(form, true).body == Submit(form, false).body - {ID_FIELD}
    ensures Submit(form, true).body + map[ID_FIELD := form[ID_FIELD]] == form
  {
    var put := Submit(form, true).body;
    assert put + map[ID_FIELD := form[ID_FIELD]] == form by {
      assert (put + map[ID_FIELD := form[ID_FIELD]]).Keys == form.Keys;
    }
  }
}

=== FILE: tanaman_routes.dfy ===
/** The crop routes under `/api/tanaman`. */
module TanamanRoutes {
  import opened Common
  import opened Text
  import opened Http
  import opened Records

  /** The one check on a crop: its name is present and non-empty (blanks pass). */
  function CropGuards(t: Tanaman): (gs: seq<Guard>)
    ensures Passes(gs) <==> !IsNullOrEmpty(t.namaTanaman)
  {
    [Guard(NamaTanaman, !IsNullOrEmpty(t.namaTanaman))]
  }

  /** POST: a blank raw body is refused first; a stored crop answers 201 and a refused
      insert 400. */
  function CreateCrop(raw: Option<string>, body: Json<Tanaman>, add: Tanaman -> bool): (r: Handled<Tanaman>)
    ensures IsNullOrBlank(raw) ==> r == Handled(Reply(400, EmptyBody), None)
    ensures !IsNullOrBlank(raw) && body.Malformed? ==> r == Handled(Reply(400, MalformedJson), None)
    ensures !IsNullOrBlank(raw) && body.Null? ==> r == Handled(Reply(500, InternalError), None)
    ensures r.record.Some? <==> !IsNullOrBlank(raw) && body.Parsed? && !IsNullOrEmpty(body.value.namaTanaman)
    ensures !IsNullOrBlank(raw) && body.Parsed? && IsNullOrEmpty(body.value.namaTanaman) ==>
              r == Handled(Reply(400, Invalid(NamaTanaman)), None)
    ensures r.record.Some? ==>
              r.record == Some(body.value) &&
              r.reply == (if add(body.value) then Reply(201, Done) else Reply(400, StoreFailed))
  {
    CreateNonBlank(raw, body, (t: Tanaman) => t, CropGuards, add, CREATED_POST)
  }

  /** PUT /:id. */
  function UpdateCrop(idText: string, body: Json<Tanaman>, update: Tanaman -> bool): (r: Handled<Tanaman>)
    ensures ParseJavaInt(idText).None? ==> r == Handled(Reply(400, NonNumericId), None)
    ensures ParseJavaInt(idText).Some? && body.Malformed? ==> r == Handled(Reply(400, MalformedJson), None)
    ensures ParseJavaInt(idText).Some? && body.Null? ==> r == Handled(Reply(500, InternalError), None)
    ensures r.record.Some? <==>
              ParseJavaInt(idText).Some? && body.Parsed? && !IsNullOrEmpty(body.value.namaTanaman)
    ensures ParseJavaInt(idText).Some? && body.Parsed? && IsNullOrEmpty(body.value.namaTanaman) ==>
              r == Handled(Reply(400, Invalid(NamaTanaman)), None)
    ensures r.record.Some? ==>
              r.record.value == body.value.(idTanaman := ParseJavaInt(idText).value) &&
              r.reply == (if update(r.record.value) then Reply(200, Done) else Reply(404, NotFound))
    ensures r.reply.status == 400 ==> r.record.None?
  {
    UpdateById(idText, body, (t: Tanaman, id: int) => t.(idTanaman := id), CropGuards, update)
  }

  /** A raw body of blanks is refused before Gson reads it, while a well-formed body
      whose name is blanks is stored. */
  lemma BlankBodyVersusBlankName(t: Tanaman, add: Tanaman -> bool)
    requires t.namaTanaman == Some("  ")
    ensures CreateCrop(Some("  "), Null, add) == Handled(Reply(400, EmptyBody), None)
    ensures CreateCrop(Some("{\"nama_tanaman\":\"  \"}"), Parsed(t), add).record == Some(t)
  {
    var raw := "{\"nama_tanaman\":\"  \"}";
    assert !IsBlank(raw) by { assert raw[0] > ' '; }
  }
}

=== FILE: text.dfy ===
/** String operations the source relies on, over `seq<char>`: ASCII case mapping
    (`toLowerCase`, `equalsIgnoreCase`), `startsWith`, `includes`, Java's
    `trim().isEmpty()`, decimal rendering of integers (`String(n)`, `"ID " + id`),
    Java's `Integer.parseInt` and `split(c)[0]`. */
module Text {
  import opened Common

  // ---------------------------------------------------------------- case mapping

  function LowerChar(c: char): char
  {
    if 'A' <= c <= 'Z' then (c as int + 32) as char else c
  }

  function UpperChar(c: char): char
  {
    if 'a' <= c <= 'z' then (c as int - 32) as char else c
  }

  /** `s.toLowerCase()`, restricted to the ASCII letters. */
  function ToLower(s: string): (r: string)
    ensures |r| == |s|
    ensures forall i :: 0 <= i < |s| ==> r[i] == LowerChar(s[i])
  {
    if |s| == 0 then "" else [LowerChar(s[0])] + ToLower(s[1..])
  }

  lemma {:induction false} ToLowerAppend(a: string, b: string)
    ensures ToLower(a + b) == ToLower(a) + ToLower(b)
  {
    if |a| == 0 {
      assert a + b == b;
    } else {
      assert (a + b)[1..] == a[1..] + b;
      ToLowerAppend(a[1..], b);
    }
  }

  /** A string without capital letters is its own lower case. */
  lemma LowerWithoutCapitals(s: string)
    requires forall i :: 0 <= i < |s| ==> !('A' <= s[i] <= 'Z')
    ensures ToLower(s) == s
  {
  }

  /** Lower-casing is idempotent. */
  lemma ToLowerIdempotent(s: string)
    ensures ToLower(ToLower(s)) == ToLower(s)
  {
  }

  /** Java's `a.equalsIgnoreCase(b)` (ASCII): equal length and equal after lower-casing. */
  predicate EqualsIgnoreCase(a: string, b: string)
  {
    ToLower(a) == ToLower(b)
  }

  /** Java's `"lit".equalsIgnoreCase(x)` where `x` may be `null`: false for `null`. */
  predicate EqualsIgnoreCaseOpt(lit: string, x: Option<string>)
  {
    x.Some? && EqualsIgnoreCase(lit, x.value)
  }

  // ---------------------------------------------------------------- search

  /** `s.startsWith(prefix)`. */
  predicate StartsWith(s: string, prefix: string)
  {
    |prefix| <= |s| && s[..|prefix|] == prefix
  }

  /** `s.includes(sub)`: `sub` occurs at some position of `s`. */
  predicate Contains(s: string, sub: string)
    decreases |s|
  {
    StartsWith(s, sub) || (|s| > 0 && Contains(s[1..], sub))
  }

  /** An occurrence of a longer needle is an occurrence of each of its prefixes. */
  lemma {:induction false} ContainsPrefixOfNeedle(s: string, a: string, b: string)
    requires Contains(s, a + b)
    ensures Contains(s, a)
    decreases |s|
  {
    if StartsWith(s, a + b) {
      assert s[..|a|] == (a + b)[..|a|] == a;
    } else {
      ContainsPrefixOfNeedle(s[1..], a, b);
    }
  }

  /** Every string contains the empty string. */
  lemma ContainsEmpty(s: string)
    ensures Contains(s, "")
  {
    assert StartsWith(s, "");
  }

  // ---------------------------------------------------------------- blanks

  /** Java's `s.trim().isEmpty()`: `trim` strips every character at or below U+0020. */
  predicate IsBlank(s: string)
  {
    forall i :: 0 <= i < |s| ==> s[i] <= ' '
  }

  /** `s == null || s.trim().isEmpty()`. */
  predicate IsNullOrBlank(s: Option<string>)
  {
    s.None? || IsBlank(s.value)
  }

  /** `s == null || s.isEmpty()` (no trimming). */
  predicate IsNullOrEmpty(s: Option<string>)
  {
    s.None? || |s.value| == 0
  }

  // ---------------------------------------------------------------- split

  /** `s.split(c)[0]`: the part of `s` before the first `c`, or all of `s`. */
  function BeforeFirst(s: string, c: char): (r: string)
    ensures |r| <= |s| && r == s[..|r|]
    ensures c !in r
    ensures |r| < |s| ==> s[|r|] == c
  {
    if |s| == 0 then ""
    else if s[0] == c then ""
    else [s[0]] + BeforeFirst(s[1..], c)
  }

  /** The text before a separator that does not occur in it is recovered exactly. */
  lemma {:induction false} BeforeFirstOfJoin(a: string, c: char, b: string)
    requires c !in a
    ensures BeforeFirst(a + [c] + b, c) == a
  {
    if |a| > 0 {
      assert (a + [c] + b)[1..] == a[1..] + [c] + b;
      BeforeFirstOfJoin(a[1..], c, b);
    }
  }

  // ---------------------------------------------------------------- decimal numbers

  predicate IsDigit(c: char)
  {
    '0' <= c <= '9'
  }

  function DigitChar(d: nat): char
    requires d < 10
  {
    ('0' as int + d) as char
  }

  function DigitValue(c: char): nat
    requires IsDigit(c)
  {
    c as int - '0' as int
  }

  /** The value of a string of decimal digits, most significant first. */
  function DigitsValue(s: string): nat
    requires forall i :: 0 <= i < |s| ==> IsDigit(s[i])
  {
    if |s| == 0 then 0 else DigitsValue(s[..|s| - 1]) * 10 + DigitValue(s[|s| - 1])
  }

  /** The decimal rendering of a natural number, without leading zeros. */
  function NatToString(n: nat): (r: string)
    ensures |r| > 0
    ensures forall i :: 0 <= i < |r| ==> IsDigit(r[i])
  {
    if n < 10 then [DigitChar(n)] else NatToString(n / 10) + [DigitChar(n % 10)]
  }

  /** `String(n)` for an integer `n`. */
  function IntToString(n: int): (r: string)
    ensures |r| > 0
  {
    if n < 0 then "-" + NatToString(-n) else NatToString(n)
  }

  /** Reading back a rendered natural number gives the number. */
  lemma {:induction false} NatToStringRoundTrip(n: nat)
    ensures DigitsValue(NatToString(n)) == n
  {
    if n >= 10 {
      NatToStringRoundTrip(n / 10);
      var s := NatToString(n);
      assert s[..|s| - 1] == NatToString(n / 10);
    }
  }

  const INT_MIN: int := -0x8000_0000
  const INT_MAX: int := 0x7FFF_FFFF

  /** The digits after an optional sign, read as a 32-bit value if they are all digits. */
  function ParseMagnitude(digits: string, negative: bool): (r: Option<int>)
    ensures r.Some? ==> INT_MIN <= r.value <= INT_MAX
  {
    if |digits| == 0 || !(forall i :: 0 <= i < |digits| ==> IsDigit(digits[i])) then None
    else
      var v: int := if negative then 0 - DigitsValue(digits) as int else DigitsValue(digits);
      if INT_MIN <= v <= INT_MAX then Some(v) else None
  }

  /** Java's `Integer.parseInt(s)` on ASCII input: an optional sign and at least one
      digit, within the 32-bit range; `None` stands for `NumberFormatException`. */
  function ParseJavaInt(s: string): (r: Option<int>)
    ensures r.Some? ==> INT_MIN <= r.value <= INT_MAX
    ensures r.Some? ==> exists i :: 0 <= i < |s| && IsDigit(s[i])
  {
    if |s| == 0 then None
    else if s[0] == '-' || s[0] == '+' then
      var r := ParseMagnitude(s[1..], s[0] == '-');
      assert r.Some? ==> s[1..][0] == s[1];
      r
    else ParseMagnitude(s, false)
  }

  /** Every 32-bit integer survives rendering and re-parsing. */
  lemma IntToStringRoundTrip(n: int)
    requires INT_MIN <= n <= INT_MAX
    ensures ParseJavaInt(IntToString(n)) == Some(n)
  {
    if n < 0 {
      NatToStringRoundTrip(-n);
      assert IntToString(n)[1..] == NatToString(-n);
    } else {
      NatToStringRoundTrip(n);
    }
  }
}

=== FILE: ui.dfy ===
/** Helpers the React pages share: looking a name up by id with a fallback label,
    grouping rows into chart buckets with a JavaScript object as accumulator,
    slicing a colour palette, owner filtering and JavaScript's `parseInt`. */
module Ui {
  import opened Common
  import opened Text

  // ---------------------------------------------------------------- lookups

  /** An id and the name shown for it (a plot, a crop or an account). */
  datatype Named = Named(id: int, name: string)

  /** `"ID " + id`, the label shown when a lookup finds nothing. */
  function IdLabel(id: int): string
  {
    "ID " + IntToString(id)
  }

  /** `list.find(x => x.id === id)`, then its name, or `fallback` when nothing matches. */
  function NameOf(named: seq<Named>, id: int, fallback: string): (r: string)
    ensures (forall i :: 0 <= i < |named| ==> named[i].id != id) ==> r == fallback
    ensures forall i :: 0 <= i < |named| && named[i].id == id && (forall j :: 0 <= j < i ==> named[j].id != id) ==>
              r == named[i].name
  {
    if |named| == 0 then fallback
    else if named[0].id == id then named[0].name
    else
      assert forall i :: 1 <= i < |named| ==> named[i] == named[1..][i - 1];
      NameOf(named[1..], id, fallback)
  }

  /** The page lookups `getLahanName`, `getTanamanName`, `getManagerName`. */
  function NameOrId(named: seq<Named>, id: int): (r: string)
    ensures (exists i :: 0 <= i < |named| && named[i].id == id) ==> r in NamesOf(named)
    ensures (forall i :: 0 <= i < |named| ==> named[i].id != id) ==> r == IdLabel(id)
    ensures forall i :: 0 <= i < |named| && named[i].id == id && (forall j :: 0 <= j < i ==> named[j].id != id) ==>
              r == named[i].name
  {
    NameLookupFacts(named, id, IdLabel(id));
    NameOf(named, id, IdLabel(id))
  }

  function NamesOf(named: seq<Named>): (r: seq<string>)
    ensures |r| == |named| && forall i :: 0 <= i < |named| ==> r[i] == named[i].name
  {
    seq(|named|, i requires 0 <= i < |named| => named[i].name)
  }

  /** A lookup that finds a match returns a listed name. */
  lemma {:induction false} NameLookupFacts(named: seq<Named>, id: int, fallback: string)
    ensures (exists i :: 0 <= i < |named| && named[i].id == id) ==> NameOf(named, id, fallback) in NamesOf(named)
  {
    if |named| > 0 && named[0].id != id {
      NameLookupFacts(named[1..], id, fallback);
      if exists i :: 0 <= i < |named| && named[i].id == id {
        var i :| 0 <= i < |named| && named[i].id == id;
        assert named[1..][i - 1].id == id;
        assert NamesOf(named[1..]) == NamesOf(named)[1..];
      }
    } else if |named| > 0 {
      assert NamesOf(named)[0] == named[0].name;
    }
  }

  /** Looking up either of two entries with different ids finds that entry. */
  lemma NameOfTwo(n1: Named, n2: Named, fallback1: string, fallback2: string)
    requires n1.id != n2.id
    ensures NameOf([n1, n2], n1.id, fallback1) == n1.name
    ensures NameOf([n1, n2], n2.id, fallback2) == n2.name
  {
    assert [n1, n2][1..] == [n2];
  }

  // ---------------------------------------------------------------- owner filter

  /** `currentUser && owner === currentUser.id_user`: nothing is owned without a user. */
  predicate OwnedBy(user: Option<int>, owner: int)
  {
    user.Some? && owner == user.value
  }

  // ---------------------------------------------------------------- grouping

  /** A chart's buckets: `Object.keys(acc)` and `Object.values(acc)`. */
  datatype Groups = Groups(labels: seq<string>, totals: seq<real>)

  predicate Distinct(labels: seq<string>)
  {
    forall i, j :: 0 <= i < j < |labels| ==> labels[i] != labels[j]
  }

  /** Where `k` sits among the labels, if it is there. */
  function IndexOf(labels: seq<string>, k: string): (r: Option<nat>)
    ensures r.Some? ==> r.value < |labels| && labels[r.value] == k
    ensures r.None? ==> k !in labels
  {
    if |labels| == 0 then None
    else if labels[|labels| - 1] == k then Some(|labels| - 1)
    else IndexOf(labels[..|labels| - 1], k)
  }

  /** Total weight of the rows whose key is `k`. */
  function WeightOf<T>(xs: seq<T>, key: T -> string, weight: T -> real, k: string): real
  {
    if |xs| == 0 then 0.0
    else WeightOf(xs[..|xs| - 1], key, weight, k) + (if key(xs[|xs| - 1]) == k then weight(xs[|xs| - 1]) else 0.0)
  }

  /** Total weight of all rows. */
  function TotalWeight<T>(xs: seq<T>, weight: T -> real): real
  {
    if |xs| == 0 then 0.0 else TotalWeight(xs[..|xs| - 1], weight) + weight(xs[|xs| - 1])
  }

  /** Rows none of which has key `k` weigh nothing under `k`. */
  lemma {:induction false} WeightOfAbsent<T>(xs: seq<T>, key: T -> string, weight: T -> real, k: string)
    requires forall x :: x in xs ==> key(x) != k
    ensures WeightOf(xs, key, weight, k) == 0.0
  {
    if |xs| > 0 {
      assert forall x :: x in xs[..|xs| - 1] ==> x in xs;
      WeightOfAbsent(xs[..|xs| - 1], key, weight, k);
    }
  }

  /** `acc[k] = (acc[k] || 0) + w`: adds to an existing bucket or opens a new one last. */
  function AddTo(g: Groups, k: string, w: real): (r: Groups)
    requires |g.labels| == |g.totals| && Distinct(g.labels)
    ensures |r.labels| == |r.totals| && Distinct(r.labels)
    ensures k in r.labels && |g.labels| <= |r.labels| && r.labels[..|g.labels|] == g.labels
    ensures k in g.labels ==> |r.labels| == |g.labels|
    ensures k !in g.labels ==> r.labels == g.labels + [k] && r.totals == g.totals + [w]
    ensures forall i :: 0 <= i < |g.labels| ==> r.totals[i] == g.totals[i] + (if g.labels[i] == k then w else 0.0)
  {
    match IndexOf(g.labels, k)
    case Some(i) => Groups(g.labels, g.totals[i := g.totals[i] + w])
    case None => Groups(g.labels + [k], g.totals + [w])
  }

  /** `xs.reduce((acc, x) => { acc[key(x)] = (acc[key(x)] || 0) + weight(x); return acc }, {})`:
      one bucket per distinct key, in order of first appearance, holding the key's total. */
  function GroupBy<T>(xs: seq<T>, key: T -> string, weight: T -> real): (g: Groups)
    ensures |g.labels| == |g.totals|
    ensures Distinct(g.labels)
    ensures forall x :: x in xs ==> key(x) in g.labels
    ensures forall l :: l in g.labels ==> exists x :: x in xs && key(x) == l
    ensures forall i :: 0 <= i < |g.labels| ==> g.totals[i] == WeightOf(xs, key, weight, g.labels[i])
    decreases |xs|
  {
    if |xs| == 0 then Groups([], [])
    else
      var g0 := GroupBy(xs[..|xs| - 1], key, weight);
      GroupByStep(xs, key, weight, g0);
      AddTo(g0, key(xs[|xs| - 1]), weight(xs[|xs| - 1]))
  }

  /** One step of the grouping: adding the last row to the buckets of the others. */
  lemma GroupByStep<T>(xs: seq<T>, key: T -> string, weight: T -> real, g0: Groups)
    requires |xs| > 0
    requires |g0.labels| == |g0.totals| && Distinct(g0.labels)
    requires forall x :: x in xs[..|xs| - 1] ==> key(x) in g0.labels
    requires forall i :: 0 <= i < |g0.labels| ==> g0.totals[i] == WeightOf(xs[..|xs| - 1], key, weight, g0.labels[i])
    ensures var g := AddTo(g0, key(xs[|xs| - 1]), weight(xs[|xs| - 1]));
            (forall x :: x in xs ==> key(x) in g.labels) &&
            (forall i :: 0 <= i < |g.labels| ==> g.totals[i] == WeightOf(xs, key, weight, g.labels[i]))
  {
    var init := xs[..|xs| - 1];
    var last := xs[|xs| - 1];
    var k := key(last);
    var g := AddTo(g0, k, weight(last));
    assert xs == init + [last];
    forall x | x in xs ensures key(x) in g.labels {
      if x != last {
        assert x in init;
        assert key(x) in g.labels[..|g0.labels|];
      }
    }
    forall i | 0 <= i < |g.labels| ensures g.totals[i] == WeightOf(xs, key, weight, g.labels[i]) {
      var l := g.labels[i];
      assert WeightOf(xs, key, weight, l) == WeightOf(init, key, weight, l) + (if k == l then weight(last) else 0.0);
      if i < |g0.labels| {
        assert l == g0.labels[i];
      } else {
        assert k !in g0.labels && l == k;
        forall x | x in init ensures key(x) != k {
          assert key(x) in g0.labels;
        }
        WeightOfAbsent(init, key, weight, k);
      }
    }
  }

  /** Adding a weight to the buckets adds it to their sum. */
  lemma AddToSum(g: Groups, k: string, w: real)
    requires |g.labels| == |g.totals| && Distinct(g.labels)
    ensures Sum(AddTo(g, k, w).totals) == Sum(g.totals) + w
  {
    match IndexOf(g.labels, k)
    case Some(i) =>
      SumUpdate(g.totals, i, g.totals[i] + w);
    case None =>
      SumAppend(g.totals, [w]);
  }

  /** Adding to the only bucket of its key. */
  lemma AddToExisting(k: string, v: real, w: real)
    ensures AddTo(Groups([k], [v]), k, w) == Groups([k], [v + w])
  {
    assert IndexOf([k], k) == Some(0);
    assert [v][0 := v + w] == [v + w];
  }

  /** One row makes one bucket. */
  lemma GroupByOne<T>(a: T, key: T -> string, weight: T -> real)
    ensures GroupBy([a], key, weight) == Groups([key(a)], [weight(a)])
  {
    assert [a][..0] == [];
  }

  /** The buckets together hold the total weight of the rows. */
  lemma {:induction false} GroupByTotal<T>(xs: seq<T>, key: T -> string, weight: T -> real)
    ensures Sum(GroupBy(xs, key, weight).totals) == TotalWeight(xs, weight)
  {
    if |xs| > 0 {
      var init := xs[..|xs| - 1];
      var last := xs[|xs| - 1];
      var g0 := GroupBy(init, key, weight);
      GroupByTotal(init, key, weight);
      AddToSum(g0, key(last), weight(last));
      assert GroupBy(xs, key, weight) == AddTo(g0, key(last), weight(last));
    }
  }

  /** The weight of a row counted once, for histograms. */
  function One<T>(x: T): real
  {
    1.0
  }

  /** Counting rows: the total weight of `n` rows of weight one is `n`. */
  lemma {:induction false} TotalOfOnes<T>(xs: seq<T>)
    ensures TotalWeight(xs, One) == |xs| as real
  {
    if |xs| > 0 {
      TotalOfOnes(xs[..|xs| - 1]);
    }
  }

  /** A histogram: how many rows carry each key. The counts add up to the number of rows. */
  function Histogram<T>(xs: seq<T>, key: T -> string): (g: Groups)
    ensures |g.labels| == |g.totals| && Distinct(g.labels)
    ensures forall i :: 0 <= i < |g.labels| ==> g.totals[i] == WeightOf(xs, key, One, g.labels[i])
    ensures forall x :: x in xs ==> key(x) in g.labels
    ensures forall l :: l in g.labels ==> exists x :: x in xs && key(x) == l
    ensures Sum(g.totals) == |xs| as real
  {
    GroupByTotal(xs, key, One);
    TotalOfOnes(xs);
    GroupBy(xs, key, One)
  }

  // ---------------------------------------------------------------- colours

  /** `palette.slice(0, labels.length)`: one colour per bucket, as far as the palette goes. */
  function Colors(palette: seq<string>, labels: seq<string>): (r: seq<string>)
    ensures |r| == if |labels| < |palette| then |labels| else |palette|
    ensures forall i :: 0 <= i < |r| ==> r[i] == palette[i]
  {
    Take(palette, |labels|)
  }

  // ---------------------------------------------------------------- parseInt

  /** The whitespace `parseInt` skips before the number (the ASCII part of it). */
  predicate IsJsSpace(c: char)
  {
    c == ' ' || c == '\t' || c == '\n' || c == '\r' || c == '\U{B}' || c == '\U{C}'
  }

  function SkipSpaces(s: string): (r: string)
    ensures |r| <= |s| && r == s[|s| - |r|..]
    ensures |r| > 0 ==> !IsJsSpace(r[0])
  {
    if |s| > 0 && IsJsSpace(s[0]) then SkipSpaces(s[1..]) else s
  }

  /** The longest prefix of decimal digits. */
  function DigitPrefix(s: string): (r: string)
    ensures |r| <= |s| && r == s[..|r|]
    ensures forall i :: 0 <= i < |r| ==> IsDigit(r[i])
    ensures |r| < |s| ==> !IsDigit(s[|r|])
  {
    if |s| > 0 && IsDigit(s[0]) then [s[0]] + DigitPrefix(s[1..]) else ""
  }

  /** `parseInt(s)` in base ten: leading whitespace, an optional sign, then as many digits
      as there are; `None` stands for `NaN` (no digit at all). Trailing text is ignored. */
  function JsParseInt(s: string): (r: Option<int>)
  {
    var t := SkipSpaces(s);
    var neg := |t| > 0 && t[0] == '-';
    var rest := if |t| > 0 && (t[0] == '-' || t[0] == '+') then t[1..] else t;
    var digits := DigitPrefix(rest);
    if |digits| == 0 then None
    else if neg then Some(0 - DigitsValue(digits)) else Some(DigitsValue(digits))
  }

  /** `parseInt(s) || 0`: `NaN` (and zero) become zero. A rendered integer reads back
      as itself, a run of digits as its decimal value, and text that opens with anything
      but whitespace, a sign or a digit as zero. */
  function JsParseIntOrZero(s: string): (r: int)
    ensures forall n :: s == IntToString(n) ==> r == n
    ensures |s| > 0 && (forall i :: 0 <= i < |s| ==> IsDigit(s[i])) ==> r == DigitsValue(s)
    ensures |s| > 0 && !IsJsSpace(s[0]) && !IsDigit(s[0]) && s[0] != '-' && s[0] != '+' ==> r == 0
  {
    JsParseIntOfIntText(s);
    JsParseIntOfDigits(s);
    match JsParseInt(s)
    case Some(n) => n
    case None => 0
  }

  lemma JsParseIntOfDigits(s: string)
    ensures |s| > 0 && (forall i :: 0 <= i < |s| ==> IsDigit(s[i])) ==> JsParseInt(s) == Some(DigitsValue(s))
  {
    if |s| > 0 && (forall i :: 0 <= i < |s| ==> IsDigit(s[i])) {
      assert IsDigit(s[0]) && !IsJsSpace(s[0]) && s[0] != '-' && s[0] != '+';
      assert SkipSpaces(s) == s;
      DigitPrefixOfDigits(s);
    }
  }

  lemma JsParseIntOfIntText(s: string)
    ensures forall n :: s == IntToString(n) ==> JsParseInt(s) == Some(n)
  {
    forall n | s == IntToString(n) ensures JsParseInt(s) == Some(n) {
      JsParseIntRoundTrip(n);
    }
  }

  /** A string that is all digits is its own digit prefix. */
  lemma {:induction false} DigitPrefixOfDigits(s: string)
    requires forall i :: 0 <= i < |s| ==> IsDigit(s[i])
    ensures DigitPrefix(s) == s
  {
    if |s| > 0 {
      DigitPrefixOfDigits(s[1..]);
    }
  }

  /** `parseInt(String(n)) === n` for every integer. */
  lemma JsParseIntRoundTrip(n: int)
    ensures JsParseInt(IntToString(n)) == Some(n)
  {
    var s := IntToString(n);
    NatToStringRoundTrip(if n < 0 then -n else n);
    if n < 0 {
      assert s[1..] == NatToString(-n);
      DigitPrefixOfDigits(s[1..]);
    } else {
      DigitPrefixOfDigits(s);
    }
  }

  /** `parseInt` reads a leading number and ignores what follows, where Java's
      `Integer.parseInt` refuses the whole string. */
  lemma ParseIntIsLenient()
    ensures JsParseInt("12kg") == Some(12)
    ensures ParseJavaInt("12kg").None?
  {
    JsReadsLeadingDigits();
    JavaRefusesTrailingText();
  }

  lemma JavaRefusesTrailingText()
    ensures ParseJavaInt("12kg").None?
  {
    var s := "12kg";
    assert s[0] == '1' && !IsDigit(s[2]);
    assert ParseMagnitude(s, false).None?;
  }

  lemma JsReadsLeadingDigits()
    ensures JsParseInt("12kg") == Some(12)
  {
    var s := "12kg";
    assert SkipSpaces(s) == s by { assert !IsJsSpace(s[0]); }
    assert DigitPrefix(s) == "12" by {
      assert s[1..] == "2kg" && "2kg"[1..] == "kg";
      assert DigitPrefix("kg") == "";
    }
    assert DigitsValue("12") == 12 by { assert "12"[..1] == "1"; }
  }

  // ---------------------------------------------------------------- form submission

  /** A request a form sends: verb, path and the JSON body's fields. */
  datatype Submission = Submission(verb: string, path: string, body: map<string, string>)

  /** The submit handler of the crop and plot pages: when editing, PUT to
      `base/<id>` with the form minus its id field; otherwise POST the whole form to `base`. */
  function EditOrCreate(base: string, idKey: string, form: map<string, string>, editing: bool): (r: Submission)
    requires editing ==> idKey in form
    ensures editing ==> r.verb == "PUT" && r.path == base + "/" + form[idKey]
    ensures editing ==> r.body.Keys == form.Keys - {idKey} && forall k :: k in r.body ==> r.body[k] == form[k]
    ensures !editing ==> r == Submission("POST", base, form)
  {
    if editing then Submission("PUT", base + "/" + form[idKey], form - {idKey})
    else Submission("POST", base, form)
  }
}

=== FILE: user_routes.dfy ===
/** Registration and login under `/api/user`. Password hashing, the account store and
    token signing are oracles; an exception the handler does not catch (a syntax error in
    the body, a null body, hashing a missing password) becomes Spark's 500. */
module UserRoutes {
  import opened Common
  import opened Text
  import opened Http
  import opened Records
  import Auth

  /** POST /register: hashes the password and saves the account. Both outcomes of the
      save are reported with status 200. */
  function Register(body: Json<User>, hash: string -> string, save: User -> bool): (r: Handled<User>)
    ensures !body.Parsed? || body.value.password.None? ==> r == Handled(Reply(500, InternalError), None)
    ensures r.record.Some? <==> body.Parsed? && body.value.password.Some?
    ensures r.record.Some? ==>
              var u := body.value;
              r.record.value == User(0, u.username, Some(hash(u.password.value)), u.role, u.nama)
    ensures r.record.Some? ==> r.reply.status == 200 && (r.reply.reason == Done <==> save(r.record.value))
  {
    if !body.Parsed? || body.value.password.None? then Handled(Reply(500, InternalError), None)
    else
      var u := body.value;
      var account := User(0, u.username, Some(hash(u.password.value)), u.role, u.nama);
      if save(account) then Handled(Reply(200, Done), Some(account))
      else Handled(Reply(200, StoreFailed), Some(account))
  }

  /** The login reply: status, the issued token and the account echoed back. */
  datatype LoginReply = LoginReply(reply: Reply, token: Option<string>, user: Option<User>)

  /** POST /login: on a match, a token carrying the account's username and role, and
      the account with its password removed; otherwise 401. */
  function Login(body: Json<User>, login: (Option<string>, Option<string>) -> Option<User>,
                 issue: (Option<string>, Option<string>) -> string): (r: LoginReply)
    ensures !body.Parsed? ==> r == LoginReply(Reply(500, InternalError), None, None)
    ensures body.Parsed? ==>
              (r.reply.status == 200 <==> login(body.value.username, body.value.password).Some?)
    ensures body.Parsed? && login(body.value.username, body.value.password).None? ==>
              r == LoginReply(Reply(401, BadCredentials), None, None)
    ensures r.reply.status == 200 ==>
              var acct := login(body.value.username, body.value.password).value;
              r.token == Some(issue(acct.username, acct.role)) && r.user == Some(acct.(password := None))
    ensures r.user.Some? ==> r.user.value.password.None?
  {
    if !body.Parsed? then LoginReply(Reply(500, InternalError), None, None)
    else
      match login(body.value.username, body.value.password)
      case None => LoginReply(Reply(401, BadCredentials), None, None)
      case Some(acct) =>
        LoginReply(Reply(200, Done), Some(issue(acct.username, acct.role)), Some(acct.(password := None)))
  }

  /** End to end: an account with role "manajer" that logs in, and then presents the
      issued token as a bearer token, passes the auth gate on every manager path,
      provided the token verifies and carries the role it was issued with. */
  lemma {:induction false} ManagerLoginOpensManagerArea(body: Json<User>,
      login: (Option<string>, Option<string>) -> Option<User>,
      issue: (Option<string>, Option<string>) -> string,
      verify: string -> bool, roleOf: string -> Option<string>, path: string)
    requires body.Parsed? && login(body.value.username, body.value.password).Some?
    requires login(body.value.username, body.value.password).value.role == Some("manajer")
    requires forall u, role :: verify(issue(u, role)) && roleOf(issue(u, role)) == role
    requires StartsWith(path, "/api/manager")
    ensures Login(body, login, issue).token.Some?
    ensures Auth.Decide(path, Some(Auth.BEARER + Login(body, login, issue).token.value), verify, roleOf) == Allow
  {
    var acct := login(body.value.username, body.value.password).value;
    var token := issue(acct.username, acct.role);
    var header := Auth.BEARER + token;
    assert StartsWith(header, Auth.BEARER) by { assert header[..|Auth.BEARER|] == Auth.BEARER; }
    assert Auth.Token(header) == token;
    assert verify(token) && roleOf(token) == Some("manajer");
    Auth.ManagerAdmittedOnManagerPaths(path);
  }
}
